=== FILE: README.md ===
# swift-design-os, modelled in Dafny

swift-design-os is a SwiftUI design system with two halves. The first is a set
of loaders that read a product's planning files and turn them into values:
the product overview, the roadmap, the data model, the shell, the section
specs and the design tokens. The second is a set of example apps built on
top of it:
- the TaskFlow task managers for macOS, iOS and watchOS, plus a cross-platform example;
- a counter;
- the design-system app's Sections screen.

This project models the logic behind both halves:
- **Loaders.** Each loader's line-by-line scan is modelled as a method with a
  loop. The method is proved equal to a fold of one step function. That
  fold is in turn proved equal to a declarative description: which heading
  a line falls under, and which items and prose each section collects.
- **Task stores.** Each app's `TaskManager` is a class whose methods update
  `tasks` and `projects` in place. Their contracts state the new lists
  through value-level specifications.
- **Screens.** Filtering, sorting, counting, selection, deletion and the
  counter's arithmetic are modelled as functions and methods. Lemmas state
  what each screen shows.

Dates are integers. "Now", the start of today, today and tomorrow are
parameters. The calendar's same-day test is a parameter `dayOf` that maps a
date to its day. Identifiers (`UUID`) are integers.

## Model

| member | source | states |
|---|---|---|
| ProductLoader.LoadProductOverview | Sources/SwiftDesignOS/Loaders/ProductLoader.swift:31-82 | a missing file is `fileNotFound` with the overview path; otherwise the result is the overview the line scan produces |
| ProductLoader.OverviewOfSpec | Sources/SwiftDesignOS/Loaders/ProductLoader.swift:45-81 | "Missing product name" exactly when no `# ` line exists; otherwise the name is the last title, the description is the overview prose joined by spaces, the features are the trimmed `- ` items under `## Features`, and the problems are exactly ProblemsAfter: each prose line of the problems section paired with the title open before it |
| ProductLoader.OverviewSection | Sources/SwiftDesignOS/Loaders/ProductLoader.swift:48-50 | the current section is the lower-cased text of the last `## ` line seen |
| ProductLoader.OverviewName | Sources/SwiftDesignOS/Loaders/ProductLoader.swift:46-47 | the name is the trimmed text of the last `# ` line |
| ProductLoader.OverviewFeatures | Sources/SwiftDesignOS/Loaders/ProductLoader.swift:55-59 | the features are exactly the `- ` items seen under the features section, in order |
| ProductLoader.OverviewDescription | Sources/SwiftDesignOS/Loaders/ProductLoader.swift:60-68 | the description accumulates exactly the non-blank prose lines of the overview section, each preceded by a space |
| ProductLoader.OverviewProblems | Sources/SwiftDesignOS/Loaders/ProductLoader.swift:51-54 | after any prefix, the recorded problems are ProblemsAfter and the pending title is OpenTitle: a later `### ` under problems replaces the pending title, the title survives a change of section, only prose of the problems section pairs with it, and pairing clears it |
| ProductLoader.OpenTitleFrom | Sources/SwiftDesignOS/Loaders/ProductLoader.swift:51-54 | a problem title stays open until the next problem title or the next prose line of the problems section, whatever other lines come between |
| ProductLoader.OpenTitleSource | Sources/SwiftDesignOS/Loaders/ProductLoader.swift:51-54 | conversely, an open title is the text of a problem title with no problem title and no problems prose after it |
| ProductLoader.ProblemsBounded | Sources/SwiftDesignOS/Loaders/ProductLoader.swift:51-68 | each problem consumes its own `### ` title under the problems section: the problems recorded, plus the pending title, never exceed those titles |
| ProductLoader.SolutionsAreProblemProse | Sources/SwiftDesignOS/Loaders/ProductLoader.swift:60-68 | each recorded problem takes its solution from a prose line of the problems section, so there are no more problems than such lines |
| ProductLoader.LoadProductRoadmap | Sources/SwiftDesignOS/Loaders/ProductLoader.swift:84-133 | a missing file is `fileNotFound` with the roadmap path; otherwise the roadmap the line scan produces |
| ProductLoader.TaggedHeading | Sources/SwiftDesignOS/Loaders/ProductLoader.swift:110-112 | a heading with a `{id}` tag gets that id, and a title that is the heading without the tag, trimmed |
| ProductLoader.UntaggedHeading | Sources/SwiftDesignOS/Loaders/ProductLoader.swift:113-116 | a heading without a tag is its own title, and its id is the heading lower-cased with every space turned into `-` |
| ProductLoader.TagFromSpec | Sources/SwiftDesignOS/Loaders/ProductLoader.swift:110 | the tag search finds the first `{` followed by a non-`}` character and a later `}`, and reports none when there is no such place |
| ProductLoader.RoadmapCounts | Sources/SwiftDesignOS/Loaders/ProductLoader.swift:97-117 | after any prefix, a section is pending exactly when a heading has been seen, and its id and title are the last heading's; all headings but the last have been flushed, and `order` counts the flushed ones |
| ProductLoader.RoadmapDescription | Sources/SwiftDesignOS/Loaders/ProductLoader.swift:117-119 | the pending description is the non-blank lines since the last heading, trimmed and space-prefixed |
| ProductLoader.RoadmapSections | Sources/SwiftDesignOS/Loaders/ProductLoader.swift:97-132 | one section per `## ` line, in order, numbered 0, 1, 2, …; each has its heading's id and title and the trimmed prose up to the next heading |
| DataModelLoader.LoadDataModel | Sources/SwiftDesignOS/Loaders/DataModelLoader.swift:31-86 | a missing file is `fileNotFound`; otherwise the data model the line scan produces |
| DataModelLoader.DataModelSectionAndCurrent | Sources/SwiftDesignOS/Loaders/DataModelLoader.swift:45-58 | the current section and entity name are the last `## ` and `### ` lines seen |
| DataModelLoader.DataModelRelationships | Sources/SwiftDesignOS/Loaders/DataModelLoader.swift:59-65 | the relationships are exactly the `- ` items under the relationships section |
| DataModelLoader.DataModelBuffer | Sources/SwiftDesignOS/Loaders/DataModelLoader.swift:59-71 | the description buffer holds what the lines since the last `### ` contributed |
| DataModelLoader.DataModelEntities | Sources/SwiftDesignOS/Loaders/DataModelLoader.swift:48-85 | with every `### ` under the entities section, there is one entity per `### ` line, in order, described by the buffer up to the next one |
| DataModelLoader.LastEntityEmitted | Sources/SwiftDesignOS/Loaders/DataModelLoader.swift:74-80 | the final flush emits the entity of the last `### ` line, whatever section the file ends in |
| DataModelLoader.EntitiesBounded | Sources/SwiftDesignOS/Loaders/DataModelLoader.swift:48-80 | there are never more entities than `### ` lines |
| ShellLoader.LoadShellSpec | Sources/SwiftDesignOS/Loaders/ShellLoader.swift:49-86 | the spec keeps the raw text and is the one the line scan produces |
| ShellLoader.LoadShellInfo | Sources/SwiftDesignOS/Loaders/ShellLoader.swift:31-47 | the load throws exactly when the spec file exists but cannot be read, passing on Foundation's error; otherwise the spec is absent exactly when its file is, is the scanned spec of the file's text when present, and `hasComponents` holds exactly for a directory |
| ShellLoader.ShellSpecOfSpec | Sources/SwiftDesignOS/Loaders/ShellLoader.swift:59-85 | the navigation items are the `- ` items under navigation; the overview is its items and prose joined and trimmed; the layout is the last prose line of layout, or "" |
| ShellLoader.UnrecognisedLinesIgnored | Sources/SwiftDesignOS/Loaders/ShellLoader.swift:59-78 | lines outside the three recognised sections change nothing until the next `## ` line |
| SectionLoader.ParseSpec | Sources/SwiftDesignOS/Loaders/SectionLoader.swift:58-98 | no spec gives no parse; otherwise the parse is the one the line scan produces |
| SectionLoader.SpecSectionAndTitle | Sources/SwiftDesignOS/Loaders/SectionLoader.swift:69-73 | the section is the last `## ` line lower-cased, and the title is the last `# ` line trimmed |
| SectionLoader.SpecItems | Sources/SwiftDesignOS/Loaders/SectionLoader.swift:74-80 | the user flows and UI requirements are the `- ` items under those two sections |
| SectionLoader.SpecOverview | Sources/SwiftDesignOS/Loaders/SectionLoader.swift:81-85 | the overview accumulates exactly the non-blank prose lines of the overview section |
| SectionLoader.ParsedSpecOfSpec | Sources/SwiftDesignOS/Loaders/SectionLoader.swift:68-97 | title, overview, user flows and UI requirements, stated declaratively over the lines |
| SectionLoader.UsesShellIff | Sources/SwiftDesignOS/Loaders/SectionLoader.swift:89 | `useShell` holds exactly when "shell" and "use" each occur somewhere, in any case |
| SectionLoader.DesignsOfSpec | Sources/SwiftDesignOS/Loaders/SectionLoader.swift:118-130 | exactly the `.swift` and `.json` files become designs, and no others |
| SectionLoader.ScreenDesigns | Sources/SwiftDesignOS/Loaders/SectionLoader.swift:111-131 | an unreadable directory gives no designs; every design path lies inside the designs directory |
| SectionLoader.DesignsAppend | Sources/SwiftDesignOS/Loaders/SectionLoader.swift:118 | the listing is processed in order, file by file |
| SectionLoader.SwiftDesign | Sources/SwiftDesignOS/Loaders/SectionLoader.swift:121-123 | `x.swift` is named `x`, and its component name is `x` |
| SectionLoader.JsonDesign | Sources/SwiftDesignOS/Loaders/SectionLoader.swift:121-123 | `x.json` is named `x`, with an empty component name |
| SectionLoader.PathExtension | Sources/SwiftDesignOS/Loaders/SectionLoader.swift:143 | the extension has no dot and is empty when the name has no dot or its only dot is the first character; otherwise the name ends with the dot and the extension, and the dot is not the first character |
| SectionLoader.ExtensionAfterLastDot | Sources/SwiftDesignOS/Loaders/SectionLoader.swift:143 | `base.ext` has extension `ext` when `ext` has no dot and `base` is not empty |
| SectionLoader.ScreenshotsOf | Sources/SwiftDesignOS/Loaders/SectionLoader.swift:142-156 | exactly the image files whose path makes a URL become screenshots |
| SectionLoader.Screenshots | Sources/SwiftDesignOS/Loaders/SectionLoader.swift:133-157 | an unreadable directory gives no screenshots, and there are never more screenshots than files |
| SectionLoader.ImageName | Sources/SwiftDesignOS/Loaders/SectionLoader.swift:140-146 | `base.png` and the other listed extensions, with a non-empty base without a dot, are images named `base` |
| SectionLoader.HiddenFileSkipped | Sources/SwiftDesignOS/Loaders/SectionLoader.swift:143-144 | a hidden file such as `.png` has no extension, so it is not an image and is skipped |
| SectionLoader.LowerExtensionName | Sources/SwiftDesignOS/Loaders/SectionLoader.swift:143-146 | a lower-case extension is removed to give the name |
| SectionLoader.DirectoryNames | Sources/SwiftDesignOS/Loaders/SectionLoader.swift:169-175 | exactly the directory entries are kept |
| SectionLoader.SortSpec | Sources/SwiftDesignOS/Loaders/SectionLoader.swift:177 | the sort returns the same names, ascending |
| SectionLoader.GetAllSectionIds | Sources/SwiftDesignOS/Loaders/SectionLoader.swift:159-178 | an unreadable directory gives no ids; otherwise the directory names, sorted |
| DesignSystemLoader.LoadColors | Sources/SwiftDesignOS/Loaders/DesignSystemLoader.swift:56-75 | succeeds exactly when primary, secondary and neutral are strings, and then carries them; otherwise the "Missing required color fields" error |
| DesignSystemLoader.LoadTypography | Sources/SwiftDesignOS/Loaders/DesignSystemLoader.swift:77-96 | succeeds exactly when heading, body and mono are strings, and then carries them; otherwise the "Missing required typography fields" error |
| DesignSystemLoader.LoadDesignSystem | Sources/SwiftDesignOS/Loaders/DesignSystemLoader.swift:31-54 | the load fails exactly when an existing file cannot be read or lacks its fields; the colour file is tried first, so its read error or "Missing required color fields" wins, and otherwise the typography file's read error or "Missing required typography fields" is thrown; on success each token set is present exactly when its file exists and is the one its loader read |
| DesignSystemLoader.HasDesignSystemMeansTokens | Sources/SwiftDesignOS/Loaders/DesignSystemLoader.swift:98-101 | with neither file the design system is empty; with one, a successful load carries at least one token set |
| DesignSystemLoader.ColorsRoundTrip | Sources/SwiftDesignOS/Loaders/DesignSystemLoader.swift:63-74 | a colours object with the three string fields loads back to them, whatever other keys it has |
| DesignSystemLoader.TypographyRoundTrip | Sources/SwiftDesignOS/Loaders/DesignSystemLoader.swift:84-95 | the same for typography |
| ColorHex.ColorFromHex | Examples/TaskFlowmacOS/Sources/main.swift:237-259 | a colour exists exactly when the trimmed text has 3, 6 or 8 characters; its channels are below 256 |
| ColorHex.ThreeDigits | Examples/TaskFlowmacOS/Sources/main.swift:243-244 | `RGB` gives an opaque colour with each digit times 17 |
| ColorHex.SixDigits | Examples/TaskFlowmacOS/Sources/main.swift:245-246 | `RRGGBB` gives an opaque colour with the three byte pairs |
| ColorHex.EightDigits | Examples/TaskFlowmacOS/Sources/main.swift:247-248 | `AARRGGBB` gives the four byte pairs, opacity first |
| ColorHex.HashPrefix | Examples/TaskFlowmacOS/Sources/main.swift:238 | a leading `#` is ignored |
| ColorHex.ToHex | Examples/TaskFlowmacOS/Sources/main.swift:261-269 | `#` followed by six hex digits |
| ColorHex.HexRoundTrip | Examples/TaskFlowmacOS/Sources/main.swift:211-233 | a colour written by `toHex` decodes back to the same channels, opaque |
| ColorHex.DecodedColor | Examples/TaskFlowiOS/Sources/main.swift:210-211 | a stored colour is used only when it has an accepted length |
| Tasks.SortByDue | Examples/TaskFlowiOS/Sources/TaskListView.swift:48 | the sort by due date is ascending and a permutation |
| Tasks.FirstIndex | Examples/TaskFlowmacOS/Sources/main.swift:135-145 | `firstIndex(where: id)`: the first position with the id, or none exactly when no task has it |
| Tasks.FirstProject | Examples/TaskFlowmacOS/Sources/main.swift:160-162 | `first(where:)`: the first project with the id, or none exactly when there is none |
| Tasks.ReplaceFirstSpec | Examples/TaskFlowmacOS/Sources/main.swift:135-139 | an update replaces only the first task with the same id, and does nothing when there is none |
| Tasks.ToggleFirstSpec | Examples/TaskFlowmacOS/Sources/main.swift:141-145 | a toggle flips `isCompleted` of only the first task with the id |
| Tasks.ToggleTwice | Examples/TaskFlowmacOS/Sources/main.swift:141-145 | toggling twice restores the list |
| Tasks.RemoveTaskSpec | Examples/TaskFlowmacOS/Sources/main.swift:147-149 | after a delete no task has the id, every other task keeps its multiplicity, and the length drops by the number removed |
| Tasks.RemoveIdsSpec | Examples/TaskFlowiOS/Sources/main.swift:144-146 | removing a set of ids leaves none of them and keeps every other task |
| Tasks.RemoveIdsStep | Examples/TaskFlowiOS/Sources/main.swift:144-146 | deleting one more id equals removing the enlarged set |
| Tasks.CascadeLeavesNoOrphans | Examples/TaskFlowmacOS/Sources/main.swift:155-158 | deleting a project leaves no task of that project, and keeps every other task |
| TaskFlowMacOS.SampleTasks | Examples/TaskFlowmacOS/Sources/main.swift:110-129 | ten sample tasks, each in one of the three sample projects |
| TaskFlowMacOS.TaskManager.AddTask | Examples/TaskFlowmacOS/Sources/main.swift:131-133 | the task is appended and the projects are unchanged |
| TaskFlowMacOS.TaskManager.UpdateTask | Examples/TaskFlowmacOS/Sources/main.swift:135-139 | the tasks become the first-match replacement |
| TaskFlowMacOS.TaskManager.ToggleTask | Examples/TaskFlowmacOS/Sources/main.swift:141-145 | the tasks become the first-match toggle |
| TaskFlowMacOS.TaskManager.DeleteTask | Examples/TaskFlowmacOS/Sources/main.swift:147-149 | every task with the id is removed |
| TaskFlowMacOS.TaskManager.AddProject | Examples/TaskFlowmacOS/Sources/main.swift:151-153 | the project is appended and the tasks are unchanged |
| TaskFlowMacOS.TaskManager.DeleteProject | Examples/TaskFlowmacOS/Sources/main.swift:155-158 | the project and all its tasks are removed |
| TaskFlowMacOS.TaskManager.GetProject | Examples/TaskFlowmacOS/Sources/main.swift:160-162 | the first project with the id, or none exactly when there is none |
| TaskFlowMacOS.TaskManager.ProjectTasks | Examples/TaskFlowmacOS/Sources/main.swift:164-166 | exactly the project's tasks, each as often as stored |
| TaskFlowIOS.SampleTasksHaveProjects | Examples/TaskFlowiOS/Sources/main.swift:117-132 | every sample task belongs to a sample project |
| TaskFlowIOS.TaskManager.AddTask | Examples/TaskFlowiOS/Sources/main.swift:134-136 | the task is appended |
| TaskFlowIOS.TaskManager.ToggleTask | Examples/TaskFlowiOS/Sources/main.swift:138-142 | first-match toggle |
| TaskFlowIOS.TaskManager.DeleteTask | Examples/TaskFlowiOS/Sources/main.swift:144-146 | every task with the id is removed |
| TaskFlowIOS.TaskManager.AddProject | Examples/TaskFlowiOS/Sources/main.swift:148-150 | the project is appended |
| TaskFlowIOS.TaskManager.DeleteProject | Examples/TaskFlowiOS/Sources/main.swift:152-155 | the project and its tasks are removed |
| TaskFlowIOS.TaskManager.GetProject | Examples/TaskFlowiOS/Sources/main.swift:157-159 | the first project with the id, or none exactly when there is none |
| TaskFlowExample.SampleHasOneCompleted | Examples/TaskFlowExample/Sources/TaskManager.swift:32-61 | the store starts with three sample tasks, exactly one of them completed |
| TaskFlowExample.TaskManager.AddTask | Examples/TaskFlowExample/Sources/TaskManager.swift:12-14 | the task is appended |
| TaskFlowExample.TaskManager.UpdateTask | Examples/TaskFlowExample/Sources/TaskManager.swift:16-20 | first-match replacement; tasks with other ids are untouched |
| TaskFlowExample.TaskManager.DeleteTask | Examples/TaskFlowExample/Sources/TaskManager.swift:22-24 | every task with the id is removed |
| TaskFlowExample.TaskManager.ToggleTaskCompletion | Examples/TaskFlowExample/Sources/TaskManager.swift:26-30 | first-match toggle; tasks with other ids are untouched |
| TaskFlowWatchOS.NameRoundTrip | Examples/TaskFlowWatchOS/Sources/main.swift:229-231 | a watch colour's raw name decodes back to it, and only the names of colours decode |
| TaskFlowWatchOS.ColorMaps | Examples/TaskFlowWatchOS/Sources/main.swift:200-226 | the mappings between system and watch colours invert each other on the mapped colours; unmapped ones fall back to blue |
| TaskFlowWatchOS.DecodeProject | Examples/TaskFlowWatchOS/Sources/main.swift:177-190 | the colour follows the stored watch colour, and a missing or unknown name gives blue |
| TaskFlowWatchOS.ProjectRoundTrip | Examples/TaskFlowWatchOS/Sources/main.swift:177-198 | encoding then decoding a project keeps its id, name, icon and watch colour |
| TaskFlowWatchOS.TaskManager.AddTask | Examples/TaskFlowWatchOS/Sources/main.swift:86-88 | the task is appended |
| TaskFlowWatchOS.TaskManager.ToggleTask | Examples/TaskFlowWatchOS/Sources/main.swift:90-94 | first-match toggle |
| TaskFlowWatchOS.TaskManager.DeleteTask | Examples/TaskFlowWatchOS/Sources/main.swift:96-98 | every task with the id is removed |
| TaskFlowWatchOS.TaskManager.AddProject | Examples/TaskFlowWatchOS/Sources/main.swift:100-102 | the project is appended |
| TaskFlowWatchOS.TaskManager.GetProject | Examples/TaskFlowWatchOS/Sources/main.swift:104-106 | the first project with the id, or none exactly when there is none |
| TaskFlowWatchOS.TaskManager.TasksForDate | Examples/TaskFlowWatchOS/Sources/main.swift:108-112 | exactly the tasks due on the date's day, each as often as stored |
| TaskFlowWatchOS.TaskManager.UpcomingTasks | Examples/TaskFlowWatchOS/Sources/main.swift:114-121 | at most `limit` tasks, all incomplete and due after today, ascending by due date; any upcoming task left out is due no earlier than every one shown |
| IOSTaskList.FilteredTasks | Examples/TaskFlowiOS/Sources/TaskListView.swift:17-49 | ascending by due date; a task is shown exactly when stored and it passes the project, search and filter tests |
| IOSTaskList.ShownAsStored | Examples/TaskFlowiOS/Sources/TaskListView.swift:17-49 | with no project, search or filter, a list already ascending by due date is shown as stored |
| IOSTaskList.DeleteTasks | Examples/TaskFlowiOS/Sources/TaskListView.swift:109-113 | (corrected) the store loses exactly the tasks of the swiped rows as they were shown |
| IOSTaskList.DeleteRows | Examples/TaskFlowiOS/Sources/TaskListView.swift:110-112 | deleting the rows one by one removes the set of their ids |
| TaskRows.DeleteAsWritten | Examples/TaskFlowiOS/Sources/TaskListView.swift:109-113 | (as written) each offset indexes the list recomputed after the previous delete; `None` is the out-of-range trap; no offsets change nothing, and no deletion adds a task |
| TaskRows.DeleteAsWrittenFirstAndThird | Examples/TaskFlowiOS/Sources/TaskListView.swift:109-113 | for any list that shows three tasks as stored, offsets 0 and 1 delete the first and the third task and keep the second |
| TaskRows.DeleteAsWrittenTrap | Examples/TaskFlowiOS/Sources/TaskListView.swift:109-113 | for any list that shows two tasks as stored, offsets 0 and 1 reach past the end after the first deletion |
| IOSTaskList.AsWrittenDeletesWrongRow | Examples/TaskFlowiOS/Sources/TaskListView.swift:109-113 | rows 0 and 1 of three shown tasks: the first and third are deleted, not the first two |
| IOSTaskList.AsWrittenTraps | Examples/TaskFlowiOS/Sources/TaskListView.swift:109-113 | both rows of a two-row list: the second index is out of range |
| TaskRows.RemoveRowsSpec | Examples/TaskFlowiOS/Sources/TaskListView.swift:109-113 | after the corrected delete, no chosen row's task remains and every other task keeps its multiplicity |
| TaskRows.RemoveFirstTwoRows | Examples/TaskFlowiOS/Sources/TaskListView.swift:109-113 | the corrected delete of rows 0 and 1 of three leaves the third |
| TaskRows.SortedUnique | Examples/TaskFlowiOS/Sources/TaskListView.swift:48 | the due-date sort of a list with strictly ascending due dates is that list |
| ExampleTaskList.FilteredTasks | Examples/TaskFlowExample/Sources/TaskListView.swift:17-43 | ascending by due date; a task is shown exactly when stored and it passes the title search and the filter |
| ExampleTaskList.CompletedOnlyUnderCompleted | Examples/TaskFlowExample/Sources/TaskListView.swift:26-39 | completed tasks appear only under the Completed filter, and only completed ones appear there |
| ExampleTaskList.Hint | Examples/TaskFlowExample/Sources/TaskListView.swift:129-131 | the empty list suggests creating a task exactly when there is no search and the filter is All |
| ExampleTaskList.EmptyUnderAll | Examples/TaskFlowExample/Sources/TaskListView.swift:26-27 | with no search, the All list is empty exactly when every task is completed |
| ExampleTaskList.ShownAsStored | Examples/TaskFlowExample/Sources/TaskListView.swift:17-43 | incomplete tasks already ascending by due date are shown as stored under All |
| ExampleTaskList.OnDelete | Examples/TaskFlowExample/Sources/TaskListView.swift:110-114 | (corrected) the store loses exactly the tasks of the swiped rows as they were shown |
| ExampleTaskList.DeleteRows | Examples/TaskFlowExample/Sources/TaskListView.swift:111-113 | deleting the rows one by one removes the set of their ids |
| ExampleTaskList.AsWrittenDeletesWrongRow | Examples/TaskFlowExample/Sources/TaskListView.swift:110-114 | rows 0 and 1 of three: the first and third are deleted |
| ExampleTaskList.AsWrittenTraps | Examples/TaskFlowExample/Sources/TaskListView.swift:110-114 | both rows of a two-row list: the second index is out of range |
| MacTaskList.FilteredTasks | Examples/TaskFlowmacOS/Sources/TaskListContentView.swift:9-20 | with no search, every task sorted by due date; with a search, exactly the matching tasks, each as often as stored |
| MacTaskList.SearchKeepsOrder | Examples/TaskFlowmacOS/Sources/TaskListContentView.swift:12-17 | a search keeps the stored order |
| MacTaskList.TodayTasks | Examples/TaskFlowmacOS/Sources/TaskListContentView.swift:133-138 | exactly the tasks due today, sorted, as many as there are |
| MacTaskList.UpcomingTasks | Examples/TaskFlowmacOS/Sources/TaskListContentView.swift:184-189 | exactly the incomplete tasks due after the start of today, sorted |
| MacTaskList.UpcomingOverdueBeforeNow | Examples/TaskFlowmacOS/Sources/TaskListContentView.swift:124-126 | the Upcoming list starts at the start of today while the overdue marker compares with now: a listed task is marked overdue exactly when it is due before now, and every open task due between the start of today and now is listed and marked overdue |
| MacSidebar.TaskCount | Examples/TaskFlowmacOS/Sources/SidebarContentView.swift:56-73 | at most the number of tasks; Projects and Settings count nothing |
| MacSidebar.CountsMatchLists | Examples/TaskFlowmacOS/Sources/SidebarContentView.swift:56-73 | each task row's count is the length of the list its screen shows |
| MacSidebar.RowsCoverItems | Examples/TaskFlowmacOS/Sources/SidebarContentView.swift:31-50 | the rows list the five items in declaration order, and a row has a count exactly when it is a task item |
| IOSProjectList.TaskCount | Examples/TaskFlowiOS/Sources/ProjectListView.swift:14 | at most the number of tasks, and zero exactly when no task belongs to the project |
| IOSProjectList.Tapped | Examples/TaskFlowiOS/Sources/ProjectListView.swift:17 | tapping the selected card deselects it; tapping another selects that one |
| IOSProjectList.TapTwice | Examples/TaskFlowiOS/Sources/ProjectListView.swift:17 | a second tap on a card selected by the first deselects it |
| IOSProjectList.TapMarksOneCard | Examples/TaskFlowiOS/Sources/ProjectListView.swift:15-17 | after a tap no other card is marked, and the tapped card is marked exactly when it was not before |
| IOSProjectList.ProjectListScreen.Tap | Examples/TaskFlowiOS/Sources/ProjectListView.swift:17 | the selection becomes the tapped one |
| IOSProjectList.ProjectListScreen.Delete | Examples/TaskFlowiOS/Sources/ProjectListView.swift:18-22 | the project and its tasks go; the selection is cleared exactly when it was that project |
| WatchToday.HighPriorityFirst | Examples/TaskFlowWatchOS/Sources/TodayView.swift:9 | every high-priority task comes before every other one, and the list is a permutation |
| WatchToday.TodayTasks | Examples/TaskFlowWatchOS/Sources/TodayView.swift:7-10 | today's tasks, high priority first |
| WatchToday.CompletedCount | Examples/TaskFlowWatchOS/Sources/TodayView.swift:12-14 | at most the number of today's tasks |
| WatchToday.CompletedCountIgnoresOrder | Examples/TaskFlowWatchOS/Sources/TodayView.swift:12-14 | the count is the number of completed tasks due today, in any order |
| WatchToday.EmptyStateWhenNothingDue | Examples/TaskFlowWatchOS/Sources/TodayView.swift:26-31 | "All done!" shows exactly when no stored task is due today |
| SectionsView.FilteredSections | App/swift-design-os-app/SectionsView.swift:30-38 | with no search, every section; otherwise exactly the sections whose name or description contains the text, ignoring case |
| SectionsView.ShownIff | App/swift-design-os-app/SectionsView.swift:30-38 | a section is shown exactly when listed and either the search is empty or it matches |
| SectionsView.SearchKeepsOrder | App/swift-design-os-app/SectionsView.swift:34-37 | a search keeps the listed order |
| SectionsView.NameSearchFinds | App/swift-design-os-app/SectionsView.swift:34-37 | searching for a section's name, lower-cased, finds it |
| SectionsView.SectionsScreen.ClearSearch | App/swift-design-os-app/SectionsView.swift:67-68 | clearing the search brings back every section |
| Counter.Add | Examples/CounterExample/Sources/main.swift:299-302 | the old value is appended to the history and the amount added |
| Counter.Reset | Examples/CounterExample/Sources/main.swift:304-307 | the old value is appended and the counter becomes zero |
| Counter.ClearHistory | Examples/CounterExample/Sources/main.swift:272 | the history is emptied and nothing else changes |
| Counter.IncreaseThenDecrease | Examples/CounterExample/Sources/main.swift:226-235 | Increase then Decrease restores the value and records both earlier values |
| Counter.Highest | Examples/CounterExample/Sources/main.swift:66 | the largest recorded value, or the counter when there is no history |
| Counter.HighestAfterAdd | Examples/CounterExample/Sources/main.swift:66 | after a change, Highest is at least the value before it and never drops |
| Counter.DeltaOf | Examples/CounterExample/Sources/main.swift:156-170 | hidden exactly without history; otherwise down, up or zero by the distance from the last recorded value, and a trap exactly when that distance does not fit in `Int` |
| Counter.DeltaAfterAdd | Examples/CounterExample/Sources/main.swift:156-170 | after adding an amount, the indicator shows that amount, up or down by its sign, and traps when its size exceeds `Int.max` |
| Counter.DeltaAfterReset | Examples/CounterExample/Sources/main.swift:156-170 | after a reset, the indicator shows the way back to zero, and traps after a reset from `Int.min` |
| Counter.IndicatorTraps | Examples/CounterExample/Sources/main.swift:159-163 | with the step at `Int.max`, Increase, then the step at `Int.min`, Increase, the indicator's subtraction overflows and traps |
| Counter.ClearHidesDelta | Examples/CounterExample/Sources/main.swift:156-170 | clearing the history hides the indicator and makes Highest the current value |
| Counter.ParseShowInt | Examples/CounterExample/Sources/main.swift:200-203 | the custom step field's text parses back to the step |
| Counter.StepFromText | Examples/CounterExample/Sources/main.swift:202 | unparsable text sets the step to 1 |
| Counter.CounterScreen.AddToCounter | Examples/CounterExample/Sources/main.swift:299-302 | the screen state becomes `Add` of the old state |
| Counter.CounterScreen.ResetCounter | Examples/CounterExample/Sources/main.swift:304-307 | the screen state becomes `Reset` of the old state |
| Counter.CounterScreen.ClearHistoryButton | Examples/CounterExample/Sources/main.swift:272 | the screen state becomes `ClearHistory` of the old state |
| Counter.CounterScreen.IncreaseButton | Examples/CounterExample/Sources/main.swift:235 | the screen state becomes `Increase` of the old state |
| Counter.CounterScreen.DecreaseButton | Examples/CounterExample/Sources/main.swift:226 | the screen state becomes `Decrease` of the old state |
| Counter.CounterScreen.SelectPreset | Examples/CounterExample/Sources/main.swift:187-193 | a preset sets the step to 1, 5 or 10 and changes nothing else |
| Counter.CounterScreen.SetCustomStep | Examples/CounterExample/Sources/main.swift:202 | the step becomes the parsed text, or 1 |
| Counter.CounterScreen.StepText | Examples/CounterExample/Sources/main.swift:201 | the shown text parses back to the step |

## Left out

- File reading is not modelled. The product, data-model and section loaders read with `try?`, so each receives a file's content, or `None` for a missing or unreadable file. The shell and design-system loaders read with `try`, so each receives `Absent`, `Unreadable` or the file's content, and an unreadable file makes the load throw. `String(contentsOfFile:)`, `FileManager` and UTF-8 decoding are outside the model.
- Foundation's read error is a single `ReadFailed` value; the path and cause it carries are not modelled. A file deleted between the existence test and the read, which makes `loadFile` throw its own `fileNotFound`, is not modelled either.
- DesignSystemLoader.LoadColors and DesignSystemLoader.LoadTypography: the `invalidJSON("Unable to encode file content")` branch is left out, because re-encoding a Swift `String` as UTF-8 cannot fail.
- JSON parsing is not modelled. `JSONSerialization` is replaced by a small `Json` value. `SectionLoader.loadData` only returns the parsed JSON, so it is left out.
- Directory listings are inputs: a listing, or `None` when the directory cannot be read. `fileExists` and `isDirectory` are booleans, and the order of the listing is taken as given.
- SectionLoader.PathExtension: treats a listing entry as one path component, which it is. Foundation's further checks on the extension text are not modelled.
- `URL(string:)` is a parameter `urlOk` saying whether a path makes a URL.
- `loadSectionData`, `hasShellSpec` and the other existence checks only combine loaders with file tests, so they are left out.
- Text handling is simplified:
  - `Character` is a Dafny `char`; grapheme clusters are not modelled.
  - `lowercased()` and `localizedCaseInsensitiveContains` lower-case ASCII letters only.
  - `CharacterSet.alphanumerics` is ASCII letters and digits.
- ColorHex.ColorFromHex: stops at the integer channels. It does not model the `Double` division by 255, and it models `Scanner.scanHexInt64` only as skipping an optional `0x` or `0X` prefix and reading the leading run of hex digits.
- ColorHex.ToHex: takes channels already rounded to 0–255. The platform colour components and `lroundf` are not modelled.
- Dates are integers. `Date()` and `Calendar.current` are parameters, and the calendar's same-day test is `dayOf`.
- The platform sorts are not stable, so sort results claim only that they are ascending and a permutation. The order of tasks with equal due dates is not modelled.
- Counter.Add: Swift's `Int` traps on 64-bit overflow. The model makes staying in range a precondition instead of modelling the trap, and the same holds for Counter.Increase, Counter.Decrease and the screen actions built on them, Counter.CounterScreen.AddToCounter, Counter.CounterScreen.IncreaseButton and Counter.CounterScreen.DecreaseButton. The change indicator's own subtraction is modelled with its trap: Counter.DeltaOf returns `Trap` when the distance does not fit in `Int`.
- Counter.CounterScreen.AddToCounter: requires the sum to stay in `Int` range, as Counter.Add does, instead of modelling the trap.
- Counter.CounterScreen.IncreaseButton: requires the increase to stay in `Int` range, as Counter.Increase does, instead of modelling the trap.
- Counter.CounterScreen.DecreaseButton: requires the decrease to stay in `Int` range, as Counter.Decrease does, instead of modelling the trap.
- `UUID`s are integers chosen by the caller, so freshness of new ids is not modelled.
- SwiftUI layout, styling, navigation, alerts and animations are not modelled. Only the state and values the views compute are.
- The `IndexSet` of a swipe-to-delete is a sequence of offsets. The model does not assume the offsets are ascending or distinct.

## Findings

| source | as written | input that shows it | evidently intended | confidence | as-written member | corrected member |
|---|---|---|---|---|---|---|
| Examples/TaskFlowiOS/Sources/TaskListView.swift:109-113 | `deleteTasks(offsets:)` looks up each offset in `filteredTasks` again after each delete, so later offsets index a list that has already shrunk | three shown tasks a, b, c with ascending due dates and swiped offsets {0, 1}: a and c are deleted, not a and b; with two shown tasks and offsets {0, 1} the second lookup is out of range and traps | delete the tasks the swiped rows showed, all read from the list before any delete (TaskRows.RemoveRowsSpec, TaskRows.RemoveFirstTwoRows) | not executed | IOSTaskList.AsWrittenDeletesWrongRow | IOSTaskList.DeleteTasks |
| Examples/TaskFlowExample/Sources/TaskListView.swift:110-114 | `onDelete` reads `filteredTasks[index]` again after each `deleteTask`, so later indices index a list that has already shrunk | three incomplete tasks a, b, c under All with ascending due dates and indices {0, 1}: a and c are deleted; with two tasks and indices {0, 1} the second read traps | delete the tasks the swiped rows showed (TaskRows.RemoveRowsSpec) | not executed | ExampleTaskList.AsWrittenDeletesWrongRow | ExampleTaskList.OnDelete |

=== FILE: color_hex.dfy ===
/** `Color(hex:)`, as defined identically by the macOS and iOS TaskFlow
    apps, up to the integer channels it computes before dividing each by
    255. */
module ColorHex {
  import opened Wrappers
  import opened Text

  /** Opacity, red, green and blue, each 0 to 255. */
  datatype Rgba = Rgba(a: nat, r: nat, g: nat, b: nat)

  /** `trimmingCharacters(in: CharacterSet.alphanumerics.inverted)`: drops
      every non-alphanumeric character at either end. */
  function TrimNonAlnum(s: string): string {
    TrimNonAlnumEnd(TrimNonAlnumStart(s))
  }

  function TrimNonAlnumStart(s: string): string {
    if s == [] || IsAlnum(s[0]) then s else TrimNonAlnumStart(s[1..])
  }

  function TrimNonAlnumEnd(s: string): string {
    if s == [] || IsAlnum(s[|s| - 1]) then s else TrimNonAlnumEnd(s[..|s| - 1])
  }

  predicate AllHex(s: string) {
    forall k :: 0 <= k < |s| ==> IsHexDigit(s[k])
  }

  /** The longest prefix of hex digits. */
  function HexRun(s: string): (r: string)
    ensures |r| <= |s| && AllHex(r)
  {
    if s == [] || !IsHexDigit(s[0]) then [] else [s[0]] + HexRun(s[1..])
  }

  function Pow16(n: nat): (p: nat)
    ensures p > 0
  {
    if n == 0 then 1 else 16 * Pow16(n - 1)
  }

  /** The value of a string of hex digits, most significant first. */
  function HexDigitsValue(s: string): (v: nat)
    requires AllHex(s)
    ensures v < Pow16(|s|)
  {
    if s == [] then 0 else HexDigitsValue(s[..|s| - 1]) * 16 + HexValue(s[|s| - 1])
  }

  /** `Scanner.scanHexInt64`: an optional `0x`/`0X`, then the longest run
      of hex digits; 0 when there is none. */
  function ScanHex(s: string): nat {
    HexDigitsValue(HexRun(if HexPrefixed(s) then s[2..] else s))
  }

  /** `0x` or `0X` followed by a hex digit. */
  predicate HexPrefixed(s: string) {
    |s| >= 3 && s[0] == '0' && (s[1] == 'x' || s[1] == 'X') && IsHexDigit(s[2])
  }

  lemma ScanHexBound(s: string)
    ensures ScanHex(s) < Pow16(|s|)
  {
    PowMonotone(|HexRun(if HexPrefixed(s) then s[2..] else s)|, |s|);
  }

  lemma {:induction false} PowMonotone(m: nat, n: nat)
    requires m <= n
    ensures Pow16(m) <= Pow16(n)
    decreases n
  {
    if m < n {
      PowMonotone(m, n - 1);
    }
  }

  /** `Color(hex:)`: `None` unless the trimmed text has 3, 6 or 8
      characters; every channel fits in a byte. */
  function ColorFromHex(hex: string): (c: Option<Rgba>)
    ensures c.Some? <==> |TrimNonAlnum(hex)| in {3, 6, 8}
    ensures c.Some? ==> c.value.a < 256 && c.value.r < 256 && c.value.g < 256 && c.value.b < 256
  {
    var h := TrimNonAlnum(hex);
    var n := ScanHex(h);
    ScanHexBound(h);
    if |h| == 3 then
      Some(Rgba(255, (n / 256) * 17, (n / 16 % 16) * 17, (n % 16) * 17))
    else if |h| == 6 then
      Some(Rgba(255, n / 65536, n / 256 % 256, n % 256))
    else if |h| == 8 then
      Some(Rgba(n / 16777216, n / 65536 % 256, n / 256 % 256, n % 256))
    else None
  }

  // ---------------------------------------------------------------------
  // Reading the channels back

  /** The value of two hex digits. */
  function Byte(hi: char, lo: char): nat
    requires IsHexDigit(hi) && IsHexDigit(lo)
  {
    HexValue(hi) * 16 + HexValue(lo)
  }

  lemma HexRunAll(s: string)
    requires AllHex(s)
    ensures HexRun(s) == s
  {
    if s != [] {
      HexRunAll(s[1..]);
    }
  }

  /** A string of hex digits scans to its own value: without an `x` it
      cannot carry a `0x` prefix, and trimming leaves it alone. */
  lemma HexDigitsScan(s: string)
    requires AllHex(s)
    ensures TrimNonAlnum(s) == s
    ensures ScanHex(s) == HexDigitsValue(s)
  {
    HexDigitsTrimmed(s);
    HexDigitsScanned(s);
  }

  lemma HexDigitsTrimmed(s: string)
    requires AllHex(s)
    ensures TrimNonAlnum(s) == s
  {
    if s != [] {
      assert IsAlnum(s[0]) && IsAlnum(s[|s| - 1]);
    }
    assert TrimNonAlnumStart(s) == s;
  }

  lemma HexDigitsScanned(s: string)
    requires AllHex(s)
    ensures ScanHex(s) == HexDigitsValue(s)
  {
    HexRunAll(s);
    assert !HexPrefixed(s) by {
      if |s| >= 3 {
        assert IsHexDigit(s[1]);
      }
    }
  }

  lemma {:induction false} MulAtLeast(k: int, d: nat)
    requires k >= 1
    ensures k * d >= d
    decreases k
  {
    if k > 1 {
      MulAtLeast(k - 1, d);
      assert k * d == (k - 1) * d + d;
    }
  }

  /** Quotient and remainder of `q * d + r` by `d`. */
  lemma DivMod(q: nat, r: nat, d: nat)
    requires 0 <= r < d
    ensures (q * d + r) / d == q && (q * d + r) % d == r
  {
    var n := q * d + r;
    var q', r' := n / d, n % d;
    assert n == q' * d + r';
    if q' > q {
      assert (q' - q) * d == q' * d - q * d;
      MulAtLeast(q' - q, d);
    } else if q' < q {
      assert (q - q') * d == q * d - q' * d;
      MulAtLeast(q - q', d);
    }
  }

  /** Bytes packed most significant first are unpacked by the shifts and
      masks of `Color(hex:)`. */
  lemma Unpack(n: nat, a: nat, r: nat, g: nat, b: nat)
    requires a < 256 && r < 256 && g < 256 && b < 256
    requires n == ((a * 256 + r) * 256 + g) * 256 + b
    ensures n / 16777216 == a && n / 65536 % 256 == r && n / 256 % 256 == g && n % 256 == b
  {
    DivMod((a * 256 + r) * 256 + g, b, 256);
    DivMod(a * 256 + r, g, 256);
    DivMod(a, r, 256);
    assert n == (a * 256 + r) * 65536 + (g * 256 + b);
    DivMod(a * 256 + r, g * 256 + b, 65536);
    assert n == a * 16777216 + ((r * 256 + g) * 256 + b);
    DivMod(a, (r * 256 + g) * 256 + b, 16777216);
  }

  lemma UnpackNibbles(n: nat, x: nat, y: nat, z: nat)
    requires x < 16 && y < 16 && z < 16
    requires n == (x * 16 + y) * 16 + z
    ensures n / 256 == x && n / 16 % 16 == y && n % 16 == z
  {
    DivMod(x * 16 + y, z, 16);
    DivMod(x, y, 16);
    assert n == x * 256 + (y * 16 + z);
    DivMod(x, y * 16 + z, 256);
  }

  /** The value of two digits, one byte. */
  lemma ByteValue(s: string, i: nat)
    requires AllHex(s) && i + 2 <= |s|
    ensures HexDigitsValue(s[i..i + 2]) == Byte(s[i], s[i + 1])
    ensures Byte(s[i], s[i + 1]) < 256
  {
    var t := s[i..i + 2];
    assert t[..1][..0] == [];
  }

  /** The last two digits are the low byte. */
  lemma LastByte(s: string)
    requires AllHex(s) && |s| >= 2
    ensures HexDigitsValue(s) == HexDigitsValue(s[..|s| - 2]) * 256 + Byte(s[|s| - 2], s[|s| - 1])
  {
    var init := s[..|s| - 1];
    assert init[..|init| - 1] == s[..|s| - 2];
    var x, y := HexDigitsValue(s[..|s| - 2]), HexDigitsValue(init);
    var hi, lo := HexValue(s[|s| - 2]), HexValue(s[|s| - 1]);
    assert y == x * 16 + hi;
    assert HexDigitsValue(s) == y * 16 + lo;
    ShiftByte(x, hi, lo);
  }

  lemma ShiftByte(x: int, hi: int, lo: int)
    ensures (x * 16 + hi) * 16 + lo == x * 256 + (hi * 16 + lo)
  {
  }

  /** Eight digits are four bytes, most significant first. */
  lemma FourBytes(s: string)
    requires |s| == 8 && AllHex(s)
    ensures HexDigitsValue(s) == ((Byte(s[0], s[1]) * 256 + Byte(s[2], s[3])) * 256 + Byte(s[4], s[5])) * 256 + Byte(s[6], s[7])
  {
    LastByte(s);
    var h := s[..6];
    ThreeBytes(h);
    assert h[0] == s[0] && h[1] == s[1] && h[2] == s[2] && h[3] == s[3] && h[4] == s[4] && h[5] == s[5];
  }

  /** Six digits are three bytes, most significant first. */
  lemma ThreeBytes(s: string)
    requires |s| == 6 && AllHex(s)
    ensures HexDigitsValue(s) == (Byte(s[0], s[1]) * 256 + Byte(s[2], s[3])) * 256 + Byte(s[4], s[5])
  {
    LastByte(s);
    var h := s[..4];
    LastByte(h);
    assert h[..2] == s[..2] && h[2] == s[2] && h[3] == s[3];
    var t := s[..2];
    LastByte(t);
    assert t[..0] == [];
  }

  /** Three digits: each nibble times 17, fully opaque. */
  lemma ThreeDigits(s: string)
    requires |s| == 3 && AllHex(s)
    ensures ColorFromHex(s) == Some(Rgba(255, HexValue(s[0]) * 17, HexValue(s[1]) * 17, HexValue(s[2]) * 17))
  {
    HexDigitsScan(s);
    var d0, d1, d2 := HexValue(s[0]), HexValue(s[1]), HexValue(s[2]);
    assert s[..2][..1] == s[..1] && s[..1][..0] == [];
    assert HexDigitsValue(s[..1]) == d0;
    assert HexDigitsValue(s[..2]) == d0 * 16 + d1;
    var n := HexDigitsValue(s);
    assert n == (d0 * 16 + d1) * 16 + d2;
    UnpackNibbles(n, d0, d1, d2);
    assert ColorFromHex(s) == Some(Rgba(255, (n / 256) * 17, (n / 16 % 16) * 17, (n % 16) * 17));
  }

  /** Six digits: red, green, blue byte by byte, fully opaque. */
  lemma SixDigits(s: string)
    requires |s| == 6 && AllHex(s)
    ensures ColorFromHex(s) == Some(Rgba(255, Byte(s[0], s[1]), Byte(s[2], s[3]), Byte(s[4], s[5])))
  {
    var r, g, b := Byte(s[0], s[1]), Byte(s[2], s[3]), Byte(s[4], s[5]);
    HexDigitsScan(s);
    ThreeBytes(s);
    ByteValue(s, 0);
    ByteValue(s, 2);
    ByteValue(s, 4);
    var n := HexDigitsValue(s);
    assert n == ((0 * 256 + r) * 256 + g) * 256 + b;
    Unpack(n, 0, r, g, b);
    assert n / 65536 == r && n / 256 % 256 == g && n % 256 == b;
    assert ColorFromHex(s) == Some(Rgba(255, n / 65536, n / 256 % 256, n % 256));
  }

  /** Eight digits: opacity is the top byte, then red, green, blue. */
  lemma EightDigits(s: string)
    requires |s| == 8 && AllHex(s)
    ensures ColorFromHex(s) == Some(Rgba(Byte(s[0], s[1]), Byte(s[2], s[3]), Byte(s[4], s[5]), Byte(s[6], s[7])))
  {
    var a, r, g, b := Byte(s[0], s[1]), Byte(s[2], s[3]), Byte(s[4], s[5]), Byte(s[6], s[7]);
    HexDigitsScan(s);
    FourBytes(s);
    ByteValue(s, 0);
    ByteValue(s, 2);
    ByteValue(s, 4);
    ByteValue(s, 6);
    var n := HexDigitsValue(s);
    assert n == ((a * 256 + r) * 256 + g) * 256 + b;
    Unpack(n, a, r, g, b);
    assert n / 16777216 == a && n / 65536 % 256 == r && n / 256 % 256 == g && n % 256 == b;
    assert ColorFromHex(s) == Some(Rgba(n / 16777216, n / 65536 % 256, n / 256 % 256, n % 256));
  }

  /** A leading `#` is trimmed away. */
  lemma HashPrefix(s: string)
    requires s != [] && AllHex(s)
    ensures ColorFromHex("#" + s) == ColorFromHex(s)
  {
    assert ("#" + s)[1..] == s;
    assert TrimNonAlnumStart("#" + s) == TrimNonAlnumStart(s);
  }

  // ---------------------------------------------------------------------
  // Encoding and decoding a project's colour

  /** The upper-case hex digit of `%02lX`. */
  function HexDigit(v: nat): (c: char)
    requires v < 16
    ensures IsHexDigit(c) && HexValue(c) == v
  {
    if v < 10 then ('0' as int + v) as char else ('A' as int + v - 10) as char
  }

  /** `toHex`, from the rounded 8-bit channels: `#RRGGBB`. */
  function ToHex(r: nat, g: nat, b: nat): (h: string)
    requires r < 256 && g < 256 && b < 256
    ensures |h| == 7 && h[0] == '#' && AllHex(h[1..])
  {
    "#" + [HexDigit(r / 16), HexDigit(r % 16), HexDigit(g / 16), HexDigit(g % 16), HexDigit(b / 16), HexDigit(b % 16)]
  }

  /** `Project.init(from:)`'s colour: the stored hex string when present and
      accepted; `None` stands for the `.blue` fallback. */
  function DecodedColor(colorHex: Option<string>): (c: Option<Rgba>)
    ensures c.Some? ==> colorHex.Some? && |TrimNonAlnum(colorHex.value)| in {3, 6, 8}
  {
    if colorHex.Some? then ColorFromHex(colorHex.value) else None
  }

  /** A colour written by `toHex` is read back by `Color(hex:)` with the
      same channels, fully opaque. */
  lemma HexRoundTrip(r: nat, g: nat, b: nat)
    requires r < 256 && g < 256 && b < 256
    ensures ColorFromHex(ToHex(r, g, b)) == Some(Rgba(255, r, g, b))
    ensures DecodedColor(Some(ToHex(r, g, b))) == Some(Rgba(255, r, g, b))
  {
    var h := ToHex(r, g, b);
    var digits := h[1..];
    assert h == "#" + digits;
    HashPrefix(digits);
    SixDigits(digits);
  }
}

=== FILE: counter.dfy ===
/** The counter example: a value changed by a chosen step, the history of
    values it held before each change, and the figures derived from them.
    Swift's `Int` is 64 bits wide and traps on overflow; the model makes
    the absence of overflow a precondition of each arithmetic step. */
module Counter {
  import opened Wrappers

  const MinInt: int := -0x8000_0000_0000_0000
  const MaxInt: int := 0x7FFF_FFFF_FFFF_FFFF

  predicate IsInt(x: int) {
    MinInt <= x <= MaxInt
  }

  /** The three state variables of the counter screen. */
  datatype CounterState = CounterState(counterValue: int, stepSize: int, history: seq<int>)

  const Initial := CounterState(0, 1, [])

  /** `addToCounter`: the old value goes into the history, then the amount
      is added. */
  function Add(s: CounterState, amount: int): (r: CounterState)
    requires IsInt(s.counterValue + amount)
    ensures r.history == s.history + [s.counterValue] && r.counterValue - s.counterValue == amount
    ensures r.stepSize == s.stepSize
  {
    s.(history := s.history + [s.counterValue], counterValue := s.counterValue + amount)
  }

  /** `resetCounter`: the old value goes into the history, then the
      counter is zero. */
  function Reset(s: CounterState): (r: CounterState)
    ensures r.history == s.history + [s.counterValue] && r.counterValue == 0
    ensures r.stepSize == s.stepSize
  {
    s.(history := s.history + [s.counterValue], counterValue := 0)
  }

  /** The Clear button: the history is emptied and nothing else changes. */
  function ClearHistory(s: CounterState): (r: CounterState)
    ensures r.history == [] && r.counterValue == s.counterValue && r.stepSize == s.stepSize
  {
    s.(history := [])
  }

  /** The Increase button adds the step. */
  function Increase(s: CounterState): (r: CounterState)
    requires IsInt(s.counterValue + s.stepSize)
    ensures r.counterValue == s.counterValue + s.stepSize && r.history == s.history + [s.counterValue]
  {
    Add(s, s.stepSize)
  }

  /** The Decrease button adds the negated step. */
  function Decrease(s: CounterState): (r: CounterState)
    requires IsInt(-s.stepSize) && IsInt(s.counterValue - s.stepSize)
    ensures r.counterValue == s.counterValue - s.stepSize && r.history == s.history + [s.counterValue]
  {
    Add(s, -s.stepSize)
  }

  /** Increase then Decrease with the same step restores the counter and
      records two history entries: the value before and the value in
      between. */
  lemma IncreaseThenDecrease(s: CounterState)
    requires IsInt(s.counterValue) && IsInt(s.counterValue + s.stepSize) && IsInt(-s.stepSize)
    ensures var r := Decrease(Increase(s));
      && r.counterValue == s.counterValue
      && r.stepSize == s.stepSize
      && r.history == s.history + [s.counterValue, s.counterValue + s.stepSize]
      && |r.history| == |s.history| + 2
  {
  }

  // ---------------------------------------------------------------------
  // Highest

  /** `history.max()`: the largest value recorded. */
  function Max(xs: seq<int>): (m: int)
    requires xs != []
    ensures m in xs
    ensures forall k :: 0 <= k < |xs| ==> xs[k] <= m
  {
    if |xs| == 1 then xs[0]
    else
      var m := Max(xs[1..]);
      assert xs == [xs[0]] + xs[1..];
      if xs[0] >= m then xs[0] else m
  }

  /** The "Highest" figure: `history.max() ?? counterValue`. */
  function Highest(s: CounterState): (h: int)
    ensures s.history == [] ==> h == s.counterValue
    ensures s.history != [] ==> h in s.history && forall k :: 0 <= k < |s.history| ==> s.history[k] <= h
  {
    if s.history == [] then s.counterValue else Max(s.history)
  }

  /** After a change, "Highest" is at least the value before it, and it
      never drops below what it was while the history is kept. */
  lemma HighestAfterAdd(s: CounterState, amount: int)
    requires IsInt(s.counterValue + amount)
    ensures Highest(Add(s, amount)) >= s.counterValue
    ensures s.history != [] ==> Highest(Add(s, amount)) >= Highest(s)
  {
    var r := Add(s, amount);
    assert r.history[|r.history| - 1] == s.counterValue;
    if s.history != [] {
      var k :| 0 <= k < |s.history| && s.history[k] == Highest(s);
      assert r.history[k] == s.history[k];
    }
  }

  // ---------------------------------------------------------------------
  // Change indicator

  /** The indicator under the counter: hidden with no history, otherwise
      an arrow down or up by the distance from the last recorded value, or
      a plain zero.  `Trap` is the case where the view's own subtraction
      overflows `Int` and the program stops. */
  datatype Delta = Hidden | Down(change: nat) | Up(change: nat) | Zero | Trap

  /** The distance between two values does not fit in `Int`. */
  predicate OutOfRange(last: int, value: int) {
    last - value > MaxInt || value - last > MaxInt
  }

  function DeltaOf(s: CounterState): (d: Delta)
    ensures d.Hidden? <==> s.history == []
    ensures d.Down? ==> s.history[|s.history| - 1] - s.counterValue == d.change && 0 < d.change <= MaxInt
    ensures d.Up? ==> s.counterValue - s.history[|s.history| - 1] == d.change && 0 < d.change <= MaxInt
    ensures d.Zero? <==> s.history != [] && s.history[|s.history| - 1] == s.counterValue
    ensures d.Trap? <==> (s.history != [] && OutOfRange(s.history[|s.history| - 1], s.counterValue))
  {
    if s.history == [] then Hidden
    else
      var last := s.history[|s.history| - 1];
      if last > s.counterValue then
        if last - s.counterValue <= MaxInt then Down(last - s.counterValue) else Trap
      else if last < s.counterValue then
        if s.counterValue - last <= MaxInt then Up(s.counterValue - last) else Trap
      else Zero
  }

  /** After adding an amount the indicator shows that amount: up for a
      positive one, down for a negative one, zero for nothing, and it traps
      when the amount's size does not fit in `Int`, as for a step of
      `Int.min`. */
  lemma DeltaAfterAdd(s: CounterState, amount: int)
    requires IsInt(s.counterValue + amount)
    ensures amount > 0 ==> DeltaOf(Add(s, amount)) == if amount <= MaxInt then Up(amount) else Trap
    ensures amount < 0 ==> DeltaOf(Add(s, amount)) == if -amount <= MaxInt then Down(-amount) else Trap
    ensures amount == 0 ==> DeltaOf(Add(s, amount)) == Zero
  {
  }

  /** After a reset the indicator shows the way back to zero, and traps
      after a reset from `Int.min`. */
  lemma DeltaAfterReset(s: CounterState)
    ensures s.counterValue > 0 ==> DeltaOf(Reset(s)) == if s.counterValue <= MaxInt then Down(s.counterValue) else Trap
    ensures s.counterValue < 0 ==> DeltaOf(Reset(s)) == if -s.counterValue <= MaxInt then Up(-s.counterValue) else Trap
    ensures s.counterValue == 0 ==> DeltaOf(Reset(s)) == Zero
  {
  }

  /** The reachable trap: the step set to `Int.max` and Increase pressed,
      then the step set to `Int.min` and Increase pressed again. */
  lemma IndicatorTraps()
    ensures DeltaOf(Increase(Increase(Initial.(stepSize := MaxInt)).(stepSize := MinInt))) == Trap
  {
    var s1 := Increase(Initial.(stepSize := MaxInt));
    assert s1.counterValue == MaxInt && s1.history == [0];
    var s2 := Increase(s1.(stepSize := MinInt));
    assert s2.counterValue == -1 && s2.history == [0, MaxInt];
    assert OutOfRange(MaxInt, -1);
  }

  /** Clearing the history hides the indicator and resets "Highest" to
      the current value. */
  lemma ClearHidesDelta(s: CounterState)
    ensures DeltaOf(ClearHistory(s)) == Hidden
    ensures Highest(ClearHistory(s)) == s.counterValue
  {
  }

  // ---------------------------------------------------------------------
  // Step size text

  function DigitChar(d: nat): (c: char)
    requires d < 10
    ensures '0' <= c <= '9' && (c as int) - ('0' as int) == d
  {
    ('0' as int + d) as char
  }

  predicate AllDigits(s: string) {
    forall k :: 0 <= k < |s| ==> '0' <= s[k] <= '9'
  }

  /** The value of a string of decimal digits. */
  function DigitsValue(s: string): nat
    requires AllDigits(s)
  {
    if s == [] then 0 else 10 * DigitsValue(s[..|s| - 1]) + ((s[|s| - 1] as int) - ('0' as int))
  }

  /** The decimal digits of `n`, without leading zeros. */
  function ShowNat(n: nat): (s: string)
    ensures s != [] && AllDigits(s)
    ensures DigitsValue(s) == n
  {
    if n < 10 then [DigitChar(n)]
    else
      var s := ShowNat(n / 10) + [DigitChar(n % 10)];
      assert s[..|s| - 1] == ShowNat(n / 10);
      s
  }

  /** `"\(n)"`: an optional minus sign and the digits. */
  function ShowInt(n: int): (s: string)
    ensures s != []
  {
    if n < 0 then "-" + ShowNat(-n) else ShowNat(n)
  }

  /** `Int(text)`: an optional sign followed by one or more decimal digits
      whose value fits in 64 bits; anything else is `None`. */
  function ParseInt(s: string): (r: Option<int>)
    ensures r.Some? ==> IsInt(r.value)
    ensures s == [] ==> r.None?
  {
    if s == [] then None
    else
      var negative := s[0] == '-';
      var digits := if s[0] == '-' || s[0] == '+' then s[1..] else s;
      if digits == [] || !AllDigits(digits) then None
      else
        var magnitude: int := DigitsValue(digits);
        var v := if negative then -magnitude else magnitude;
        if IsInt(v) then Some(v) else None
  }

  /** Reading back the text the step field shows gives the step again. */
  lemma ParseShowInt(n: int)
    requires IsInt(n)
    ensures ParseInt(ShowInt(n)) == Some(n)
  {
    if n < 0 {
      assert ShowInt(n)[1..] == ShowNat(-n);
    }
  }

  /** `Int($0) ?? 1`: the step a custom text sets. */
  function StepFromText(text: string): (step: int)
    ensures IsInt(step)
    ensures ParseInt(text).None? ==> step == 1
  {
    match ParseInt(text)
    case None => 1
    case Some(v) => v
  }

  /** The step presets. */
  const Presets: seq<int> := [1, 5, 10]

  // ---------------------------------------------------------------------
  // The screen

  /** The counter screen's `@State`, updated in place by its buttons. */
  class CounterScreen {
    var counterValue: int
    var stepSize: int
    var history: seq<int>

    function State(): CounterState
      reads this
    {
      CounterState(counterValue, stepSize, history)
    }

    constructor ()
      ensures State() == Initial
    {
      counterValue := 0;
      stepSize := 1;
      history := [];
    }

    /** `addToCounter`. */
    method AddToCounter(amount: int)
      requires IsInt(counterValue + amount)
      modifies this
      ensures State() == Add(old(State()), amount)
    {
      history := history + [counterValue];
      counterValue := counterValue + amount;
    }

    /** `resetCounter`, run when the reset alert is confirmed. */
    method ResetCounter()
      modifies this
      ensures State() == Reset(old(State()))
    {
      history := history + [counterValue];
      counterValue := 0;
    }

    /** The Clear button: `history.removeAll()`. */
    method ClearHistoryButton()
      modifies this
      ensures State() == ClearHistory(old(State()))
    {
      history := [];
    }

    /** The Increase button. */
    method IncreaseButton()
      requires IsInt(counterValue + stepSize)
      modifies this
      ensures State() == Increase(old(State()))
    {
      AddToCounter(stepSize);
    }

    /** The Decrease button: `addToCounter(-stepSize)`. */
    method DecreaseButton()
      requires IsInt(-stepSize) && IsInt(counterValue - stepSize)
      modifies this
      ensures State() == Decrease(old(State()))
    {
      AddToCounter(-stepSize);
    }

    /** A preset button sets the step to its value. */
    method SelectPreset(i: nat)
      requires i < |Presets|
      modifies this
      ensures stepSize == Presets[i] && stepSize in {1, 5, 10}
      ensures counterValue == old(counterValue) && history == old(history)
    {
      stepSize := Presets[i];
    }

    /** The custom step field's setter: the parsed text, or 1 when it is
        not an integer. */
    method SetCustomStep(text: string)
      modifies this
      ensures stepSize == StepFromText(text)
      ensures counterValue == old(counterValue) && history == old(history)
    {
      var parsed := ParseInt(text);
      stepSize := if parsed.Some? then parsed.value else 1;
    }

    /** The custom step field's getter: the step as decimal text. */
    function StepText(): (text: string)
      reads this
      requires IsInt(stepSize)
      ensures StepFromText(text) == stepSize
    {
      ParseShowInt(stepSize);
      ShowInt(stepSize)
    }
  }
}

=== FILE: data_model_loader.dfy ===
/** `DataModelLoader`: reads the entities and relationships of the data
    model from markdown.  The file's content is given as `Some(text)`, or
    `None` when the file is missing or cannot be read. */
module DataModelLoader {
  import opened Wrappers
  import opened Text
  import opened Markdown

  datatype Entity = Entity(name: string, description: string)

  datatype DataModel = DataModel(entities: seq<Entity>, relationships: seq<string>)

  datatype LoaderError = FileNotFound(path: string) | InvalidMarkdown(reason: string) | ParsingError(reason: string)

  const DataModelPath := "product/data-model/data-model.md"

  /** The loop tests `## `, `### ` and `- `, but not `# `: a `# ` line is
      prose here. */
  const DataModelDialect := Dialect(false, true, true)

  /** The loop's running state: current section, entities emitted,
      relationships, the entity in progress and its description buffer. */
  datatype DataModelState = DataModelState(
    section: Option<string>,
    entities: seq<Entity>,
    relationships: seq<string>,
    current: Option<string>,
    buffer: seq<string>)

  const DataModelStart := DataModelState(None, [], [], None, [])

  /** An entity with its buffered lines joined by spaces and trimmed. */
  function EntityOf(name: string, buffer: seq<string>): Entity {
    Entity(name, TrimSpaces(Join(buffer, " ")))
  }

  /** One line of the loop, branch by branch. */
  function DataModelStep(st: DataModelState, line: string): DataModelState {
    if IsHeading(line) then st.(section := Some(Lower(line[3..])))
    else if IsSubheading(line) then
      var flushed :=
        if st.section == Some("entities") && st.current.Some? then
          st.(entities := st.entities + [EntityOf(st.current.value, st.buffer)], buffer := [])
        else st;
      flushed.(current := Some(TrimSpaces(line[4..])))
    else if IsItem(line) then
      var content := TrimSpaces(line[2..]);
      if st.section == Some("relationships") then st.(relationships := st.relationships + [content])
      else if st.section == Some("entities") then st.(buffer := st.buffer + [content])
      else st
    else if TrimSpacesNewlines(line) != [] then
      if st.section == Some("entities") && st.current.Some? then
        st.(buffer := st.buffer + [TrimSpacesNewlines(line)])
      else st
    else st
  }

  function DataModelScan(lines: seq<string>, i: nat): DataModelState
    requires i <= |lines|
  {
    if i == 0 then DataModelStart else DataModelStep(DataModelScan(lines, i - 1), lines[i - 1])
  }

  /** The entities emitted by the loop, then the one still in progress. */
  function FlushEntities(st: DataModelState): (r: seq<Entity>)
    ensures |r| <= |st.entities| + 1
  {
    if st.current.Some? then st.entities + [EntityOf(st.current.value, st.buffer)] else st.entities
  }

  function DataModelOf(lines: seq<string>): DataModel {
    var st := DataModelScan(lines, |lines|);
    DataModel(FlushEntities(st), st.relationships)
  }

  /** `loadDataModel`. */
  method LoadDataModel(file: Option<string>) returns (r: Result<DataModel, LoaderError>)
    ensures file.None? ==> r == Failure(FileNotFound(DataModelPath))
    ensures file.Some? ==> r == Success(DataModelOf(SplitLines(file.value)))
  {
    if file.None? {
      return Failure(FileNotFound(DataModelPath));
    }
    var lines := SplitLines(file.value);
    var currentSection: Option<string> := None;
    var entities: seq<Entity> := [];
    var relationships: seq<string> := [];
    var currentEntity: Option<string> := None;
    var currentDescription: seq<string> := [];

    for i := 0 to |lines|
      invariant DataModelScan(lines, i)
        == DataModelState(currentSection, entities, relationships, currentEntity, currentDescription)
    {
      var line := lines[i];
      if IsHeading(line) {
        currentSection := Some(Lower(line[3..]));
      } else if IsSubheading(line) {
        if currentSection == Some("entities") && currentEntity.Some? {
          entities := entities + [Entity(currentEntity.value, TrimSpaces(Join(currentDescription, " ")))];
          currentDescription := [];
        }
        currentEntity := Some(TrimSpaces(line[4..]));
      } else if IsItem(line) {
        var content := TrimSpaces(line[2..]);
        if currentSection == Some("relationships") {
          relationships := relationships + [content];
        } else if currentSection == Some("entities") {
          currentDescription := currentDescription + [content];
        }
      } else if TrimSpacesNewlines(line) != [] {
        var trimmed := TrimSpacesNewlines(line);
        if currentSection == Some("entities") && currentEntity.Some? {
          currentDescription := currentDescription + [trimmed];
        }
      }
    }

    if currentEntity.Some? {
      entities := entities + [Entity(currentEntity.value, TrimSpaces(Join(currentDescription, " ")))];
    }
    return Success(DataModel(entities, relationships));
  }

  // ---------------------------------------------------------------------
  // The scan in declarative terms

  /** The text of the last `### ` line among the first `i` lines. */
  function LastSubheading(lines: seq<string>, i: nat): Option<string>
    requires i <= |lines|
  {
    if i == 0 then None
    else if IsSubheading(lines[i - 1]) then Some(SubheadingText(lines[i - 1]))
    else LastSubheading(lines, i - 1)
  }

  /** The `### ` line at `j` emits the entity in progress: it lies in
      section `entities` and an earlier `### ` line opened an entity. */
  predicate Flushes(lines: seq<string>, j: nat)
    requires j < |lines|
  {
    IsSubheading(lines[j]) && SectionAt(lines, j) == Some("entities") && LastSubheading(lines, j).Some?
  }

  /** What the description buffer holds after the first `i` lines: the
      lines after the last emitting `### ` line (from the start when there
      is none) that add to it, in order.  A line adds to it when it is a
      `- ` item of section `entities`, or a prose line of that section once
      some `### ` line has been seen. */
  function BufferSince(lines: seq<string>, i: nat): seq<string>
    requires i <= |lines|
  {
    if i == 0 then []
    else if Flushes(lines, i - 1) then []
    else
      var l := lines[i - 1];
      var inEntities := SectionAt(lines, i - 1) == Some("entities");
      if IsItem(l) && inEntities then BufferSince(lines, i - 1) + [ItemText(l)]
      else if IsProse(DataModelDialect, l) && inEntities && LastSubheading(lines, i - 1).Some? then
        BufferSince(lines, i - 1) + [ProseText(l)]
      else BufferSince(lines, i - 1)
  }

  /** What a line does to the state, leaving the texts aside. */
  lemma DataModelStepShape(st: DataModelState, line: string)
    ensures var st' := DataModelStep(st, line);
      && (IsHeading(line) ==> st' == st.(section := Some(HeadingName(line))))
      && (IsSubheading(line) ==>
            && st'.section == st.section && st'.relationships == st.relationships
            && st'.current == Some(SubheadingText(line))
            && if st.section == Some("entities") && st.current.Some? then
                 st'.entities == st.entities + [EntityOf(st.current.value, st.buffer)] && st'.buffer == []
               else
                 st'.entities == st.entities && st'.buffer == st.buffer)
      && (!IsHeading(line) && !IsSubheading(line) ==>
            st'.section == st.section && st'.entities == st.entities && st'.current == st.current)
  {
  }

  /** The scan's section is the one the last `## ` line opened, and the
      entity in progress is named by the last `### ` line. */
  lemma {:induction false} DataModelSectionAndCurrent(lines: seq<string>, i: nat)
    requires i <= |lines|
    ensures DataModelScan(lines, i).section == SectionAt(lines, i)
    ensures DataModelScan(lines, i).current == LastSubheading(lines, i)
  {
    if i > 0 {
      DataModelSectionAndCurrent(lines, i - 1);
      DataModelStepShape(DataModelScan(lines, i - 1), lines[i - 1]);
    }
  }

  /** The relationships are the items of section `relationships`, in
      order. */
  lemma {:induction false} DataModelRelationships(lines: seq<string>, i: nat)
    requires i <= |lines|
    ensures DataModelScan(lines, i).relationships == ItemsUnder(lines, i, "relationships")
  {
    if i > 0 {
      DataModelRelationships(lines, i - 1);
      DataModelSectionAndCurrent(lines, i - 1);
    }
  }

  /** The buffer holds exactly the lines added since the last emitting
      `### ` line: it is emptied at each emission, so no text carries over
      into the next entity. */
  lemma {:induction false} DataModelBuffer(lines: seq<string>, i: nat)
    requires i <= |lines|
    ensures DataModelScan(lines, i).buffer == BufferSince(lines, i)
  {
    if i > 0 {
      DataModelBuffer(lines, i - 1);
      DataModelSectionAndCurrent(lines, i - 1);
      var l := lines[i - 1];
      var st := DataModelScan(lines, i - 1);
      DataModelStepShape(st, l);
      if IsHeading(l) || IsSubheading(l) {
        KindsDisjoint(l);
      } else if IsItem(l) {
        assert !IsProse(DataModelDialect, l);
      } else {
        BlankIffTrimsEmpty(l);
      }
    }
  }

  /** Every `### ` line lies in section `entities`. */
  predicate EntityHeadingsOnly(lines: seq<string>, i: nat)
    requires i <= |lines|
  {
    forall j :: 0 <= j < i && IsSubheading(lines[j]) ==> SectionAt(lines, j) == Some("entities")
  }

  /** When every `### ` line lies in section `entities`, the loop has
      emitted one entity per `### ` line but the last. */
  lemma {:induction false} DataModelCounts(lines: seq<string>, i: nat)
    requires i <= |lines| && EntityHeadingsOnly(lines, i)
    ensures var pos := SubheadingPositions(lines, i);
      |DataModelScan(lines, i).entities| == if |pos| == 0 then 0 else |pos| - 1
  {
    if i > 0 {
      var j := i - 1;
      assert EntityHeadingsOnly(lines, j);
      DataModelCounts(lines, j);
      var l := lines[j];
      var st := DataModelScan(lines, j);
      var pos := SubheadingPositions(lines, j);
      DataModelStepShape(st, l);
      if IsSubheading(l) {
        assert SectionAt(lines, j) == Some("entities");
        DataModelSectionAndCurrent(lines, j);
        SubheadingSeen(lines, j);
        assert SubheadingPositions(lines, i) == pos + [j];
      } else {
        assert SubheadingPositions(lines, i) == pos;
      }
    }
  }

  /** Some `### ` line has been seen exactly when there is a last one, and
      the last one listed is the one whose text is the last seen. */
  lemma {:induction false} SubheadingSeen(lines: seq<string>, i: nat)
    requires i <= |lines|
    ensures LastSubheading(lines, i).Some? <==> |SubheadingPositions(lines, i)| > 0
    ensures |SubheadingPositions(lines, i)| > 0 ==>
      LastSubheading(lines, i) == Some(SubheadingText(lines[SubheadingPositions(lines, i)[|SubheadingPositions(lines, i)| - 1]]))
  {
    if i > 0 {
      SubheadingSeen(lines, i - 1);
      SubheadingSeenStep(lines, i);
      var cur := SubheadingPositions(lines, i);
      var prev := SubheadingPositions(lines, i - 1);
      if IsSubheading(lines[i - 1]) {
        assert cur[|cur| - 1] == i - 1;
        assert LastSubheading(lines, i) == Some(SubheadingText(lines[cur[|cur| - 1]]));
      } else if |cur| > 0 {
        assert cur[|cur| - 1] == prev[|prev| - 1];
        assert LastSubheading(lines, i - 1) == Some(SubheadingText(lines[prev[|prev| - 1]]));
      }
    }
  }

  /** One more line: a `### ` line becomes both the last one seen and the
      last one listed; any other line changes neither. */
  lemma SubheadingSeenStep(lines: seq<string>, i: nat)
    requires 0 < i <= |lines|
    ensures IsSubheading(lines[i - 1]) ==>
      && SubheadingPositions(lines, i) == SubheadingPositions(lines, i - 1) + [i - 1]
      && LastSubheading(lines, i) == Some(SubheadingText(lines[i - 1]))
    ensures !IsSubheading(lines[i - 1]) ==>
      && SubheadingPositions(lines, i) == SubheadingPositions(lines, i - 1)
      && LastSubheading(lines, i) == LastSubheading(lines, i - 1)
  {
  }

  /** The `k`-th entity emitted within the first `i` lines is named by the
      `k`-th `### ` line and described by what was buffered up to the next
      one. */
  predicate EntityAt(lines: seq<string>, i: nat, k: nat)
    requires i <= |lines|
  {
    var pos := SubheadingPositions(lines, i);
    var entities := DataModelScan(lines, i).entities;
    && k < |entities| && k + 1 < |pos|
    && entities[k] == EntityOf(SubheadingText(lines[pos[k]]), BufferSince(lines, pos[k + 1]))
  }

  /** A `### ` line of section `entities` keeps the entities emitted so far
      and adds the one in progress. */
  lemma EntitiesAfterSubheading(lines: seq<string>, j: nat, i: nat)
    requires i == j + 1 && j < |lines| && IsSubheading(lines[j]) && EntityHeadingsOnly(lines, i)
    requires forall k :: 0 <= k < |DataModelScan(lines, j).entities| ==> EntityAt(lines, j, k)
    ensures forall k :: 0 <= k < |DataModelScan(lines, i).entities| ==> EntityAt(lines, i, k)
  {
    var pos := SubheadingPositions(lines, j);
    var st := DataModelScan(lines, j);
    DataModelStepShape(st, lines[j]);
    DataModelSectionAndCurrent(lines, j);
    DataModelCounts(lines, j);
    SubheadingSeen(lines, j);
    var pos' := pos + [j];
    assert SubheadingPositions(lines, i) == pos';
    var entities' := DataModelScan(lines, i).entities;
    if |pos| > 0 {
      var k := |pos| - 1;
      DataModelBuffer(lines, j);
      assert entities' == st.entities + [EntityOf(SubheadingText(lines[pos[k]]), BufferSince(lines, j))];
      forall m | 0 <= m < |entities'| ensures EntityAt(lines, i, m) {
        if m < k {
          assert EntityAt(lines, j, m);
          assert entities'[m] == st.entities[m];
        }
      }
    }
  }

  /** Any other line leaves the emitted entities and the `### ` lines as
      they were. */
  lemma EntitiesAfterOther(lines: seq<string>, j: nat, i: nat)
    requires i == j + 1 && j < |lines| && !IsSubheading(lines[j])
    requires forall k :: 0 <= k < |DataModelScan(lines, j).entities| ==> EntityAt(lines, j, k)
    ensures forall k :: 0 <= k < |DataModelScan(lines, i).entities| ==> EntityAt(lines, i, k)
  {
    var entities := DataModelScan(lines, j).entities;
    DataModelStepShape(DataModelScan(lines, j), lines[j]);
    assert SubheadingPositions(lines, i) == SubheadingPositions(lines, j);
    assert DataModelScan(lines, i).entities == entities;
    forall m | 0 <= m < |entities| ensures EntityAt(lines, i, m) {
      assert EntityAt(lines, j, m);
    }
  }

  lemma {:induction false} EntitiesEmitted(lines: seq<string>, i: nat)
    requires i <= |lines| && EntityHeadingsOnly(lines, i)
    ensures forall k :: 0 <= k < |DataModelScan(lines, i).entities| ==> EntityAt(lines, i, k)
  {
    if i > 0 {
      EntitiesEmitted(lines, i - 1);
      if IsSubheading(lines[i - 1]) {
        EntitiesAfterSubheading(lines, i - 1, i);
      } else {
        EntitiesAfterOther(lines, i - 1, i);
      }
    }
  }

  /** When every `### ` line lies in section `entities`, the data model has
      one entity per `### ` line, in order, named by its trimmed text and
      described by the items and prose buffered up to the next `### ` line
      (or the end), joined by single spaces and trimmed. */
  lemma DataModelEntities(lines: seq<string>)
    requires EntityHeadingsOnly(lines, |lines|)
    ensures var pos := SubheadingPositions(lines, |lines|);
      var e := DataModelOf(lines).entities;
      && |e| == |pos|
      && forall k :: 0 <= k < |e| ==>
           e[k] == EntityOf(SubheadingText(lines[pos[k]]), BufferSince(lines, if k + 1 < |pos| then pos[k + 1] else |lines|))
  {
    var n := |lines|;
    DataModelCounts(lines, n);
    EntitiesEmitted(lines, n);
    FinalFlush(lines);
    var pos := SubheadingPositions(lines, n);
    var e := DataModelOf(lines).entities;
    if |pos| > 0 {
      var k := |pos| - 1;
      var emitted := DataModelScan(lines, n).entities;
      var last := EntityOf(SubheadingText(lines[pos[k]]), BufferSince(lines, n));
      assert e == emitted + [last];
      assert |e| == |pos|;
      forall m | 0 <= m < |e|
        ensures e[m] == EntityOf(SubheadingText(lines[pos[m]]), BufferSince(lines, if m + 1 < |pos| then pos[m + 1] else n))
      {
        if m < k {
          assert EntityAt(lines, n, m);
          assert e[m] == emitted[m];
        } else {
          assert m == k && e[m] == last;
        }
      }
    }
  }

  /** After the last line the entity in progress, if any, is added: it is
      named by the last `### ` line and described by the buffer. */
  lemma FinalFlush(lines: seq<string>)
    ensures var pos := SubheadingPositions(lines, |lines|);
      var st := DataModelScan(lines, |lines|);
      && (|pos| == 0 ==> DataModelOf(lines).entities == st.entities)
      && (|pos| > 0 ==>
            var last := EntityOf(SubheadingText(lines[pos[|pos| - 1]]), BufferSince(lines, |lines|));
            DataModelOf(lines).entities == st.entities + [last])
  {
    var n := |lines|;
    DataModelSectionAndCurrent(lines, n);
    DataModelBuffer(lines, n);
    SubheadingSeen(lines, n);
  }

  /** Whatever the section at the end, the last `### ` line's entity is
      the last one emitted. */
  lemma LastEntityEmitted(lines: seq<string>)
    requires LastSubheading(lines, |lines|).Some?
    ensures var e := DataModelOf(lines).entities;
      |e| > 0 && e[|e| - 1].name == LastSubheading(lines, |lines|).value
  {
    DataModelSectionAndCurrent(lines, |lines|);
  }

  /** Each entity is opened by its own `### ` line: there are never more
      entities than such lines. */
  lemma {:induction false} EntitiesBounded(lines: seq<string>, i: nat)
    requires i <= |lines|
    ensures |FlushEntities(DataModelScan(lines, i))| <= |SubheadingPositions(lines, i)|
  {
    if i > 0 {
      EntitiesBounded(lines, i - 1);
      DataModelSectionAndCurrent(lines, i - 1);
      SubheadingSeen(lines, i - 1);
      var l := lines[i - 1];
      DataModelStepShape(DataModelScan(lines, i - 1), l);
      if IsSubheading(l) {
        assert SubheadingPositions(lines, i) == SubheadingPositions(lines, i - 1) + [i - 1];
      } else {
        assert SubheadingPositions(lines, i) == SubheadingPositions(lines, i - 1);
      }
    }
  }
}

=== FILE: design_system_loader.dfy ===
/** `DesignSystemLoader`: reads the colour and typography tokens from two
    JSON files.  Each file is `Absent`, `Unreadable` (it exists but
    `String(contentsOfFile:)` throws), or `Readable(parsed)`, where
    `parsed` is `None` when the content is not valid JSON. */
module DesignSystemLoader {
  import opened Wrappers
  import opened Files

  /** A parsed JSON value; numbers are kept as integers since the tokens
      never read them. */
  datatype Json =
    | JNull
    | JBool(b: bool)
    | JNumber(n: int)
    | JString(s: string)
    | JArray(items: seq<Json>)
    | JObject(fields: map<string, Json>)

  datatype ColorTokens = ColorTokens(primary: string, secondary: string, neutral: string)

  datatype TypographyTokens = TypographyTokens(heading: string, body: string, mono: string)

  datatype DesignSystem = DesignSystem(colors: Option<ColorTokens>, typography: Option<TypographyTokens>)

  datatype DesignSystemLoaderError = FileNotFound(path: string) | InvalidJson(reason: string) | ParsingError(reason: string)

  const ColorsPath := "product/design-system/colors.json"
  const TypographyPath := "product/design-system/typography.json"

  const ColorKeys := ["primary", "secondary", "neutral"]
  const TypographyKeys := ["heading", "body", "mono"]

  const ColorsMissing := "Missing required color fields (primary, secondary, neutral)"
  const TypographyMissing := "Missing required typography fields (heading, body, mono)"

  /** `json` is an object whose every key in `keys` maps to a string. */
  predicate HasStringKeys(json: Option<Json>, keys: seq<string>) {
    && json.Some? && json.value.JObject?
    && forall k :: k in keys ==> k in json.value.fields && json.value.fields[k].JString?
  }

  /** `json[key] as? String`. */
  function StringField(fields: map<string, Json>, key: string): Option<string> {
    if key in fields && fields[key].JString? then Some(fields[key].s) else None
  }

  /** `loadColors`, given the parsed content of an existing file. */
  function LoadColors(json: Option<Json>): (r: Result<ColorTokens, DesignSystemLoaderError>)
    ensures r.Success? <==> HasStringKeys(json, ColorKeys)
    ensures r.Failure? ==> r.error == ParsingError(ColorsMissing)
    ensures r.Success? ==>
      && JString(r.value.primary) == json.value.fields["primary"]
      && JString(r.value.secondary) == json.value.fields["secondary"]
      && JString(r.value.neutral) == json.value.fields["neutral"]
  {
    if json.None? || !json.value.JObject? then Failure(ParsingError(ColorsMissing))
    else
      var fields := json.value.fields;
      match (StringField(fields, "primary"), StringField(fields, "secondary"), StringField(fields, "neutral"))
      case (Some(primary), Some(secondary), Some(neutral)) => Success(ColorTokens(primary, secondary, neutral))
      case _ => Failure(ParsingError(ColorsMissing))
  }

  /** `loadTypography`, given the parsed content of an existing file. */
  function LoadTypography(json: Option<Json>): (r: Result<TypographyTokens, DesignSystemLoaderError>)
    ensures r.Success? <==> HasStringKeys(json, TypographyKeys)
    ensures r.Failure? ==> r.error == ParsingError(TypographyMissing)
    ensures r.Success? ==>
      && JString(r.value.heading) == json.value.fields["heading"]
      && JString(r.value.body) == json.value.fields["body"]
      && JString(r.value.mono) == json.value.fields["mono"]
  {
    if json.None? || !json.value.JObject? then Failure(ParsingError(TypographyMissing))
    else
      var fields := json.value.fields;
      match (StringField(fields, "heading"), StringField(fields, "body"), StringField(fields, "mono"))
      case (Some(heading), Some(body), Some(mono)) => Success(TypographyTokens(heading, body, mono))
      case _ => Failure(ParsingError(TypographyMissing))
  }

  /** Loading `file` throws: it cannot be read, or it lacks one of the
      string fields `keys`. */
  predicate LoadFails(file: FileRead<Option<Json>>, keys: seq<string>) {
    file.Unreadable? || (file.Readable? && !HasStringKeys(file.content, keys))
  }

  /** `loadDesignSystem`: each token set is loaded only when its file
      exists; the colours are loaded first, so their error wins. */
  function LoadDesignSystem(colorsFile: FileRead<Option<Json>>, typographyFile: FileRead<Option<Json>>)
    : (r: Result<DesignSystem, Thrown<DesignSystemLoaderError>>)
    ensures r.Failure? <==> LoadFails(colorsFile, ColorKeys) || LoadFails(typographyFile, TypographyKeys)
    ensures r.Success? ==> (r.value.colors.None? <==> colorsFile.Absent?)
    ensures r.Success? ==> (r.value.typography.None? <==> typographyFile.Absent?)
    ensures r.Success? && colorsFile.Readable? ==> r.value.colors == Some(LoadColors(colorsFile.content).value)
    ensures r.Success? && typographyFile.Readable? ==>
      r.value.typography == Some(LoadTypography(typographyFile.content).value)
    ensures colorsFile.Unreadable? ==> r == Failure(ReadFailed)
    ensures colorsFile.Readable? && !HasStringKeys(colorsFile.content, ColorKeys)
      ==> r == Failure(Own(ParsingError(ColorsMissing)))
    ensures !LoadFails(colorsFile, ColorKeys) && typographyFile.Unreadable? ==> r == Failure(ReadFailed)
    ensures !LoadFails(colorsFile, ColorKeys) && typographyFile.Readable? && !HasStringKeys(typographyFile.content, TypographyKeys)
      ==> r == Failure(Own(ParsingError(TypographyMissing)))
  {
    var colors: Result<Option<ColorTokens>, Thrown<DesignSystemLoaderError>> :=
      match colorsFile
      case Absent => Success(None)
      case Unreadable => Failure(ReadFailed)
      case Readable(json) =>
        (match LoadColors(json)
         case Success(c) => Success(Some(c))
         case Failure(e) => Failure(Own(e)));
    if colors.Failure? then Failure(colors.error)
    else
      var typography: Result<Option<TypographyTokens>, Thrown<DesignSystemLoaderError>> :=
        match typographyFile
        case Absent => Success(None)
        case Unreadable => Failure(ReadFailed)
        case Readable(json) =>
          (match LoadTypography(json)
           case Success(t) => Success(Some(t))
           case Failure(e) => Failure(Own(e)));
      if typography.Failure? then Failure(typography.error)
      else Success(DesignSystem(colors.value, typography.value))
  }

  /** `hasDesignSystem`, given which of the two files exist. */
  function HasDesignSystem(colorsExists: bool, typographyExists: bool): bool {
    colorsExists || typographyExists
  }

  /** Without either file the design system is empty; with one, a
      successful load carries at least one token set. */
  lemma HasDesignSystemMeansTokens(colorsFile: FileRead<Option<Json>>, typographyFile: FileRead<Option<Json>>)
    ensures var r := LoadDesignSystem(colorsFile, typographyFile);
      && (!HasDesignSystem(!colorsFile.Absent?, !typographyFile.Absent?) ==> r == Success(DesignSystem(None, None)))
      && (HasDesignSystem(!colorsFile.Absent?, !typographyFile.Absent?) && r.Success? ==>
            r.value.colors.Some? || r.value.typography.Some?)
  {
  }

  /** The JSON object a colour-token file holds. */
  function ColorsJson(t: ColorTokens): Json {
    JObject(map["primary" := JString(t.primary), "secondary" := JString(t.secondary), "neutral" := JString(t.neutral)])
  }

  function TypographyJson(t: TypographyTokens): Json {
    JObject(map["heading" := JString(t.heading), "body" := JString(t.body), "mono" := JString(t.mono)])
  }

  /** The tokens are read back verbatim from any object that holds them,
      whatever other keys it has. */
  lemma ColorsRoundTrip(t: ColorTokens, other: map<string, Json>)
    ensures LoadColors(Some(JObject(other + ColorsJson(t).fields))) == Success(t)
  {
    var fields := other + ColorsJson(t).fields;
    assert HasStringKeys(Some(JObject(fields)), ColorKeys);
  }

  lemma TypographyRoundTrip(t: TypographyTokens, other: map<string, Json>)
    ensures LoadTypography(Some(JObject(other + TypographyJson(t).fields))) == Success(t)
  {
    var fields := other + TypographyJson(t).fields;
    assert HasStringKeys(Some(JObject(fields)), TypographyKeys);
  }
}

=== FILE: example_task_list.dfy ===
/** The TaskFlow example's task list screen: the search-and-filter
    pipeline, the empty-state hint and the swipe-to-delete handler.
    `today` and `tomorrow` stand for the start of the current and the next
    calendar day, `now` for `Date()`. */
module ExampleTaskList {
  import opened Wrappers
  import opened Text
  import opened Tasks
  import opened TaskRows
  import TaskFlowExample

  datatype TaskFilter = All | Today | Upcoming | Completed

  /** The status test of each filter chip; every chip but `.completed`
      hides completed tasks. */
  predicate PassesFilter(t: TaskItem, filter: TaskFilter, today: int, tomorrow: int, now: int) {
    match filter
    case All => !t.isCompleted
    case Today => !t.isCompleted && today <= t.dueDate < tomorrow
    case Upcoming => !t.isCompleted && t.dueDate > now
    case Completed => t.isCompleted
  }

  /** A task is listed when a non-empty search occurs in its title,
      ignoring case, and it passes the filter. */
  predicate Listed(t: TaskItem, search: string, filter: TaskFilter, today: int, tomorrow: int, now: int) {
    && (search == [] || ContainsIgnoringCase(t.title, search))
    && PassesFilter(t, filter, today, tomorrow, now)
  }

  /** `filteredTasks`: the listed tasks, each as often as stored,
      ascending by due date. */
  function FilteredTasks(tasks: seq<TaskItem>, search: string, filter: TaskFilter,
                         today: int, tomorrow: int, now: int): (r: seq<TaskItem>)
    ensures SortedByDue(r)
    ensures forall t :: multiset(r)[t] == if Listed(t, search, filter, today, tomorrow, now) then multiset(tasks)[t] else 0
    ensures forall t :: t in r <==> t in tasks && Listed(t, search, filter, today, tomorrow, now)
  {
    var textFiltered := if search == [] then tasks else Filter(tasks, (t: TaskItem) => ContainsIgnoringCase(t.title, search));
    var statusFiltered := Filter(textFiltered, (t: TaskItem) => PassesFilter(t, filter, today, tomorrow, now));
    FilterMultiset(tasks, (t: TaskItem) => ContainsIgnoringCase(t.title, search));
    FilterMultiset(textFiltered, (t: TaskItem) => PassesFilter(t, filter, today, tomorrow, now));
    var r := SortByDue(statusFiltered);
    MultisetMembership(r, tasks, (t: TaskItem) => Listed(t, search, filter, today, tomorrow, now));
    r
  }

  /** A completed task is listed only under `.completed`. */
  lemma CompletedOnlyUnderCompleted(tasks: seq<TaskItem>, search: string, filter: TaskFilter,
                                    today: int, tomorrow: int, now: int)
    ensures filter != Completed ==>
      forall t :: t in FilteredTasks(tasks, search, filter, today, tomorrow, now) ==> !t.isCompleted
    ensures filter == Completed ==>
      forall t :: t in FilteredTasks(tasks, search, filter, today, tomorrow, now) ==> t.isCompleted
  {
  }

  // ---------------------------------------------------------------------
  // Empty state

  datatype EmptyHint = CreateFirstTask | AdjustFilters

  /** The hint under "No tasks found". */
  function Hint(search: string, filter: TaskFilter): (h: EmptyHint)
    ensures h == CreateFirstTask <==> search == [] && filter == All
  {
    if search == [] && filter == All then CreateFirstTask else AdjustFilters
  }

  /** With no search and `.all`, the list is empty exactly when every task
      is completed, so the "create your first task" hint also shows when
      completed tasks exist. */
  lemma {:induction false} EmptyUnderAll(tasks: seq<TaskItem>, today: int, tomorrow: int, now: int)
    ensures FilteredTasks(tasks, "", All, today, tomorrow, now) == [] <==> forall k :: 0 <= k < |tasks| ==> tasks[k].isCompleted
  {
    var r := FilteredTasks(tasks, "", All, today, tomorrow, now);
    if r != [] {
      assert r[0] in r;
    } else {
      forall k | 0 <= k < |tasks| ensures tasks[k].isCompleted {
        assert tasks[k] in tasks;
      }
    }
  }

  // ---------------------------------------------------------------------
  // Swipe to delete

  /** `filteredTasks` under fixed choices, as a function of the stored
      tasks: the list the as-written `onDelete` reads again after each
      deletion (`TaskRows.DeleteAsWritten`). */
  function Shown(search: string, filter: TaskFilter, today: int, tomorrow: int, now: int)
    : seq<TaskItem> -> seq<TaskItem>
  {
    (tasks: seq<TaskItem>) => FilteredTasks(tasks, search, filter, today, tomorrow, now)
  }

  /** `onDelete` as evidently intended: the rows are read from the list as
      displayed before any deletion, and the tasks of exactly those rows
      are deleted. */
  method OnDelete(manager: TaskFlowExample.TaskManager, indices: seq<nat>, search: string, filter: TaskFilter,
                  today: int, tomorrow: int, now: int)
    requires forall k :: 0 <= k < |indices| ==>
      indices[k] < |FilteredTasks(manager.tasks, search, filter, today, tomorrow, now)|
    modifies manager
    ensures var rows := FilteredTasks(old(manager.tasks), search, filter, today, tomorrow, now);
      manager.tasks == RemoveIds(old(manager.tasks), RowIds(rows, indices))
  {
    var rows := FilteredTasks(manager.tasks, search, filter, today, tomorrow, now);
    DeleteRows(manager, rows, indices);
  }

  /** The loop of the intended handler: deletes the task of each chosen
      row of the snapshot `rows` by id. */
  method DeleteRows(manager: TaskFlowExample.TaskManager, rows: seq<TaskItem>, indices: seq<nat>)
    requires forall k :: 0 <= k < |indices| ==> indices[k] < |rows|
    modifies manager
    ensures manager.tasks == RemoveIds(old(manager.tasks), RowIds(rows, indices))
  {
    ghost var start := manager.tasks;
    RemoveNoIds(start);
    for i := 0 to |indices|
      invariant forall k :: 0 <= k < i ==> indices[..i][k] < |rows|
      invariant manager.tasks == RemoveIds(start, RowIds(rows, indices[..i]))
    {
      ghost var ids := RowIds(rows, indices[..i]);
      manager.DeleteTask(rows[indices[i]].id);
      RemoveIdsStep(start, ids, rows[indices[i]].id);
      RowIdsSnoc(rows, indices, i);
    }
    assert indices[..|indices|] == indices;
  }

  // ---------------------------------------------------------------------
  // What the as-written loop does with two rows

  /** With no search and `.all`, open tasks in strictly ascending due-date
      order are shown as stored. */
  lemma ShownAsStored(tasks: seq<TaskItem>, today: int, tomorrow: int, now: int)
    requires DueAscending(tasks)
    requires forall k :: 0 <= k < |tasks| ==> !tasks[k].isCompleted
    ensures FilteredTasks(tasks, "", All, today, tomorrow, now) == tasks
  {
    var r := FilteredTasks(tasks, "", All, today, tomorrow, now);
    forall t ensures multiset(r)[t] == multiset(tasks)[t] {
      if t in tasks {
        var k :| 0 <= k < |tasks| && tasks[k] == t;
      }
    }
    assert multiset(r) == multiset(tasks);
    SortedUnique(r, tasks);
  }

  /** The same through the view the as-written loop reads. */
  lemma ViewAsStored(tasks: seq<TaskItem>, today: int, tomorrow: int, now: int)
    requires DueAscending(tasks)
    requires forall k :: 0 <= k < |tasks| ==> !tasks[k].isCompleted
    ensures Shown("", All, today, tomorrow, now)(tasks) == tasks
  {
    ShownAsStored(tasks, today, tomorrow, now);
  }

  /** Deleting rows 0 and 1 of three open tasks deletes the first and the
      third: after the first deletion, index 1 reads the old third row. */
  lemma AsWrittenDeletesWrongRow(a: TaskItem, b: TaskItem, c: TaskItem, today: int, tomorrow: int, now: int)
    requires a.dueDate < b.dueDate < c.dueDate
    requires a.id != b.id && b.id != c.id && a.id != c.id
    requires !a.isCompleted && !b.isCompleted && !c.isCompleted
    ensures Shown("", All, today, tomorrow, now)([a, b, c]) == [a, b, c]
    ensures DeleteAsWritten([a, b, c], [0, 1], Shown("", All, today, tomorrow, now)) == Some([b])
  {
    ViewAsStored([a, b, c], today, tomorrow, now);
    ViewAsStored([b, c], today, tomorrow, now);
    DeleteAsWrittenFirstAndThird(a, b, c, Shown("", All, today, tomorrow, now));
  }

  /** Deleting both of two open tasks traps: after the first deletion only
      one row is left for index 1. */
  lemma AsWrittenTraps(a: TaskItem, b: TaskItem, today: int, tomorrow: int, now: int)
    requires a.dueDate < b.dueDate && a.id != b.id
    requires !a.isCompleted && !b.isCompleted
    ensures DeleteAsWritten([a, b], [0, 1], Shown("", All, today, tomorrow, now)) == None
  {
    ViewAsStored([a, b], today, tomorrow, now);
    ViewAsStored([b], today, tomorrow, now);
    DeleteAsWrittenTrap(a, b, Shown("", All, today, tomorrow, now));
  }
}

=== FILE: files.dfy ===
/** What a loader finds when it reads one of its files, and the errors a
    throwing loader passes on. */
module Files {

  /** The outcome of `String(contentsOfFile:encoding:)` on a path that was
      first tested with `fileExists`: no file, a file that exists but
      cannot be read as UTF-8 text, or the file's content. */
  datatype FileRead<+T> = Absent | Unreadable | Readable(content: T)

  /** An error a throwing loader raises: one of its own error enum, or the
      Foundation error thrown when an existing file cannot be read, which
      the loader's `try` passes on unchanged. */
  datatype Thrown<+E> = Own(error: E) | ReadFailed
}

=== FILE: ios_project_list.dfy ===
/** The iOS project list: each project card's task count and selection
    mark, tapping a card to select or deselect it, and deleting a project
    from its card. */
module IOSProjectList {
  import opened Wrappers
  import opened Tasks
  import TaskFlowIOS

  /** The card's `taskCount`: how many tasks belong to the project. */
  function TaskCount(tasks: seq<TaskItem>, project: Project): (n: nat)
    ensures n <= |tasks|
    ensures n == 0 <==> forall k :: 0 <= k < |tasks| ==> tasks[k].projectId != project.id
  {
    EmptyFilter(tasks, project.id);
    |Filter(tasks, (t: TaskItem) => t.projectId == project.id)|
  }

  /** The project's filter is empty exactly when no task belongs to it. */
  lemma EmptyFilter(tasks: seq<TaskItem>, projectId: int)
    ensures Filter(tasks, (t: TaskItem) => t.projectId == projectId) == [] <==>
      forall k :: 0 <= k < |tasks| ==> tasks[k].projectId != projectId
  {
    var r := Filter(tasks, (t: TaskItem) => t.projectId == projectId);
    if r != [] {
      assert multiset(r)[r[0]] > 0;
    } else {
      forall k | 0 <= k < |tasks| ensures tasks[k].projectId != projectId {
        assert multiset(tasks)[tasks[k]] > 0;
      }
    }
  }

  /** The card's `isSelected`: the selection has the project's id. */
  predicate IsSelected(selected: Option<Project>, project: Project) {
    selected.Some? && selected.value.id == project.id
  }

  /** The selection after tapping a card: tapping the selected project
      deselects it, tapping any other selects that one. */
  function Tapped(selected: Option<Project>, project: Project): (r: Option<Project>)
    ensures IsSelected(selected, project) ==> r.None?
    ensures !IsSelected(selected, project) ==> r == Some(project)
  {
    if IsSelected(selected, project) then None else Some(project)
  }

  /** Two taps on the same card from no selection leave nothing selected;
      from any selection, the second tap undoes the first only when the
      first selected the card. */
  lemma TapTwice(selected: Option<Project>, project: Project)
    ensures selected.None? ==> Tapped(Tapped(selected, project), project).None?
    ensures !IsSelected(selected, project) ==> Tapped(Tapped(selected, project), project).None?
    ensures IsSelected(selected, project) ==> Tapped(Tapped(selected, project), project) == Some(project)
  {
  }

  /** After a tap exactly the tapped card is marked, unless it was
      deselected, in which case no card is. */
  lemma TapMarksOneCard(selected: Option<Project>, project: Project, other: Project)
    requires other.id != project.id
    ensures !IsSelected(Tapped(selected, project), other)
    ensures IsSelected(Tapped(selected, project), project) <==> !IsSelected(selected, project)
  {
  }

  /** The screen's state: the shared store and the selection binding. */
  class ProjectListScreen {
    const manager: TaskFlowIOS.TaskManager
    var selectedProject: Option<Project>

    constructor (manager: TaskFlowIOS.TaskManager, selectedProject: Option<Project>)
      ensures this.manager == manager && this.selectedProject == selectedProject
    {
      this.manager := manager;
      this.selectedProject := selectedProject;
    }

    /** A card's `onTap`. */
    method Tap(project: Project)
      modifies this
      ensures selectedProject == Tapped(old(selectedProject), project)
    {
      selectedProject := if IsSelected(selectedProject, project) then None else Some(project);
    }

    /** A card's `onDelete`: the store deletes the project and its tasks,
        then the selection is cleared if it was that project and kept
        otherwise. */
    method Delete(project: Project)
      modifies this, manager
      ensures manager.projects == RemoveProject(old(manager.projects), project.id)
      ensures manager.tasks == RemoveProjectTasks(old(manager.tasks), project.id)
      ensures TaskCount(manager.tasks, project) == 0
      ensures IsSelected(old(selectedProject), project) ==> selectedProject.None?
      ensures !IsSelected(old(selectedProject), project) ==> selectedProject == old(selectedProject)
      ensures !IsSelected(selectedProject, project)
    {
      manager.DeleteProject(project);
      if IsSelected(selectedProject, project) {
        selectedProject := None;
      }
    }
  }
}

=== FILE: ios_task_list.dfy ===
/** The iOS task list screen: the filter-and-sort pipeline behind the list
    and the swipe-to-delete handler.  `startOfToday` stands for
    `Calendar.current.startOfDay(for: Date())` and `dayOf` maps a timestamp
    to its calendar day. */
module IOSTaskList {
  import opened Wrappers
  import opened Text
  import opened Tasks
  import opened TaskRows
  import TaskFlowIOS

  datatype FilterOption = All | Today | Upcoming | Completed

  /** The search text occurs in the title or the description, ignoring
      case. */
  predicate MatchesSearch(t: TaskItem, search: string) {
    ContainsIgnoringCase(t.title, search) || ContainsIgnoringCase(t.description, search)
  }

  /** The status test of each filter chip; `.all` tests nothing. */
  predicate PassesFilter(t: TaskItem, filter: FilterOption, startOfToday: int, dayOf: int -> int) {
    match filter
    case All => true
    case Today => dayOf(t.dueDate) == dayOf(startOfToday)
    case Upcoming => t.dueDate > startOfToday && !t.isCompleted
    case Completed => t.isCompleted
  }

  /** A task is listed when it belongs to the selected project (if any),
      matches a non-empty search, and passes the filter. */
  predicate Listed(t: TaskItem, selectedProject: Option<Project>, search: string, filter: FilterOption,
                   startOfToday: int, dayOf: int -> int) {
    && (selectedProject.None? || t.projectId == selectedProject.value.id)
    && (search == [] || MatchesSearch(t, search))
    && PassesFilter(t, filter, startOfToday, dayOf)
  }

  /** `filteredTasks`: the listed tasks, each as often as stored,
      ascending by due date. */
  function FilteredTasks(tasks: seq<TaskItem>, selectedProject: Option<Project>, search: string,
                         filter: FilterOption, startOfToday: int, dayOf: int -> int): (r: seq<TaskItem>)
    ensures SortedByDue(r)
    ensures forall t :: multiset(r)[t] == if Listed(t, selectedProject, search, filter, startOfToday, dayOf) then multiset(tasks)[t] else 0
    ensures forall t :: t in r <==> t in tasks && Listed(t, selectedProject, search, filter, startOfToday, dayOf)
  {
    var byProject := if selectedProject.Some? then
        FilterMultiset(tasks, (t: TaskItem) => t.projectId == selectedProject.value.id);
        Filter(tasks, (t: TaskItem) => t.projectId == selectedProject.value.id)
      else tasks;
    var bySearch := if search != [] then Filter(byProject, (t: TaskItem) => MatchesSearch(t, search)) else byProject;
    var byStatus := Filter(bySearch, (t: TaskItem) => PassesFilter(t, filter, startOfToday, dayOf));
    FilterMultiset(byProject, (t: TaskItem) => MatchesSearch(t, search));
    FilterMultiset(bySearch, (t: TaskItem) => PassesFilter(t, filter, startOfToday, dayOf));
    var r := SortByDue(byStatus);
    MultisetMembership(r, tasks, (t: TaskItem) => Listed(t, selectedProject, search, filter, startOfToday, dayOf));
    r
  }

  // ---------------------------------------------------------------------
  // Swipe to delete

  /** `filteredTasks` under fixed choices, as a function of the stored
      tasks: the list the as-written `deleteTasks(offsets:)` indexes again
      after each deletion (`TaskRows.DeleteAsWritten`). */
  function Shown(selectedProject: Option<Project>, search: string, filter: FilterOption,
                 startOfToday: int, dayOf: int -> int): seq<TaskItem> -> seq<TaskItem>
  {
    (tasks: seq<TaskItem>) => FilteredTasks(tasks, selectedProject, search, filter, startOfToday, dayOf)
  }

  /** `deleteTasks(offsets:)` as evidently intended: the rows are read from
      the list as displayed, before any deletion, and the tasks of exactly
      those rows are deleted. */
  method DeleteTasks(manager: TaskFlowIOS.TaskManager, offsets: seq<nat>, selectedProject: Option<Project>,
                     search: string, filter: FilterOption, startOfToday: int, dayOf: int -> int)
    requires forall k :: 0 <= k < |offsets| ==>
      offsets[k] < |FilteredTasks(manager.tasks, selectedProject, search, filter, startOfToday, dayOf)|
    modifies manager
    ensures var rows := FilteredTasks(old(manager.tasks), selectedProject, search, filter, startOfToday, dayOf);
      manager.tasks == RemoveIds(old(manager.tasks), RowIds(rows, offsets))
    ensures manager.projects == old(manager.projects)
  {
    var rows := FilteredTasks(manager.tasks, selectedProject, search, filter, startOfToday, dayOf);
    DeleteRows(manager, rows, offsets);
  }

  /** The loop of the intended handler: deletes the task of each chosen
      row of the snapshot `rows`. */
  method DeleteRows(manager: TaskFlowIOS.TaskManager, rows: seq<TaskItem>, offsets: seq<nat>)
    requires forall k :: 0 <= k < |offsets| ==> offsets[k] < |rows|
    modifies manager
    ensures manager.tasks == RemoveIds(old(manager.tasks), RowIds(rows, offsets))
    ensures manager.projects == old(manager.projects)
  {
    ghost var start := manager.tasks;
    RemoveNoIds(start);
    for i := 0 to |offsets|
      invariant forall k :: 0 <= k < i ==> offsets[..i][k] < |rows|
      invariant manager.tasks == RemoveIds(start, RowIds(rows, offsets[..i]))
      invariant manager.projects == old(manager.projects)
    {
      ghost var ids := RowIds(rows, offsets[..i]);
      manager.DeleteTask(rows[offsets[i]]);
      RemoveIdsStep(start, ids, rows[offsets[i]].id);
      RowIdsSnoc(rows, offsets, i);
    }
    assert offsets[..|offsets|] == offsets;
  }

  // ---------------------------------------------------------------------
  // What the as-written handler does with two rows

  /** With no project, no search and `.all`, a list already in strictly
      ascending due-date order is shown as it is stored. */
  lemma ShownAsStored(tasks: seq<TaskItem>, startOfToday: int, dayOf: int -> int)
    requires DueAscending(tasks)
    ensures FilteredTasks(tasks, None, "", All, startOfToday, dayOf) == tasks
  {
    var r := FilteredTasks(tasks, None, "", All, startOfToday, dayOf);
    assert forall t :: multiset(r)[t] == multiset(tasks)[t];
    assert multiset(r) == multiset(tasks);
    SortedUnique(r, tasks);
  }

  /** The same through the view the as-written handler indexes. */
  lemma ViewAsStored(tasks: seq<TaskItem>, startOfToday: int, dayOf: int -> int)
    requires DueAscending(tasks)
    ensures Shown(None, "", All, startOfToday, dayOf)(tasks) == tasks
  {
    ShownAsStored(tasks, startOfToday, dayOf);
  }

  /** Deleting rows 0 and 1 of three listed tasks deletes the first and
      the third: after the first deletion, offset 1 indexes the old third
      row. */
  lemma AsWrittenDeletesWrongRow(a: TaskItem, b: TaskItem, c: TaskItem, startOfToday: int, dayOf: int -> int)
    requires a.dueDate < b.dueDate < c.dueDate
    requires a.id != b.id && b.id != c.id && a.id != c.id
    ensures Shown(None, "", All, startOfToday, dayOf)([a, b, c]) == [a, b, c]
    ensures DeleteAsWritten([a, b, c], [0, 1], Shown(None, "", All, startOfToday, dayOf)) == Some([b])
  {
    ViewAsStored([a, b, c], startOfToday, dayOf);
    ViewAsStored([b, c], startOfToday, dayOf);
    DeleteAsWrittenFirstAndThird(a, b, c, Shown(None, "", All, startOfToday, dayOf));
  }

  /** Deleting both of two listed tasks traps: after the first deletion
      only one row is left for offset 1. */
  lemma AsWrittenTraps(a: TaskItem, b: TaskItem, startOfToday: int, dayOf: int -> int)
    requires a.dueDate < b.dueDate && a.id != b.id
    ensures DeleteAsWritten([a, b], [0, 1], Shown(None, "", All, startOfToday, dayOf)) == None
  {
    ViewAsStored([a, b], startOfToday, dayOf);
    ViewAsStored([b], startOfToday, dayOf);
    DeleteAsWrittenTrap(a, b, Shown(None, "", All, startOfToday, dayOf));
  }
}

=== FILE: mac_sidebar.dfy ===
/** The macOS sidebar: its items, the task count shown beside the three
    task rows, and which rows carry a count. */
module MacSidebar {
  import opened Wrappers
  import opened Tasks
  import MacTaskList

  datatype SidebarItem = AllTasks | Today | Upcoming | Projects | Settings

  /** `taskCount(for:)`. */
  function TaskCount(tasks: seq<TaskItem>, item: SidebarItem, startOfToday: int, dayOf: int -> int): (n: nat)
    ensures n <= |tasks|
    ensures item.Projects? || item.Settings? ==> n == 0
  {
    match item
    case AllTasks => |tasks|
    case Today => Count(tasks, (t: TaskItem) => dayOf(t.dueDate) == dayOf(startOfToday))
    case Upcoming => Count(tasks, (t: TaskItem) => t.dueDate > startOfToday && !t.isCompleted)
    case _ => 0
  }

  /** Each task row's count is the length of the list its screen shows:
      all tasks, the Today list, the Upcoming list. */
  lemma CountsMatchLists(tasks: seq<TaskItem>, startOfToday: int, dayOf: int -> int)
    ensures TaskCount(tasks, AllTasks, startOfToday, dayOf) == |MacTaskList.FilteredTasks(tasks, "")|
    ensures TaskCount(tasks, Today, startOfToday, dayOf) == |MacTaskList.TodayTasks(tasks, startOfToday, dayOf)|
    ensures TaskCount(tasks, Upcoming, startOfToday, dayOf) == |MacTaskList.UpcomingTasks(tasks, startOfToday)|
  {
    var r := MacTaskList.FilteredTasks(tasks, "");
    assert |multiset(r)| == |multiset(tasks)|;
  }

  /** A sidebar row: its item and the count badge, if it has one. */
  datatype Row = Row(item: SidebarItem, count: Option<nat>)

  /** The items listed under "Tasks". */
  predicate IsTaskItem(item: SidebarItem) {
    item.AllTasks? || item.Today? || item.Upcoming?
  }

  /** The "Tasks" section: all tasks, today and upcoming, each with its
      count. */
  function TaskSectionRows(tasks: seq<TaskItem>, startOfToday: int, dayOf: int -> int): (rows: seq<Row>)
    ensures |rows| == 3
    ensures forall k :: 0 <= k < |rows| ==>
      IsTaskItem(rows[k].item) && rows[k].count == Some(TaskCount(tasks, rows[k].item, startOfToday, dayOf))
  {
    [ Row(AllTasks, Some(TaskCount(tasks, AllTasks, startOfToday, dayOf))),
      Row(Today, Some(TaskCount(tasks, Today, startOfToday, dayOf))),
      Row(Upcoming, Some(TaskCount(tasks, Upcoming, startOfToday, dayOf))) ]
  }

  /** The "App" section: projects and settings, without counts. */
  function AppSectionRows(): (rows: seq<Row>)
    ensures |rows| == 2
    ensures forall k :: 0 <= k < |rows| ==> !IsTaskItem(rows[k].item) && rows[k].count.None?
  {
    [Row(Projects, None), Row(Settings, None)]
  }

  /** Across both sections a row carries a count exactly when its item is
      a task item, and the rows list the items in declaration order. */
  lemma RowsCoverItems(tasks: seq<TaskItem>, startOfToday: int, dayOf: int -> int)
    ensures var rows := TaskSectionRows(tasks, startOfToday, dayOf) + AppSectionRows();
      && (forall k :: 0 <= k < |rows| ==> (rows[k].count.Some? <==> IsTaskItem(rows[k].item)))
      && seq(|rows|, k requires 0 <= k < |rows| => rows[k].item) == [AllTasks, Today, Upcoming, Projects, Settings]
  {
    var t := TaskSectionRows(tasks, startOfToday, dayOf);
    var rows := t + AppSectionRows();
    forall k | 0 <= k < |rows| ensures rows[k].count.Some? <==> IsTaskItem(rows[k].item) {
      if k < 3 { assert rows[k] == t[k]; } else { assert rows[k] == AppSectionRows()[k - 3]; }
    }
  }
}

=== FILE: mac_task_list.dfy ===
/** The macOS task list screens: the searchable task list, the overdue
    marker, and the Today and Upcoming lists.  `startOfToday` stands for
    `Calendar.current.startOfDay(for: Date())`, `now` for `Date()`, and
    `dayOf` maps a timestamp to its calendar day. */
module MacTaskList {
  import opened Text
  import opened Tasks

  /** The search text occurs in the title or the description, ignoring
      case. */
  predicate MatchesSearch(t: TaskItem, search: string) {
    ContainsIgnoringCase(t.title, search) || ContainsIgnoringCase(t.description, search)
  }

  /** `filteredTasks`: with a search, the matching tasks in stored order
      and unsorted; without one, every task ascending by due date. */
  function FilteredTasks(tasks: seq<TaskItem>, search: string): (r: seq<TaskItem>)
    ensures search == [] ==> SortedByDue(r) && multiset(r) == multiset(tasks)
    ensures search != [] ==>
      forall t :: multiset(r)[t] == if MatchesSearch(t, search) then multiset(tasks)[t] else 0
    ensures forall t :: t in r ==> t in tasks
  {
    FilterMultiset(tasks, (t: TaskItem) => MatchesSearch(t, search));
    var r := if search != [] then Filter(tasks, (t: TaskItem) => MatchesSearch(t, search)) else SortByDue(tasks);
    assert forall t :: t in r ==> t in tasks by {
      forall t | t in r ensures t in tasks {
        assert multiset(r)[t] > 0;
      }
    }
    r
  }

  /** With a search, the list keeps the stored order: searching a
      concatenation gives the two results one after the other. */
  lemma SearchKeepsOrder(a: seq<TaskItem>, b: seq<TaskItem>, search: string)
    requires search != []
    ensures FilteredTasks(a + b, search) == FilteredTasks(a, search) + FilteredTasks(b, search)
  {
    FilterAppend(a, b, (t: TaskItem) => MatchesSearch(t, search));
  }

  /** `isOverdue`: open and due before now. */
  predicate IsOverdue(t: TaskItem, now: int) {
    !t.isCompleted && t.dueDate < now
  }

  /** `todayTasks`: the tasks due on today's date, ascending by due date. */
  function TodayTasks(tasks: seq<TaskItem>, startOfToday: int, dayOf: int -> int): (r: seq<TaskItem>)
    ensures SortedByDue(r)
    ensures forall t :: multiset(r)[t] == if dayOf(t.dueDate) == dayOf(startOfToday) then multiset(tasks)[t] else 0
    ensures |r| == Count(tasks, (t: TaskItem) => dayOf(t.dueDate) == dayOf(startOfToday))
  {
    FilterMultiset(tasks, (t: TaskItem) => dayOf(t.dueDate) == dayOf(startOfToday));
    SortByDue(Filter(tasks, (t: TaskItem) => dayOf(t.dueDate) == dayOf(startOfToday)))
  }

  /** `upcomingTasks`: the open tasks due after the start of today,
      ascending by due date. */
  function UpcomingTasks(tasks: seq<TaskItem>, startOfToday: int): (r: seq<TaskItem>)
    ensures SortedByDue(r)
    ensures forall t :: multiset(r)[t] == if t.dueDate > startOfToday && !t.isCompleted then multiset(tasks)[t] else 0
    ensures |r| == Count(tasks, (t: TaskItem) => t.dueDate > startOfToday && !t.isCompleted)
  {
    FilterMultiset(tasks, (t: TaskItem) => t.dueDate > startOfToday && !t.isCompleted);
    SortByDue(Filter(tasks, (t: TaskItem) => t.dueDate > startOfToday && !t.isCompleted))
  }

  /** The Upcoming list starts at the start of today, but the overdue
      marker compares with now: a task on the list is marked overdue
      exactly when it is due before now, and every open task due between
      the start of today and now is both on the list and overdue. */
  lemma UpcomingOverdueBeforeNow(tasks: seq<TaskItem>, startOfToday: int, now: int)
    requires startOfToday <= now
    ensures forall k :: 0 <= k < |UpcomingTasks(tasks, startOfToday)| ==>
      (IsOverdue(UpcomingTasks(tasks, startOfToday)[k], now) <==> UpcomingTasks(tasks, startOfToday)[k].dueDate < now)
    ensures forall t :: t in tasks && !t.isCompleted && startOfToday < t.dueDate < now ==>
      t in UpcomingTasks(tasks, startOfToday) && IsOverdue(t, now)
  {
    var r := UpcomingTasks(tasks, startOfToday);
    forall k | 0 <= k < |r| ensures IsOverdue(r[k], now) <==> r[k].dueDate < now {
      assert multiset(r)[r[k]] > 0;
    }
    forall t | t in tasks && !t.isCompleted && startOfToday < t.dueDate < now
      ensures t in r && IsOverdue(t, now)
    {
      assert multiset(tasks)[t] > 0;
      assert multiset(r)[t] > 0;
    }
  }
}

=== FILE: markdown.dfy ===
/** The line conventions shared by the markdown loaders: `# ` title, `## `
    section heading, `### ` sub-heading, `- ` list item, and prose.  Each
    loader walks the lines once and keeps a "current section": the
    lower-cased, untrimmed text after the last `## ` seen.  The functions
    below describe, for the first `i` lines, what a loader has seen so far,
    each defined by looking back over the lines rather than by the loaders'
    running state. */
module Markdown {
  import opened Wrappers
  import opened Text

  /** `hasPrefix("# ")`, spelled out character by character. */
  predicate IsTitle(l: string) { |l| >= 2 && l[0] == '#' && l[1] == ' ' }

  /** `hasPrefix("## ")`. */
  predicate IsHeading(l: string) { |l| >= 3 && l[0] == '#' && l[1] == '#' && l[2] == ' ' }

  /** `hasPrefix("### ")`. */
  predicate IsSubheading(l: string) { |l| >= 4 && l[0] == '#' && l[1] == '#' && l[2] == '#' && l[3] == ' ' }

  /** `hasPrefix("- ")`. */
  predicate IsItem(l: string) { |l| >= 2 && l[0] == '-' && l[1] == ' ' }

  /** The four tests are exactly the prefix tests they stand for. */
  lemma KindsArePrefixes(l: string)
    ensures IsTitle(l) <==> HasPrefix(l, "# ")
    ensures IsHeading(l) <==> HasPrefix(l, "## ")
    ensures IsSubheading(l) <==> HasPrefix(l, "### ")
    ensures IsItem(l) <==> HasPrefix(l, "- ")
  {
  }

  /** A line made only of white space and newlines. */
  predicate IsBlank(l: string) {
    forall k :: 0 <= k < |l| ==> Trimmable(l[k], true)
  }

  /** A line is blank exactly when trimming it (with newlines) leaves
      nothing, the test the loaders apply. */
  lemma BlankIffTrimsEmpty(l: string)
    ensures IsBlank(l) <==> TrimSpacesNewlines(l) == []
  {
    TrimSpec(l, true);
  }

  /** The four prefixes exclude each other, so the order in which a loader
      tests them does not matter. */
  lemma KindsDisjoint(l: string)
    ensures IsTitle(l) ==> !IsHeading(l) && !IsSubheading(l) && !IsItem(l)
    ensures IsHeading(l) ==> !IsSubheading(l) && !IsItem(l)
    ensures IsSubheading(l) ==> !IsItem(l)
  {
  }

  /** Which prefixes a loader tests before it treats a non-blank line as
      prose.  Every loader tests `## `. */
  datatype Dialect = Dialect(titles: bool, subheadings: bool, items: bool)

  predicate IsProse(d: Dialect, l: string) {
    && !IsHeading(l)
    && !(d.titles && IsTitle(l))
    && !(d.subheadings && IsSubheading(l))
    && !(d.items && IsItem(l))
    && !IsBlank(l)
  }

  function TitleText(l: string): string
    requires IsTitle(l)
  {
    TrimSpaces(l[2..])
  }

  /** The section name a `## ` line opens: lower-cased and NOT trimmed. */
  function HeadingName(l: string): string
    requires IsHeading(l)
  {
    Lower(l[3..])
  }

  function SubheadingText(l: string): string
    requires IsSubheading(l)
  {
    TrimSpaces(l[4..])
  }

  function ItemText(l: string): string
    requires IsItem(l)
  {
    TrimSpaces(l[2..])
  }

  function ProseText(l: string): string {
    TrimSpacesNewlines(l)
  }

  lemma ProseTextTight(d: Dialect, l: string)
    requires IsProse(d, l)
    ensures Tight(ProseText(l))
  {
    BlankIffTrimsEmpty(l);
    TrimmedIsTight(l, true);
  }

  /** The section in force at line `i`: the name of the last `## ` line
      among the first `i` lines, or None before any. */
  function SectionAt(lines: seq<string>, i: nat): Option<string>
    requires i <= |lines|
  {
    if i == 0 then None
    else if IsHeading(lines[i - 1]) then Some(HeadingName(lines[i - 1]))
    else SectionAt(lines, i - 1)
  }

  /** The text of the last `# ` line among the first `i` lines. */
  function LastTitle(lines: seq<string>, i: nat): Option<string>
    requires i <= |lines|
  {
    if i == 0 then None
    else if IsTitle(lines[i - 1]) then Some(TitleText(lines[i - 1]))
    else LastTitle(lines, i - 1)
  }

  /** The trimmed texts of the `- ` items among the first `i` lines that
      lie in section `sec`, in order. */
  function ItemsUnder(lines: seq<string>, i: nat, sec: string): seq<string>
    requires i <= |lines|
  {
    if i == 0 then []
    else if IsItem(lines[i - 1]) && SectionAt(lines, i - 1) == Some(sec) then
      ItemsUnder(lines, i - 1, sec) + [ItemText(lines[i - 1])]
    else ItemsUnder(lines, i - 1, sec)
  }

  /** The trimmed prose lines among the first `i` lines that lie in
      section `sec`, in order. */
  function ProseUnder(lines: seq<string>, i: nat, sec: string, d: Dialect): seq<string>
    requires i <= |lines|
  {
    if i == 0 then []
    else if IsProse(d, lines[i - 1]) && SectionAt(lines, i - 1) == Some(sec) then
      ProseUnder(lines, i - 1, sec, d) + [ProseText(lines[i - 1])]
    else ProseUnder(lines, i - 1, sec, d)
  }

  /** One more line adds its text exactly when it is prose of section
      `sec`. */
  lemma ProseUnderStep(lines: seq<string>, i: nat, sec: string, d: Dialect)
    requires 0 < i <= |lines|
    ensures ProseUnder(lines, i, sec, d)
      == if IsProse(d, lines[i - 1]) && SectionAt(lines, i - 1) == Some(sec)
         then ProseUnder(lines, i - 1, sec, d) + [ProseText(lines[i - 1])]
         else ProseUnder(lines, i - 1, sec, d)
  {
  }

  /** Every part is trimmed and non-empty. */
  lemma {:induction false} ProseUnderTight(lines: seq<string>, i: nat, sec: string, d: Dialect)
    requires i <= |lines|
    ensures forall k :: 0 <= k < |ProseUnder(lines, i, sec, d)| ==> Tight(ProseUnder(lines, i, sec, d)[k])
  {
    if i > 0 {
      ProseUnderTight(lines, i - 1, sec, d);
      var prev := ProseUnder(lines, i - 1, sec, d);
      if IsProse(d, lines[i - 1]) && SectionAt(lines, i - 1) == Some(sec) {
        var r := prev + [ProseText(lines[i - 1])];
        assert ProseUnder(lines, i, sec, d) == r;
        ProseTextTight(d, lines[i - 1]);
        assert forall k :: 0 <= k < |r| ==> r[k] == if k < |prev| then prev[k] else ProseText(lines[i - 1]);
      } else {
        assert ProseUnder(lines, i, sec, d) == prev;
      }
    }
  }

  /** One step of a loader's text accumulation: appending `" " + t`
      exactly when `t` joins the parts keeps the text equal to the parts'
      accumulation, absent while there are none. */
  lemma AccumulateStep(d: Option<string>, d': Option<string>, parts: seq<string>, parts': seq<string>, p: bool, t: string)
    requires d == if parts == [] then None else Some(SpaceAcc(parts))
    requires d' == if p then Some(d.GetOr("") + " " + t) else d
    requires parts' == if p then parts + [t] else parts
    ensures d' == if parts' == [] then None else Some(SpaceAcc(parts'))
  {
    if p {
      SpaceAccSnoc(parts, t);
      if parts == [] {
        assert SpaceAcc(parts + [t]) == "" + " " + t;
      }
    }
  }

  /** The indices, ascending, of the `## ` lines among the first `i`. */
  function HeadingPositions(lines: seq<string>, i: nat): (r: seq<nat>)
    requires i <= |lines|
    ensures forall k :: 0 <= k < |r| ==> r[k] < i && IsHeading(lines[r[k]])
  {
    if i == 0 then []
    else if IsHeading(lines[i - 1]) then HeadingPositions(lines, i - 1) + [i - 1]
    else HeadingPositions(lines, i - 1)
  }

  /** The `## ` positions are listed in ascending order, and every
      `## ` line among the first `i` is listed. */
  lemma {:induction false} HeadingPositionsSpec(lines: seq<string>, i: nat)
    requires i <= |lines|
    ensures var r := HeadingPositions(lines, i);
      && (forall k, m :: 0 <= k < m < |r| ==> r[k] < r[m])
      && (forall j :: 0 <= j < i && IsHeading(lines[j]) ==> j in r)
  {
    if i > 0 {
      HeadingPositionsSpec(lines, i - 1);
    }
  }

  /** The indices, ascending, of the `### ` lines among the first `i`. */
  function SubheadingPositions(lines: seq<string>, i: nat): (r: seq<nat>)
    requires i <= |lines|
    ensures forall k :: 0 <= k < |r| ==> r[k] < i && IsSubheading(lines[r[k]])
  {
    if i == 0 then []
    else if IsSubheading(lines[i - 1]) then SubheadingPositions(lines, i - 1) + [i - 1]
    else SubheadingPositions(lines, i - 1)
  }

  /** The `### ` positions are listed in ascending order, and every
      `### ` line among the first `i` is listed. */
  lemma {:induction false} SubheadingPositionsSpec(lines: seq<string>, i: nat)
    requires i <= |lines|
    ensures var r := SubheadingPositions(lines, i);
      && (forall k, m :: 0 <= k < m < |r| ==> r[k] < r[m])
      && (forall j :: 0 <= j < i && IsSubheading(lines[j]) ==> j in r)
  {
    if i > 0 {
      SubheadingPositionsSpec(lines, i - 1);
    }
  }

  /** The trimmed non-blank lines among the first `i` that follow the last
      `## ` line (all of them when there is none), in order. */
  function ProseSince(lines: seq<string>, i: nat): seq<string>
    requires i <= |lines|
  {
    if i == 0 then []
    else if IsHeading(lines[i - 1]) then []
    else if IsBlank(lines[i - 1]) then ProseSince(lines, i - 1)
    else ProseSince(lines, i - 1) + [ProseText(lines[i - 1])]
  }

  /** Every part is trimmed and non-empty. */
  lemma {:induction false} ProseSinceTight(lines: seq<string>, i: nat)
    requires i <= |lines|
    ensures forall k :: 0 <= k < |ProseSince(lines, i)| ==> Tight(ProseSince(lines, i)[k])
  {
    if i > 0 && !IsHeading(lines[i - 1]) {
      ProseSinceTight(lines, i - 1);
      var prev := ProseSince(lines, i - 1);
      if !IsBlank(lines[i - 1]) {
        var r := prev + [ProseText(lines[i - 1])];
        assert ProseSince(lines, i) == r;
        ProseTextTight(Dialect(false, false, false), lines[i - 1]);
        assert forall k :: 0 <= k < |r| ==> r[k] == if k < |prev| then prev[k] else ProseText(lines[i - 1]);
      } else {
        assert ProseSince(lines, i) == prev;
      }
    }
  }

  /** The section in force right after a heading is that heading's. */
  lemma SectionAfterHeading(lines: seq<string>, h: nat, j: nat)
    requires h < j <= |lines| && IsHeading(lines[h])
    requires forall m :: h < m < j ==> !IsHeading(lines[m])
    ensures SectionAt(lines, j) == Some(HeadingName(lines[h]))
    decreases j
  {
    if j - 1 > h {
      SectionAfterHeading(lines, h, j - 1);
    }
  }
}

=== FILE: product_loader.dfy ===
/** `ProductLoader`: reads the product overview and the product roadmap
    from markdown.  The file system is replaced by the file's content,
    given as `Some(text)`, or `None` when the file is missing or cannot be
    read. */
module ProductLoader {
  import opened Wrappers
  import opened Text
  import opened Markdown

  datatype Problem = Problem(title: string, solution: string)

  datatype ProductOverview = ProductOverview(
    name: string,
    description: string,
    problems: seq<Problem>,
    features: seq<string>)

  /** A roadmap section. */
  datatype Section = Section(id: string, title: string, description: string, order: int)

  datatype ProductRoadmap = ProductRoadmap(sections: seq<Section>)

  datatype LoaderError = FileNotFound(path: string) | InvalidMarkdown(reason: string) | ParsingError(reason: string)

  const OverviewPath := "product/product-overview.md"
  const RoadmapPath := "product/product-roadmap.md"

  /** The overview loop tests `# `, `## `, `### ` and `- ` before prose. */
  const OverviewDialect := Dialect(true, true, true)

  /** The roadmap loop tests only `## `: every other non-blank line is
      description text. */
  const RoadmapDialect := Dialect(false, false, false)

  // ---------------------------------------------------------------------
  // Product overview

  /** The loader's running state: current section, name, description,
      problems, features, and the `### ` title still waiting for its
      solution line. */
  datatype OverviewState = OverviewState(
    section: Option<string>,
    name: Option<string>,
    description: Option<string>,
    problems: seq<Problem>,
    features: seq<string>,
    pending: Option<string>)

  const OverviewStart := OverviewState(None, None, None, [], [], None)

  /** What one line does to the state, branch by branch as the loader
      tests it. */
  function OverviewStep(st: OverviewState, line: string): OverviewState {
    if IsTitle(line) then st.(name := Some(TrimSpaces(line[2..])))
    else if IsHeading(line) then st.(section := Some(Lower(line[3..])))
    else if IsSubheading(line) then
      if st.section == Some("problems") then st.(pending := Some(TrimSpaces(line[4..]))) else st
    else if IsItem(line) then
      if st.section == Some("features") then st.(features := st.features + [TrimSpaces(line[2..])]) else st
    else if TrimSpacesNewlines(line) != [] then
      var t := TrimSpacesNewlines(line);
      if st.section == Some("overview") then st.(description := Some(st.description.GetOr("") + " " + t))
      else if st.section == Some("problems") && st.pending.Some? then
        st.(problems := st.problems + [Problem(st.pending.value, t)], pending := None)
      else st
    else st
  }

  /** The state after the first `i` lines. */
  function OverviewScan(lines: seq<string>, i: nat): OverviewState
    requires i <= |lines|
  {
    if i == 0 then OverviewStart else OverviewStep(OverviewScan(lines, i - 1), lines[i - 1])
  }

  /** What the overview file yields: a name (its absence is an error), the
      trimmed description (empty when there is none), the problems and the
      features gathered by the scan. */
  function OverviewOf(lines: seq<string>): Result<ProductOverview, LoaderError> {
    var st := OverviewScan(lines, |lines|);
    match st.name
    case None => Failure(InvalidMarkdown("Missing product name"))
    case Some(name) =>
      Success(ProductOverview(
        name,
        if st.description.Some? then TrimSpaces(st.description.value) else "",
        st.problems,
        st.features))
  }

  /** `loadProductOverview`. */
  method LoadProductOverview(file: Option<string>) returns (r: Result<ProductOverview, LoaderError>)
    ensures file.None? ==> r == Failure(FileNotFound(OverviewPath))
    ensures file.Some? ==> r == OverviewOf(SplitLines(file.value))
  {
    if file.None? {
      return Failure(FileNotFound(OverviewPath));
    }
    var lines := SplitLines(file.value);
    var currentSection: Option<string> := None;
    var name: Option<string> := None;
    var description: Option<string> := None;
    var problems: seq<Problem> := [];
    var features: seq<string> := [];
    var currentProblem: Option<string> := None;

    for i := 0 to |lines|
      invariant OverviewScan(lines, i)
        == OverviewState(currentSection, name, description, problems, features, currentProblem)
    {
      var line := lines[i];
      if IsTitle(line) {
        name := Some(TrimSpaces(line[2..]));
      } else if IsHeading(line) {
        currentSection := Some(Lower(line[3..]));
      } else if IsSubheading(line) {
        if currentSection == Some("problems") {
          currentProblem := Some(TrimSpaces(line[4..]));
        }
      } else if IsItem(line) {
        var content := TrimSpaces(line[2..]);
        if currentSection == Some("features") {
          features := features + [content];
        }
      } else if TrimSpacesNewlines(line) != [] {
        var trimmed := TrimSpacesNewlines(line);
        if currentSection == Some("overview") {
          description := Some(description.GetOr("") + " " + trimmed);
        } else if currentSection == Some("problems") && currentProblem.Some? {
          problems := problems + [Problem(currentProblem.value, trimmed)];
          currentProblem := None;
        }
      }
    }

    if name.None? {
      return Failure(InvalidMarkdown("Missing product name"));
    }
    r := Success(ProductOverview(
      name.value,
      if description.Some? then TrimSpaces(description.value) else "",
      problems,
      features));
  }

  /** The scan's section is the one the last `## ` line opened. */
  lemma {:induction false} OverviewSection(lines: seq<string>, i: nat)
    requires i <= |lines|
    ensures OverviewScan(lines, i).section == SectionAt(lines, i)
  {
    if i > 0 {
      OverviewSection(lines, i - 1);
    }
  }

  /** The name is the text of the last `# ` line. */
  lemma {:induction false} OverviewName(lines: seq<string>, i: nat)
    requires i <= |lines|
    ensures OverviewScan(lines, i).name == LastTitle(lines, i)
  {
    if i > 0 {
      OverviewName(lines, i - 1);
      KindsDisjoint(lines[i - 1]);
    }
  }

  /** The features are the items of section `features`, in order. */
  lemma {:induction false} OverviewFeatures(lines: seq<string>, i: nat)
    requires i <= |lines|
    ensures OverviewScan(lines, i).features == ItemsUnder(lines, i, "features")
  {
    if i > 0 {
      OverviewFeatures(lines, i - 1);
      OverviewSection(lines, i - 1);
      OverviewFeaturesStep(lines, i - 1, i);
    }
  }

  lemma OverviewFeaturesStep(lines: seq<string>, j: nat, i: nat)
    requires i == j + 1 && i <= |lines|
    requires OverviewScan(lines, j).features == ItemsUnder(lines, j, "features")
    requires OverviewScan(lines, j).section == SectionAt(lines, j)
    ensures OverviewScan(lines, i).features == ItemsUnder(lines, i, "features")
  {
    KindsDisjoint(lines[j]);
  }

  /** One line changes the description only when it is prose read in
      section `overview`, and then appends a space and its trimmed text. */
  lemma OverviewStepDescription(st: OverviewState, l: string)
    ensures OverviewStep(st, l).description
      == if IsProse(OverviewDialect, l) && st.section == Some("overview")
         then Some(st.description.GetOr("") + " " + ProseText(l))
         else st.description
  {
    KindsDisjoint(l);
    BlankIffTrimsEmpty(l);
  }

  /** The description the loop holds after `i` lines. */
  function DescriptionAfter(lines: seq<string>, i: nat): Option<string>
    requires i <= |lines|
  {
    var parts := ProseUnder(lines, i, "overview", OverviewDialect);
    if parts == [] then None else Some(SpaceAcc(parts))
  }

  lemma OverviewDescriptionStep(lines: seq<string>, j: nat, i: nat)
    requires i == j + 1 && i <= |lines|
    requires OverviewScan(lines, j).description == DescriptionAfter(lines, j)
    requires OverviewScan(lines, j).section == SectionAt(lines, j)
    ensures OverviewScan(lines, i).description == DescriptionAfter(lines, i)
  {
    var l := lines[j];
    var st := OverviewScan(lines, j);
    OverviewStepDescription(st, l);
    ProseUnderStep(lines, i, "overview", OverviewDialect);
    var p := IsProse(OverviewDialect, l) && SectionAt(lines, j) == Some("overview");
    AccumulateStep(st.description, OverviewScan(lines, i).description, ProseUnder(lines, j, "overview", OverviewDialect),
      ProseUnder(lines, i, "overview", OverviewDialect), p, ProseText(l));
  }

  /** The description accumulates the prose lines of section `overview`,
      each prefixed by a space. */
  lemma {:induction false} OverviewDescription(lines: seq<string>, i: nat)
    requires i <= |lines|
    ensures OverviewScan(lines, i).description == DescriptionAfter(lines, i)
  {
    if i > 0 {
      OverviewDescription(lines, i - 1);
      OverviewSection(lines, i - 1);
      OverviewDescriptionStep(lines, i - 1, i);
    }
  }

  /** The description the loader returns is the prose of section
      `overview`, trimmed line by line and joined by single spaces, and is
      empty when that section has no prose. */
  lemma OverviewDescriptionJoined(lines: seq<string>)
    ensures var st := OverviewScan(lines, |lines|);
      (if st.description.Some? then TrimSpaces(st.description.value) else "")
      == Join(ProseUnder(lines, |lines|, "overview", OverviewDialect), " ")
  {
    OverviewDescription(lines, |lines|);
    ProseUnderTight(lines, |lines|, "overview", OverviewDialect);
    TrimSpaceAcc(ProseUnder(lines, |lines|, "overview", OverviewDialect));
  }

  /** The overview in declarative terms: its name is the text of the last
      `# ` line, its description the overview prose joined by spaces, its
      features the items of section `features`, its problems each prose
      line of section `problems` paired with the title open before it; a
      file without a `# ` line fails with "Missing product name". */
  lemma OverviewOfSpec(lines: seq<string>)
    ensures LastTitle(lines, |lines|).None? <==> OverviewOf(lines) == Failure(InvalidMarkdown("Missing product name"))
    ensures OverviewOf(lines).Success? ==>
      && OverviewOf(lines).value.name == LastTitle(lines, |lines|).value
      && OverviewOf(lines).value.description == Join(ProseUnder(lines, |lines|, "overview", OverviewDialect), " ")
      && OverviewOf(lines).value.features == ItemsUnder(lines, |lines|, "features")
      && OverviewOf(lines).value.problems == ProblemsAfter(lines, |lines|)
  {
    OverviewName(lines, |lines|);
    OverviewFeatures(lines, |lines|);
    OverviewDescriptionJoined(lines);
    OverviewProblems(lines, |lines|);
  }

  /** Number of `### ` lines among the first `i` that lie in section
      `problems`. */
  function ProblemTitleCount(lines: seq<string>, i: nat): nat
    requires i <= |lines|
  {
    if i == 0 then 0
    else
      ProblemTitleCount(lines, i - 1)
      + (if IsSubheading(lines[i - 1]) && SectionAt(lines, i - 1) == Some("problems") then 1 else 0)
  }

  /** Each problem consumes a distinct `### ` title of section `problems`:
      there are never more problems than such titles, counting the one still
      pending. */
  lemma {:induction false} ProblemsBounded(lines: seq<string>, i: nat)
    requires i <= |lines|
    ensures |OverviewScan(lines, i).problems| + (if OverviewScan(lines, i).pending.Some? then 1 else 0)
      <= ProblemTitleCount(lines, i)
  {
    if i > 0 {
      ProblemsBounded(lines, i - 1);
      OverviewSection(lines, i - 1);
      KindsDisjoint(lines[i - 1]);
    }
  }

  /** Every problem's solution is a distinct prose line of section
      `problems`: there are never more problems than such lines. */
  lemma {:induction false} SolutionsAreProblemProse(lines: seq<string>, i: nat)
    requires i <= |lines|
    ensures |OverviewScan(lines, i).problems| <= |ProseUnder(lines, i, "problems", OverviewDialect)|
  {
    if i > 0 {
      SolutionsAreProblemProse(lines, i - 1);
      OverviewSection(lines, i - 1);
      SolutionsStep(lines, i - 1, i);
    }
  }

  lemma SolutionsStep(lines: seq<string>, j: nat, i: nat)
    requires i == j + 1 && i <= |lines|
    requires |OverviewScan(lines, j).problems| <= |ProseUnder(lines, j, "problems", OverviewDialect)|
    requires OverviewScan(lines, j).section == SectionAt(lines, j)
    ensures |OverviewScan(lines, i).problems| <= |ProseUnder(lines, i, "problems", OverviewDialect)|
  {
    var l := lines[j];
    KindsDisjoint(l);
    BlankIffTrimsEmpty(l);
    ProseUnderStep(lines, i, "problems", OverviewDialect);
  }

  /** Line `k` is a `### ` title of section `problems`. */
  predicate ProblemTitleAt(lines: seq<string>, k: nat)
    requires k < |lines|
  {
    IsSubheading(lines[k]) && SectionAt(lines, k) == Some("problems")
  }

  /** Line `k` is a prose line of section `problems`. */
  predicate ProblemProseAt(lines: seq<string>, k: nat)
    requires k < |lines|
  {
    IsProse(OverviewDialect, lines[k]) && SectionAt(lines, k) == Some("problems")
  }

  /** The title still waiting for its solution after `i` lines, found by
      looking back: the last problem title, unless a prose line of section
      `problems` came after it and took it.  Every other line, a `## `
      heading included, is passed over, so a later title replaces an
      earlier one and a title outlives a change of section. */
  function OpenTitle(lines: seq<string>, i: nat): Option<string>
    requires i <= |lines|
  {
    if i == 0 then None
    else if ProblemProseAt(lines, i - 1) then None
    else if ProblemTitleAt(lines, i - 1) then Some(SubheadingText(lines[i - 1]))
    else OpenTitle(lines, i - 1)
  }

  /** The problems among the first `i` lines: every prose line of section
      `problems` that finds an open title is its solution; one that finds
      none is dropped. */
  function ProblemsAfter(lines: seq<string>, i: nat): seq<Problem>
    requires i <= |lines|
  {
    if i == 0 then []
    else if ProblemProseAt(lines, i - 1) && OpenTitle(lines, i - 1).Some? then
      ProblemsAfter(lines, i - 1) + [Problem(OpenTitle(lines, i - 1).value, ProseText(lines[i - 1]))]
    else ProblemsAfter(lines, i - 1)
  }

  /** After `i` lines the scan's problems and pending title are the
      declarative ones. */
  predicate ProblemsAt(lines: seq<string>, i: nat)
    requires i <= |lines|
  {
    OverviewScan(lines, i).problems == ProblemsAfter(lines, i) && OverviewScan(lines, i).pending == OpenTitle(lines, i)
  }

  /** One line touches the problems only in section `problems`: a title
      becomes the pending one, and a prose line closes the pending title,
      recording it with the line as its solution when there is one. */
  lemma OverviewStepProblems(st: OverviewState, l: string)
    ensures OverviewStep(st, l).pending
      == if IsProse(OverviewDialect, l) && st.section == Some("problems") then None
         else if IsSubheading(l) && st.section == Some("problems") then Some(SubheadingText(l))
         else st.pending
    ensures OverviewStep(st, l).problems
      == if IsProse(OverviewDialect, l) && st.section == Some("problems") && st.pending.Some?
         then st.problems + [Problem(st.pending.value, ProseText(l))]
         else st.problems
  {
    KindsDisjoint(l);
    BlankIffTrimsEmpty(l);
  }

  lemma OverviewProblemsStep(lines: seq<string>, j: nat, i: nat)
    requires i == j + 1 && i <= |lines|
    requires ProblemsAt(lines, j)
    requires OverviewScan(lines, j).section == SectionAt(lines, j)
    ensures ProblemsAt(lines, i)
  {
    var st := OverviewScan(lines, j);
    OverviewStepProblems(st, lines[j]);
    assert OverviewScan(lines, i) == OverviewStep(st, lines[j]);
  }

  /** The scan's problems are ProblemsAfter and its pending title is
      OpenTitle. */
  lemma {:induction false} OverviewProblems(lines: seq<string>, i: nat)
    requires i <= |lines|
    ensures ProblemsAt(lines, i)
  {
    if i > 0 {
      OverviewProblems(lines, i - 1);
      OverviewSection(lines, i - 1);
      OverviewProblemsStep(lines, i - 1, i);
    }
  }

  /** A problem title stays open until the next problem title or the next
      prose line of section `problems`, whatever other lines come between. */
  lemma {:induction false} OpenTitleFrom(lines: seq<string>, h: nat, i: nat)
    requires h < i <= |lines| && ProblemTitleAt(lines, h)
    requires forall k :: h < k < i ==> !ProblemTitleAt(lines, k) && !ProblemProseAt(lines, k)
    ensures OpenTitle(lines, i) == Some(SubheadingText(lines[h]))
  {
    if i - 1 > h {
      OpenTitleFrom(lines, h, i - 1);
    }
  }

  /** Conversely, an open title is the text of a problem title after which
      no problem title and no prose line of section `problems` has come. */
  lemma {:induction false} OpenTitleSource(lines: seq<string>, i: nat)
    requires i <= |lines| && OpenTitle(lines, i).Some?
    ensures exists h: nat ::
              && h < i && ProblemTitleAt(lines, h)
              && OpenTitle(lines, i) == Some(SubheadingText(lines[h]))
              && (forall k :: h < k < i ==> !ProblemTitleAt(lines, k) && !ProblemProseAt(lines, k))
  {
    if !ProblemTitleAt(lines, i - 1) {
      OpenTitleSource(lines, i - 1);
      var h: nat :| h < i - 1 && ProblemTitleAt(lines, h)
        && OpenTitle(lines, i - 1) == Some(SubheadingText(lines[h]))
        && (forall k :: h < k < i - 1 ==> !ProblemTitleAt(lines, k) && !ProblemProseAt(lines, k));
      assert forall k :: h < k < i ==> !ProblemTitleAt(lines, k) && !ProblemProseAt(lines, k);
    }
  }

  // ---------------------------------------------------------------------
  // Product roadmap

  /** A match of the pattern `\{([^}]+)\}` starts at `p`: an opening brace,
      at least one character that is not a closing brace, then a closing
      brace. */
  predicate TagAt(h: string, p: nat) {
    p + 1 < |h| && h[p] == '{' && h[p + 1] != '}' && '}' in h[p + 2..]
  }

  /** The index of the first `c` in `h` at or after `from`. */
  function FirstFrom(h: string, c: char, from: nat): nat
    requires from <= |h| && c in h[from..]
    decreases |h| - from
  {
    if h[from] == c then from
    else
      assert h[from..] == [h[from]] + h[from + 1..];
      FirstFrom(h, c, from + 1)
  }

  lemma {:induction false} FirstFromSpec(h: string, c: char, from: nat)
    requires from <= |h| && c in h[from..]
    ensures from <= FirstFrom(h, c, from) < |h| && h[FirstFrom(h, c, from)] == c
    ensures forall j :: from <= j < FirstFrom(h, c, from) ==> h[j] != c
    decreases |h| - from
  {
    if h[from] != c {
      assert h[from..] == [h[from]] + h[from + 1..];
      FirstFromSpec(h, c, from + 1);
    }
  }

  /** The leftmost match at or after `p`, as the positions of its opening
      and closing braces. */
  function TagFrom(h: string, p: nat): Option<(nat, nat)>
    requires p <= |h|
    decreases |h| - p
  {
    if p == |h| then None
    else if TagAt(h, p) then Some((p, FirstFrom(h, '}', p + 2)))
    else TagFrom(h, p + 1)
  }

  /** `TagFrom` finds the leftmost match, or reports that there is none. */
  lemma {:induction false} TagFromSpec(h: string, p: nat)
    requires p <= |h|
    ensures TagFrom(h, p).None? ==> forall j :: p <= j < |h| ==> !TagAt(h, j)
    ensures TagFrom(h, p).Some? ==>
      && p <= TagFrom(h, p).value.0 && TagAt(h, TagFrom(h, p).value.0)
      && (forall j :: p <= j < TagFrom(h, p).value.0 ==> !TagAt(h, j))
      && TagFrom(h, p).value.1 == FirstFrom(h, '}', TagFrom(h, p).value.0 + 2)
    decreases |h| - p
  {
    if p < |h| && !TagAt(h, p) {
      TagFromSpec(h, p + 1);
    }
  }

  /** The id and title a trimmed `## ` heading gives its section: with a
      `{x}` tag, the id is `x` and the title is the heading without the
      tag, trimmed; otherwise the id is the lower-cased heading with every
      space turned into `-`, and the title is the heading itself. */
  function HeadingIdTitle(heading: string): (string, string) {
    match TagFrom(heading, 0)
    case Some((p, q)) =>
      TagFromSpec(heading, 0);
      FirstFromSpec(heading, '}', p + 2);
      var id := heading[p + 1..q];
      (id, TrimSpaces(ReplaceAll(heading, "{" + id + "}", "")))
    case None => (ReplaceChar(Lower(heading), ' ', '-'), heading)
  }

  /** A heading `t{x}u` whose tag is the only brace-opened part gives id
      `x` and title `t u` trimmed. */
  lemma TaggedHeading(t: string, x: string, u: string)
    requires x != [] && '}' !in x
    requires '{' !in t && '{' !in u
    ensures HeadingIdTitle(t + "{" + x + "}" + u) == (x, TrimSpaces(t + u))
  {
    var pat := "{" + x + "}";
    var h := t + (pat + u);
    assert t + "{" + x + "}" + u == h;
    var p := |t|;
    var q := |t| + 1 + |x|;
    TagOfTagged(h, t, x, u);
    TagRemoved(h, t, x, u);
    assert HeadingIdTitle(h) == (h[p + 1..q], TrimSpaces(ReplaceAll(h, pat, "")));
  }

  /** In `t{x}u` the first tag opens right after `t` and closes right
      after `x`. */
  lemma TagOfTagged(h: string, t: string, x: string, u: string)
    requires x != [] && '}' !in x
    requires '{' !in t
    requires h == t + ("{" + x + "}" + u)
    ensures TagFrom(h, 0) == Some((|t|, |t| + 1 + |x|))
    ensures h[|t| + 1..|t| + 1 + |x|] == x
  {
    var p := |t|;
    var q := |t| + 1 + |x|;
    assert h[p] == '{' && h[p + 1] == x[0] && h[q] == '}';
    assert h[p + 2..][q - p - 2] == '}';
    assert TagAt(h, p);
    forall j | 0 <= j < p ensures !TagAt(h, j) {
      assert h[j] == t[j];
    }
    TagFromSpec(h, 0);
    var r := TagFrom(h, 0);
    assert r.value.0 == p;
    FirstFromSpec(h, '}', p + 2);
    assert forall j :: p + 1 <= j < q ==> h[j] == x[j - p - 1];
    assert FirstFrom(h, '}', p + 2) == q;
    assert h[p + 1..q] == x;
  }

  /** Removing the tag `{x}` from `t{x}u` leaves `t u`. */
  lemma TagRemoved(h: string, t: string, x: string, u: string)
    requires '{' !in t && '{' !in u
    requires h == t + ("{" + x + "}" + u)
    ensures ReplaceAll(h, "{" + x + "}", "") == t + u
  {
    var pat := "{" + x + "}";
    ReplaceAllSkipsPrefix(t, pat + u, pat, "");
    assert (pat + u)[..|pat|] == pat && (pat + u)[|pat|..] == u;
    assert ReplaceAll(pat + u, pat, "") == ReplaceAll(u, pat, "");
    ReplaceAllSkipsPrefix(u, [], pat, "");
    assert u + [] == u;
  }

  /** Without a tag the id is the heading's length, lower-cased, with no
      space left in it, and the title is the heading. */
  lemma UntaggedHeading(heading: string)
    requires TagFrom(heading, 0).None?
    ensures var (id, title) := HeadingIdTitle(heading);
      && title == heading && |id| == |heading|
      && (forall k :: 0 <= k < |id| ==> id[k] != ' ')
      && (forall k :: 0 <= k < |id| ==> id[k] == if heading[k] == ' ' then '-' else LowerChar(heading[k]))
  {
  }

  /** What the roadmap loop carries from line to line. */
  datatype RoadmapState = RoadmapState(
    sections: seq<Section>,
    id: Option<string>,
    title: Option<string>,
    description: Option<string>,
    order: int)

  const RoadmapStart := RoadmapState([], None, None, None, 0)

  /** The description a section is emitted with: the accumulated text
      trimmed, or empty. */
  function Described(d: Option<string>): string {
    if d.Some? then TrimSpaces(d.value) else ""
  }

  /** Emits the section in progress, if any. */
  function FlushRoadmap(st: RoadmapState): (r: seq<Section>)
    ensures |r| <= |st.sections| + 1
  {
    if st.id.Some? && st.title.Some? then
      st.sections + [Section(st.id.value, st.title.value, Described(st.description), st.order)]
    else st.sections
  }

  /** One line of the roadmap loop: a `## ` line emits the section in
      progress and opens a new one; any other non-blank line is appended to
      the description. */
  function RoadmapStep(st: RoadmapState, line: string): RoadmapState {
    if IsHeading(line) then
      var (id, title) := HeadingIdTitle(TrimSpaces(line[3..]));
      RoadmapState(
        FlushRoadmap(st), Some(id), Some(title), None,
        if st.id.Some? && st.title.Some? then st.order + 1 else st.order)
    else if TrimSpacesNewlines(line) != [] then
      st.(description := Some(st.description.GetOr("") + " " + TrimSpacesNewlines(line)))
    else st
  }

  function RoadmapScan(lines: seq<string>, i: nat): RoadmapState
    requires i <= |lines|
  {
    if i == 0 then RoadmapStart else RoadmapStep(RoadmapScan(lines, i - 1), lines[i - 1])
  }

  function RoadmapOf(lines: seq<string>): ProductRoadmap {
    ProductRoadmap(FlushRoadmap(RoadmapScan(lines, |lines|)))
  }

  /** `loadProductRoadmap`. */
  method LoadProductRoadmap(file: Option<string>) returns (r: Result<ProductRoadmap, LoaderError>)
    ensures file.None? ==> r == Failure(FileNotFound(RoadmapPath))
    ensures file.Some? ==> r == Success(RoadmapOf(SplitLines(file.value)))
  {
    if file.None? {
      return Failure(FileNotFound(RoadmapPath));
    }
    var lines := SplitLines(file.value);
    var sections: seq<Section> := [];
    var currentSectionId: Option<string> := None;
    var currentTitle: Option<string> := None;
    var currentDescription: Option<string> := None;
    var currentOrder := 0;

    for i := 0 to |lines|
      invariant RoadmapScan(lines, i)
        == RoadmapState(sections, currentSectionId, currentTitle, currentDescription, currentOrder)
    {
      var line := lines[i];
      ghost var before := RoadmapState(sections, currentSectionId, currentTitle, currentDescription, currentOrder);
      assert RoadmapScan(lines, i + 1) == RoadmapStep(before, line);
      if IsHeading(line) {
        if currentSectionId.Some? && currentTitle.Some? {
          sections := sections + [Section(
            currentSectionId.value,
            currentTitle.value,
            if currentDescription.Some? then TrimSpaces(currentDescription.value) else "",
            currentOrder)];
          currentOrder := currentOrder + 1;
        }
        var heading := TrimSpaces(line[3..]);
        var idTitle := HeadingIdTitle(heading);
        currentSectionId := Some(idTitle.0);
        currentTitle := Some(idTitle.1);
        currentDescription := None;
        assert sections == FlushRoadmap(before);
      } else if TrimSpacesNewlines(line) != [] {
        currentDescription := Some(currentDescription.GetOr("") + " " + TrimSpacesNewlines(line));
      }
      assert RoadmapState(sections, currentSectionId, currentTitle, currentDescription, currentOrder)
        == RoadmapStep(before, line);
    }

    if currentSectionId.Some? && currentTitle.Some? {
      sections := sections + [Section(
        currentSectionId.value,
        currentTitle.value,
        if currentDescription.Some? then TrimSpaces(currentDescription.value) else "",
        currentOrder)];
    }
    return Success(ProductRoadmap(sections));
  }

  /** The section a heading at `h` opens, when its description ends at line
      `end` (the next heading, or the end of the file) and it is the `k`-th
      heading. */
  function SectionOf(lines: seq<string>, h: nat, end: nat, k: nat): Section
    requires h < |lines| && IsHeading(lines[h]) && end <= |lines|
  {
    var (id, title) := HeadingIdTitle(TrimSpaces(lines[h][3..]));
    Section(id, title, Join(ProseSince(lines, end), " "), k)
  }

  /** The description the roadmap loop holds after `i` lines. */
  function RoadmapDescriptionAfter(lines: seq<string>, i: nat): Option<string>
    requires i <= |lines|
  {
    var parts := ProseSince(lines, i);
    if parts == [] then None else Some(SpaceAcc(parts))
  }

  lemma RoadmapDescriptionStep(lines: seq<string>, j: nat, i: nat)
    requires i == j + 1 && i <= |lines|
    requires RoadmapScan(lines, j).description == RoadmapDescriptionAfter(lines, j)
    ensures RoadmapScan(lines, i).description == RoadmapDescriptionAfter(lines, i)
  {
    var l := lines[j];
    var st := RoadmapScan(lines, j);
    assert RoadmapScan(lines, i) == RoadmapStep(st, l);
    BlankIffTrimsEmpty(l);
    if !IsHeading(l) {
      AccumulateStep(st.description, RoadmapScan(lines, i).description,
        ProseSince(lines, j), ProseSince(lines, i), !IsBlank(l), ProseText(l));
    }
  }

  /** The description in progress is the non-blank lines since the last
      heading, each trimmed and prefixed by a space. */
  lemma {:induction false} RoadmapDescription(lines: seq<string>, i: nat)
    requires i <= |lines|
    ensures RoadmapScan(lines, i).description == RoadmapDescriptionAfter(lines, i)
  {
    if i > 0 {
      RoadmapDescription(lines, i - 1);
      RoadmapDescriptionStep(lines, i - 1, i);
    }
  }

  /** What a line does to the roadmap state, leaving the texts aside. */
  lemma RoadmapStepShape(st: RoadmapState, line: string)
    ensures var st' := RoadmapStep(st, line);
      if IsHeading(line) then
        && st'.id.Some? && st'.title.Some?
        && st'.sections == FlushRoadmap(st)
        && |st'.sections| == |st.sections| + (if st.id.Some? && st.title.Some? then 1 else 0)
        && st'.order == (if st.id.Some? && st.title.Some? then st.order + 1 else st.order)
        && (st'.id.value, st'.title.value) == HeadingIdTitle(TrimSpaces(line[3..]))
      else
        st'.sections == st.sections && st'.id == st.id && st'.title == st.title && st'.order == st.order
  {
  }

  /** After `i` lines the roadmap loop has a section in progress exactly
      when it has seen a heading, and has emitted one section per heading
      but the last, its order counting them. */
  predicate CountsAt(lines: seq<string>, i: nat)
    requires i <= |lines|
  {
    var pos := HeadingPositions(lines, i);
    var st := RoadmapScan(lines, i);
    && (st.id.Some? <==> |pos| > 0) && (st.title.Some? <==> |pos| > 0)
    && |st.sections| == (if |pos| == 0 then 0 else |pos| - 1)
    && st.order == |st.sections|
    && (|pos| > 0 ==> (st.id.value, st.title.value) == HeadingIdTitle(TrimSpaces(lines[pos[|pos| - 1]][3..])))
  }

  lemma RoadmapCountsStep(lines: seq<string>, j: nat, i: nat)
    requires i == j + 1 && i <= |lines|
    requires CountsAt(lines, j)
    ensures CountsAt(lines, i)
  {
    var l := lines[j];
    var pos := HeadingPositions(lines, j);
    RoadmapStepShape(RoadmapScan(lines, j), l);
    if IsHeading(l) {
      assert HeadingPositions(lines, i) == pos + [j];
    } else {
      assert HeadingPositions(lines, i) == pos;
    }
  }

  lemma {:induction false} RoadmapCounts(lines: seq<string>, i: nat)
    requires i <= |lines|
    ensures CountsAt(lines, i)
  {
    if i > 0 {
      RoadmapCounts(lines, i - 1);
      RoadmapCountsStep(lines, i - 1, i);
    }
  }

  /** The section a heading line emits is the one the previous heading
      opened, described by the lines since that heading. */
  lemma RoadmapFlushed(lines: seq<string>, i: nat, pos: seq<nat>)
    requires i < |lines| && IsHeading(lines[i])
    requires pos == HeadingPositions(lines, i) && |pos| > 0
    ensures RoadmapScan(lines, i + 1).sections
      == RoadmapScan(lines, i).sections + [SectionOf(lines, pos[|pos| - 1], i, |pos| - 1)]
  {
    var st := RoadmapScan(lines, i);
    RoadmapCounts(lines, i);
    RoadmapStepShape(st, lines[i]);
    RoadmapDescription(lines, i);
    ProseSinceTight(lines, i);
    TrimSpaceAcc(ProseSince(lines, i));
  }

  /** The `k`-th section emitted within the first `i` lines is the one the
      `k`-th heading opens, described up to the next heading. */
  predicate EmittedAt(lines: seq<string>, i: nat, k: nat)
    requires i <= |lines|
  {
    var pos := HeadingPositions(lines, i);
    var sections := RoadmapScan(lines, i).sections;
    k < |sections| && k + 1 < |pos| && sections[k] == SectionOf(lines, pos[k], pos[k + 1], k)
  }

  /** A heading line keeps every section emitted so far in place and adds
      the one the previous heading opened. */
  lemma EmittedAfterHeading(lines: seq<string>, j: nat, i: nat)
    requires i == j + 1 && j < |lines| && IsHeading(lines[j])
    requires forall k :: 0 <= k < |RoadmapScan(lines, j).sections| ==> EmittedAt(lines, j, k)
    ensures forall k :: 0 <= k < |RoadmapScan(lines, i).sections| ==> EmittedAt(lines, i, k)
  {
    var pos := HeadingPositions(lines, j);
    var sections := RoadmapScan(lines, j).sections;
    RoadmapStepShape(RoadmapScan(lines, j), lines[j]);
    RoadmapCounts(lines, j);
    var pos' := pos + [j];
    assert HeadingPositions(lines, i) == pos';
    var sections' := RoadmapScan(lines, i).sections;
    if |pos| > 0 {
      RoadmapFlushed(lines, j, pos);
      forall m | 0 <= m < |sections'| ensures EmittedAt(lines, i, m) {
        EmittedExtended(lines, j, i, pos, m);
      }
    }
  }

  lemma EmittedExtended(lines: seq<string>, j: nat, i: nat, pos: seq<nat>, m: nat)
    requires i == j + 1 && j < |lines|
    requires pos == HeadingPositions(lines, j) && |pos| > 0
    requires HeadingPositions(lines, i) == pos + [j]
    requires |RoadmapScan(lines, j).sections| == |pos| - 1
    requires RoadmapScan(lines, i).sections
      == RoadmapScan(lines, j).sections + [SectionOf(lines, pos[|pos| - 1], j, |pos| - 1)]
    requires m < |pos|
    requires m < |pos| - 1 ==> EmittedAt(lines, j, m)
    ensures EmittedAt(lines, i, m)
  {
    if m < |pos| - 1 {
      assert RoadmapScan(lines, i).sections[m] == RoadmapScan(lines, j).sections[m];
    }
  }

  /** Any other line leaves the emitted sections and the headings as they
      were. */
  lemma EmittedAfterOther(lines: seq<string>, j: nat, i: nat)
    requires i == j + 1 && j < |lines| && !IsHeading(lines[j])
    requires forall k :: 0 <= k < |RoadmapScan(lines, j).sections| ==> EmittedAt(lines, j, k)
    ensures forall k :: 0 <= k < |RoadmapScan(lines, i).sections| ==> EmittedAt(lines, i, k)
  {
    var sections := RoadmapScan(lines, j).sections;
    RoadmapStepShape(RoadmapScan(lines, j), lines[j]);
    assert HeadingPositions(lines, i) == HeadingPositions(lines, j);
    assert RoadmapScan(lines, i).sections == sections;
    forall m | 0 <= m < |sections| ensures EmittedAt(lines, i, m) {
      assert EmittedAt(lines, j, m);
    }
  }

  /** After `i` lines, the sections emitted so far are one per heading but
      the last, numbered from 0, each with the id and title of its heading
      and the non-blank lines up to the next heading as description. */
  lemma {:induction false} RoadmapEmitted(lines: seq<string>, i: nat)
    requires i <= |lines|
    ensures forall k :: 0 <= k < |RoadmapScan(lines, i).sections| ==> EmittedAt(lines, i, k)
  {
    if i > 0 {
      RoadmapEmitted(lines, i - 1);
      if IsHeading(lines[i - 1]) {
        EmittedAfterHeading(lines, i - 1, i);
      } else {
        EmittedAfterOther(lines, i - 1, i);
      }
    }
  }

  /** The roadmap has one section per `## ` line, in order, with `order`
      0, 1, 2, …; each carries the id and title of its heading and the
      non-blank lines up to the next heading, trimmed and joined by single
      spaces.  Lines before the first heading belong to no section. */
  /** The final flush emits the section the last heading opened,
      described by the lines after it. */
  lemma RoadmapLastSection(lines: seq<string>, pos: seq<nat>)
    requires pos == HeadingPositions(lines, |lines|) && |pos| > 0
    requires CountsAt(lines, |lines|)
    ensures RoadmapOf(lines).sections
      == RoadmapScan(lines, |lines|).sections + [SectionOf(lines, pos[|pos| - 1], |lines|, |pos| - 1)]
  {
    RoadmapDescription(lines, |lines|);
    ProseSinceTight(lines, |lines|);
    TrimSpaceAcc(ProseSince(lines, |lines|));
  }

  lemma RoadmapSections(lines: seq<string>)
    ensures var pos := HeadingPositions(lines, |lines|);
      var s := RoadmapOf(lines).sections;
      && |s| == |pos|
      && forall k :: 0 <= k < |s| ==>
           s[k] == SectionOf(lines, pos[k], if k + 1 < |pos| then pos[k + 1] else |lines|, k)
  {
    var n := |lines|;
    RoadmapCounts(lines, n);
    RoadmapEmitted(lines, n);
    var pos := HeadingPositions(lines, n);
    var s := RoadmapOf(lines).sections;
    if |pos| > 0 {
      var k := |pos| - 1;
      RoadmapLastSection(lines, pos);
      forall m | 0 <= m < |s|
        ensures s[m] == SectionOf(lines, pos[m], if m + 1 < |pos| then pos[m + 1] else n, m)
      {
        if m < k {
          assert EmittedAt(lines, n, m);
        }
      }
    }
  }
}

=== FILE: section_loader.dfy ===
/** `SectionLoader`: parses a section's spec markdown, lists its screen
    designs and screenshots by file name, and lists the section ids.
    File contents and directory listings are inputs (`None` when they
    cannot be read). */
module SectionLoader {
  import opened Wrappers
  import opened Text
  import opened Markdown

  datatype ParsedSpec = ParsedSpec(
    title: string,
    overview: string,
    userFlows: seq<string>,
    uiRequirements: seq<string>,
    useShell: bool)

  datatype ScreenDesignInfo = ScreenDesignInfo(name: string, path: string, componentName: string)

  /** The screenshot's URL is kept as the path it was built from. */
  datatype ScreenshotInfo = ScreenshotInfo(name: string, path: string, url: string)

  /** A directory entry and whether it exists as a directory. */
  datatype DirEntry = DirEntry(name: string, isDirectory: bool)

  function SectionPath(sectionId: string): string {
    "product/sections/" + sectionId
  }

  // ---------------------------------------------------------------------
  // parseSpec

  /** The loop tests `# `, `## ` and `- `, but not `### `. */
  const SpecDialect := Dialect(true, false, true)

  datatype SpecState = SpecState(
    section: Option<string>,
    title: Option<string>,
    overview: Option<string>,
    userFlows: seq<string>,
    uiRequirements: seq<string>)

  const SpecStart := SpecState(None, None, None, [], [])

  /** One line of the loop, branch by branch. */
  function SpecStep(st: SpecState, line: string): SpecState {
    if IsTitle(line) then st.(title := Some(TrimSpaces(line[2..])))
    else if IsHeading(line) then st.(section := Some(Lower(line[3..])))
    else if IsItem(line) then
      var content := TrimSpaces(line[2..]);
      if st.section == Some("user flows") then st.(userFlows := st.userFlows + [content])
      else if st.section == Some("ui requirements") then st.(uiRequirements := st.uiRequirements + [content])
      else st
    else if TrimSpacesNewlines(line) != [] then
      if st.section == Some("overview") then st.(overview := Some(st.overview.GetOr("") + " " + TrimSpacesNewlines(line)))
      else st
    else st
  }

  function SpecScan(lines: seq<string>, i: nat): SpecState
    requires i <= |lines|
  {
    if i == 0 then SpecStart else SpecStep(SpecScan(lines, i - 1), lines[i - 1])
  }

  /** The lower-cased spec mentions both "shell" and "use". */
  predicate UsesShell(spec: string) {
    ContainsSub(Lower(spec), "shell") && ContainsSub(Lower(spec), "use")
  }

  function ParsedSpecOf(spec: string): ParsedSpec {
    var lines := SplitLines(spec);
    var st := SpecScan(lines, |lines|);
    ParsedSpec(
      st.title.GetOr(""),
      if st.overview.Some? then TrimSpaces(st.overview.value) else "",
      st.userFlows,
      st.uiRequirements,
      UsesShell(spec))
  }

  /** `parseSpec`. */
  method ParseSpec(spec: Option<string>) returns (r: Option<ParsedSpec>)
    ensures spec.None? ==> r.None?
    ensures spec.Some? ==> r == Some(ParsedSpecOf(spec.value))
  {
    if spec.None? {
      return None;
    }
    var lines := SplitLines(spec.value);
    var currentSection: Option<string> := None;
    var title: Option<string> := None;
    var overview: Option<string> := None;
    var userFlows: seq<string> := [];
    var uiRequirements: seq<string> := [];

    for i := 0 to |lines|
      invariant SpecScan(lines, i) == SpecState(currentSection, title, overview, userFlows, uiRequirements)
    {
      var line := lines[i];
      if IsTitle(line) {
        title := Some(TrimSpaces(line[2..]));
      } else if IsHeading(line) {
        currentSection := Some(Lower(line[3..]));
      } else if IsItem(line) {
        var content := TrimSpaces(line[2..]);
        if currentSection == Some("user flows") {
          userFlows := userFlows + [content];
        } else if currentSection == Some("ui requirements") {
          uiRequirements := uiRequirements + [content];
        }
      } else if TrimSpacesNewlines(line) != [] {
        var trimmed := TrimSpacesNewlines(line);
        if currentSection == Some("overview") {
          overview := Some(overview.GetOr("") + " " + trimmed);
        }
      }
    }

    var lowered := Lower(spec.value);
    var useShell := ContainsSub(lowered, "shell") && ContainsSub(lowered, "use");
    return Some(ParsedSpec(
      title.GetOr(""),
      if overview.Some? then TrimSpaces(overview.value) else "",
      userFlows,
      uiRequirements,
      useShell));
  }

  lemma {:induction false} SpecSectionAndTitle(lines: seq<string>, i: nat)
    requires i <= |lines|
    ensures SpecScan(lines, i).section == SectionAt(lines, i)
    ensures SpecScan(lines, i).title == LastTitle(lines, i)
  {
    if i > 0 {
      SpecSectionAndTitle(lines, i - 1);
      KindsDisjoint(lines[i - 1]);
    }
  }

  /** The user flows and UI requirements are the items of their sections,
      in order. */
  lemma {:induction false} SpecItems(lines: seq<string>, i: nat)
    requires i <= |lines|
    ensures SpecScan(lines, i).userFlows == ItemsUnder(lines, i, "user flows")
    ensures SpecScan(lines, i).uiRequirements == ItemsUnder(lines, i, "ui requirements")
  {
    if i > 0 {
      SpecItems(lines, i - 1);
      SpecSectionAndTitle(lines, i - 1);
      KindsDisjoint(lines[i - 1]);
    }
  }

  /** What one line does to the overview. */
  lemma SpecStepOverview(st: SpecState, line: string)
    ensures SpecStep(st, line).overview ==
      if IsProse(SpecDialect, line) && st.section == Some("overview") then Some(st.overview.GetOr("") + " " + ProseText(line))
      else st.overview
  {
    KindsDisjoint(line);
    BlankIffTrimsEmpty(line);
  }

  /** The overview the loop holds after `i` lines. */
  function OverviewAfter(lines: seq<string>, i: nat): Option<string>
    requires i <= |lines|
  {
    var parts := ProseUnder(lines, i, "overview", SpecDialect);
    if parts == [] then None else Some(SpaceAcc(parts))
  }

  lemma SpecOverviewStep(lines: seq<string>, j: nat, i: nat)
    requires i == j + 1 && i <= |lines|
    requires SpecScan(lines, j).overview == OverviewAfter(lines, j)
    requires SpecScan(lines, j).section == SectionAt(lines, j)
    ensures SpecScan(lines, i).overview == OverviewAfter(lines, i)
  {
    var l := lines[j];
    var st := SpecScan(lines, j);
    SpecStepOverview(st, l);
    ProseUnderStep(lines, i, "overview", SpecDialect);
    var p := IsProse(SpecDialect, l) && SectionAt(lines, j) == Some("overview");
    AccumulateStep(st.overview, SpecScan(lines, i).overview, ProseUnder(lines, j, "overview", SpecDialect),
      ProseUnder(lines, i, "overview", SpecDialect), p, ProseText(l));
  }

  /** The overview accumulates `" " + line` for each prose line of section
      `overview`, and is absent when there is none. */
  lemma {:induction false} SpecOverview(lines: seq<string>, i: nat)
    requires i <= |lines|
    ensures var parts := ProseUnder(lines, i, "overview", SpecDialect);
      SpecScan(lines, i).overview == if parts == [] then None else Some(SpaceAcc(parts))
  {
    if i > 0 {
      SpecOverview(lines, i - 1);
      SpecSectionAndTitle(lines, i - 1);
      SpecOverviewStep(lines, i - 1, i);
    }
  }

  /** A spec read from a file is parsed in declarative terms: the title is
      the last `# ` line's text ("" when there is none), the overview is
      the prose of `overview` joined by single spaces, and the user flows
      and UI requirements are the items of their sections. */
  lemma ParsedSpecOfSpec(spec: string)
    ensures var lines := SplitLines(spec);
      var p := ParsedSpecOf(spec);
      && p.title == LastTitle(lines, |lines|).GetOr("")
      && p.overview == Join(ProseUnder(lines, |lines|, "overview", SpecDialect), " ")
      && p.userFlows == ItemsUnder(lines, |lines|, "user flows")
      && p.uiRequirements == ItemsUnder(lines, |lines|, "ui requirements")
  {
    var lines := SplitLines(spec);
    SpecSectionAndTitle(lines, |lines|);
    SpecItems(lines, |lines|);
    SpecOverview(lines, |lines|);
    ProseUnderTight(lines, |lines|, "overview", SpecDialect);
    TrimSpaceAcc(ProseUnder(lines, |lines|, "overview", SpecDialect));
  }

  lemma LowerSlice(s: string, i: nat, j: nat)
    requires i <= j <= |s|
    ensures Lower(s)[i..j] == Lower(s[i..j])
  {
    var t := s[i..j];
    var b := Lower(t);
    assert |b| == j - i;
    assert forall k :: 0 <= k < j - i ==> b[k] == LowerChar(s[i + k]);
  }

  /** `word` occurs in `spec` at `k`, in any mix of upper and lower
      case. */
  predicate MentionsAt(spec: string, word: string, k: nat) {
    k + |word| <= |spec| && Lower(spec[k..k + |word|]) == word
  }

  /** `useShell` holds exactly when "shell" and "use" each occur in the
      spec in any mix of upper and lower case. */
  lemma UsesShellIff(spec: string)
    ensures UsesShell(spec) <==>
      (exists k: nat :: MentionsAt(spec, "shell", k)) && (exists m: nat :: MentionsAt(spec, "use", m))
  {
    var low := Lower(spec);
    ContainsSubIff(low, "shell");
    ContainsSubIff(low, "use");
    forall k: nat, word: string | word in {"shell", "use"}
      ensures OccursAt(low, word, k) <==> MentionsAt(spec, word, k)
    {
      if k + |word| <= |spec| {
        LowerSlice(spec, k, k + |word|);
      }
    }
  }

  // ---------------------------------------------------------------------
  // Screen designs

  function DesignsPath(sectionId: string): string {
    SectionPath(sectionId) + "/designs"
  }

  predicate IsDesignFile(filename: string) {
    HasSuffix(filename, ".swift") || HasSuffix(filename, ".json")
  }

  /** The file name with every ".swift", then every ".json", removed. */
  function DesignName(filename: string): string {
    ReplaceAll(ReplaceAll(filename, ".swift", ""), ".json", "")
  }

  function DesignOf(dir: string, filename: string): ScreenDesignInfo {
    var name := DesignName(filename);
    ScreenDesignInfo(name, dir + "/" + filename, if HasSuffix(filename, ".swift") then name else "")
  }

  /** The `compactMap` over the listing: design files only, in listing
      order. */
  function DesignsOf(dir: string, filenames: seq<string>): (r: seq<ScreenDesignInfo>)
    ensures |r| <= |filenames|
  {
    if filenames == [] then []
    else if IsDesignFile(filenames[0]) then [DesignOf(dir, filenames[0])] + DesignsOf(dir, filenames[1..])
    else DesignsOf(dir, filenames[1..])
  }

  /** Every kept design comes from a design file of the listing, and every
      design file of the listing is kept. */
  lemma {:induction false} DesignsOfSpec(dir: string, filenames: seq<string>)
    ensures forall d :: d in DesignsOf(dir, filenames) ==> exists f :: f in filenames && IsDesignFile(f) && d == DesignOf(dir, f)
    ensures forall f :: f in filenames && IsDesignFile(f) ==> DesignOf(dir, f) in DesignsOf(dir, filenames)
  {
    if filenames != [] {
      var f0 := filenames[0];
      var rest := DesignsOf(dir, filenames[1..]);
      DesignsOfSpec(dir, filenames[1..]);
      assert forall f :: f in filenames[1..] ==> f in filenames;
      assert forall f :: f in filenames ==> f == f0 || f in filenames[1..];
      if IsDesignFile(f0) {
        assert DesignsOf(dir, filenames) == [DesignOf(dir, f0)] + rest;
        forall d | d in [DesignOf(dir, f0)] + rest
          ensures exists f :: f in filenames && IsDesignFile(f) && d == DesignOf(dir, f)
        {
          if d !in rest {
            assert f0 in filenames && IsDesignFile(f0) && d == DesignOf(dir, f0);
          }
        }
      } else {
        assert DesignsOf(dir, filenames) == rest;
      }
    }
  }

  /** `loadScreenDesigns`: nothing when the directory cannot be listed. */
  function ScreenDesigns(sectionId: string, contents: Option<seq<string>>): (r: seq<ScreenDesignInfo>)
    ensures contents.None? ==> r == []
    ensures contents.Some? ==> forall d :: d in r ==> HasPrefix(d.path, DesignsPath(sectionId) + "/")
  {
    match contents
    case None => []
    case Some(filenames) =>
      var r := DesignsOf(DesignsPath(sectionId), filenames);
      DesignsOfSpec(DesignsPath(sectionId), filenames);
      assert forall d :: d in r ==> HasPrefix(d.path, DesignsPath(sectionId) + "/") by {
        forall d | d in r ensures HasPrefix(d.path, DesignsPath(sectionId) + "/") {
          var f :| f in filenames && IsDesignFile(f) && d == DesignOf(DesignsPath(sectionId), f);
          assert d.path == (DesignsPath(sectionId) + "/") + f;
        }
      }
      r
  }

  /** The listing is filtered piece by piece, so the kept designs stay in
      listing order. */
  lemma {:induction false} DesignsAppend(dir: string, a: seq<string>, b: seq<string>)
    ensures DesignsOf(dir, a + b) == DesignsOf(dir, a) + DesignsOf(dir, b)
  {
    if a != [] {
      assert (a + b)[1..] == a[1..] + b;
      DesignsAppend(dir, a[1..], b);
    } else {
      assert a + b == b;
    }
  }

  /** A `.swift` file's design is named by its base name, which is also the
      component name. */
  lemma SwiftDesign(dir: string, base: string)
    requires '.' !in base
    ensures DesignOf(dir, base + ".swift") == ScreenDesignInfo(base, dir + "/" + base + ".swift", base)
  {
    ReplaceAllSkipsPrefix(base, ".swift", ".swift", "");
    ReplaceAllWhole(".swift", "");
    ReplaceAllSkipsPrefix(base, [], ".json", "");
    assert base + [] == base;
    assert HasSuffix(base + ".swift", ".swift") by {
      assert (base + ".swift")[|base|..] == ".swift";
    }
  }

  /** A `.json` file's design is named by its base name and has no
      component. */
  lemma JsonDesign(dir: string, base: string)
    requires '.' !in base
    ensures DesignOf(dir, base + ".json") == ScreenDesignInfo(base, dir + "/" + base + ".json", "")
  {
    JsonDesignName(base);
    JsonNotSwift(base + ".json");
  }

  lemma JsonDesignName(base: string)
    requires '.' !in base
    ensures DesignName(base + ".json") == base
  {
    ReplaceAllSkipsPrefix(base, ".json", ".swift", "");
    assert ReplaceAll(".json", ".swift", "") == ".json";
    ReplaceAllSkipsPrefix(base, ".json", ".json", "");
    ReplaceAllWhole(".json", "");
    assert base + "" == base;
  }

  lemma JsonNotSwift(f: string)
    requires f != [] && f[|f| - 1] == 'n'
    ensures !HasSuffix(f, ".swift")
  {
    if 6 <= |f| {
      assert f[|f| - 6..][5] == f[|f| - 1];
    }
  }

  // ---------------------------------------------------------------------
  // Screenshots

  function ScreenshotsPath(sectionId: string): string {
    SectionPath(sectionId) + "/screenshots"
  }

  const ImageExtensions: seq<string> := ["png", "jpg", "jpeg", "gif", "webp", "tiff"]

  /** The text after the last '.', or "" when there is none. */
  function AfterLastDot(filename: string): (r: string)
    ensures '.' !in r
    ensures |r| <= |filename|
    ensures '.' in filename && r == [] ==> filename[|filename| - 1] == '.'
    ensures r == [] || HasSuffix(filename, "." + r)
    decreases |filename|
  {
    if filename == [] || filename[|filename| - 1] == '.' || '.' !in filename then []
    else
      var init := filename[..|filename| - 1];
      var c := filename[|filename| - 1];
      assert filename == init + [c];
      assert '.' in init;
      var r := AfterLastDot(init);
      assert HasSuffix(filename, "." + (r + [c])) by {
        if r == [] {
          assert init[|init| - 1] == '.';
          assert filename[|filename| - 2..] == "." + [c];
        } else {
          assert init[|init| - |"." + r|..] == "." + r;
          assert filename[|filename| - |"." + r + [c]|..] == init[|init| - |"." + r|..] + [c];
        }
      }
      r + [c]
  }

  /** `NSString.pathExtension` of a listing entry, which is a single path
      component: the text after the last '.', but "" when there is no dot
      or the only one starts the name, as in a hidden file. */
  function PathExtension(filename: string): (r: string)
    ensures '.' !in r
    ensures '.' !in filename ==> r == []
    ensures filename != [] && filename[0] == '.' && '.' !in filename[1..] ==> r == []
    ensures r != [] ==> HasSuffix(filename, "." + r) && |r| + 1 < |filename|
  {
    if filename != [] && filename[0] == '.' && '.' !in filename[1..] then []
    else AfterLastDot(filename)
  }

  predicate IsImage(filename: string) {
    Lower(PathExtension(filename)) in ImageExtensions
  }

  function ScreenshotOf(dir: string, filename: string): ScreenshotInfo {
    var ext := Lower(PathExtension(filename));
    var path := dir + "/" + filename;
    ScreenshotInfo(ReplaceAll(filename, "." + ext, ""), path, path)
  }

  /** The `compactMap` over the listing: image files whose path makes a URL
      (`urlOk`), in listing order. */
  function ScreenshotsOf(dir: string, filenames: seq<string>, urlOk: string -> bool): (r: seq<ScreenshotInfo>)
    ensures |r| <= |filenames|
    ensures forall s :: s in r ==> exists f :: f in filenames && IsImage(f) && urlOk(dir + "/" + f) && s == ScreenshotOf(dir, f)
    ensures forall f :: f in filenames && IsImage(f) && urlOk(dir + "/" + f) ==> ScreenshotOf(dir, f) in r
  {
    if filenames == [] then []
    else
      var rest := ScreenshotsOf(dir, filenames[1..], urlOk);
      assert forall f :: f in filenames[1..] ==> f in filenames;
      var f := filenames[0];
      if IsImage(f) && urlOk(dir + "/" + f) then [ScreenshotOf(dir, f)] + rest else rest
  }

  /** `loadScreenshots`: nothing when the directory cannot be listed. */
  function Screenshots(sectionId: string, contents: Option<seq<string>>, urlOk: string -> bool): (r: seq<ScreenshotInfo>)
    ensures contents.None? ==> r == []
    ensures contents.Some? ==> |r| <= |contents.value|
  {
    match contents
    case None => []
    case Some(filenames) => ScreenshotsOf(ScreenshotsPath(sectionId), filenames, urlOk)
  }

  /** The image extensions are lower-case and hold no '.'. */
  lemma ImageExtensionsPlain(ext: string)
    requires ext in ImageExtensions
    ensures Lower(ext) == ext && '.' !in ext
  {
    assert forall e :: e in ImageExtensions ==> forall k :: 0 <= k < |e| ==> 'a' <= e[k] <= 'z';
    LowerFixed(ext);
  }

  /** A file with a lower-case image extension is kept, and is named by its
      base name. */
  lemma ImageName(dir: string, base: string, ext: string)
    requires '.' !in base && base != [] && ext in ImageExtensions
    ensures IsImage(base + "." + ext)
    ensures ScreenshotOf(dir, base + "." + ext).name == base
  {
    ImageExtensionsPlain(ext);
    LowerExtensionName(dir, base, ext);
  }

  /** A hidden file such as `.png` has no extension, so it is skipped. */
  lemma HiddenFileSkipped(ext: string)
    requires '.' !in ext
    ensures PathExtension("." + ext) == []
    ensures !IsImage("." + ext)
  {
    assert ("." + ext)[1..] == ext;
  }

  lemma LowerExtensionName(dir: string, base: string, ext: string)
    requires '.' !in base && base != [] && '.' !in ext && Lower(ext) == ext
    ensures PathExtension(base + "." + ext) == ext
    ensures ScreenshotOf(dir, base + "." + ext).name == base
  {
    ExtensionAfterLastDot(base, ext);
    var pat := "." + ext;
    assert base + "." + ext == base + pat;
    ReplaceAllSkipsPrefix(base, pat, pat, "");
    ReplaceAllWhole(pat, "");
    assert base + "" == base;
  }

  /** `base.ext` has extension `ext` whenever `ext` holds no '.' and the
      base is not empty. */
  lemma ExtensionAfterLastDot(base: string, ext: string)
    requires '.' !in ext && base != []
    ensures PathExtension(base + "." + ext) == ext
  {
    var f := base + "." + ext;
    AfterLastDotOf(base, ext);
    assert '.' in f[1..] by {
      assert f[1..][|base| - 1] == '.';
    }
  }

  lemma {:induction false} AfterLastDotOf(base: string, ext: string)
    requires '.' !in ext
    ensures AfterLastDot(base + "." + ext) == ext
    decreases |ext|
  {
    var f := base + "." + ext;
    if ext == [] {
      assert f[|f| - 1] == '.';
    } else {
      var init := ext[..|ext| - 1];
      AfterLastDotOf(base, init);
      assert f[..|f| - 1] == base + "." + init;
      assert f[|f| - 1] == ext[|ext| - 1] != '.';
      assert ext == init + [ext[|ext| - 1]];
      assert '.' in f[..|f| - 1] by {
        assert (base + "." + init)[|base|] == '.';
      }
    }
  }

  // ---------------------------------------------------------------------
  // getAllSectionIds

  /** The names of the entries that are directories, in listing order. */
  function DirectoryNames(entries: seq<DirEntry>): (r: seq<string>)
    ensures |r| <= |entries|
    ensures forall n :: n in r <==> exists e :: e in entries && e.isDirectory && e.name == n
  {
    if entries == [] then []
    else
      var init := entries[..|entries| - 1];
      var e := entries[|entries| - 1];
      assert entries == init + [e];
      if e.isDirectory then DirectoryNames(init) + [e.name] else DirectoryNames(init)
  }

  predicate Sorted(s: seq<string>) {
    forall i, j :: 0 <= i < j < |s| ==> LexLe(s[i], s[j])
  }

  /** `x` inserted before the first element it does not follow. */
  function Insert(x: string, s: seq<string>): seq<string> {
    if s == [] || LexLe(x, s[0]) then [x] + s else [s[0]] + Insert(x, s[1..])
  }

  lemma {:induction false} InsertSpec(x: string, s: seq<string>)
    requires Sorted(s)
    ensures Sorted(Insert(x, s))
    ensures multiset(Insert(x, s)) == multiset(s) + multiset{x}
  {
    if s == [] || LexLe(x, s[0]) {
      var r := [x] + s;
      forall i, j | 0 <= i < j < |r| ensures LexLe(r[i], r[j]) {
        if i == 0 && j > 1 {
          LexLeTrans(x, s[0], s[j - 1]);
        }
      }
    } else {
      var t := Insert(x, s[1..]);
      InsertSpec(x, s[1..]);
      LexLeTotal(x, s[0]);
      assert s == [s[0]] + s[1..];
      var r := [s[0]] + t;
      forall j | 0 <= j < |t| ensures LexLe(s[0], t[j]) {
        assert t[j] in multiset(t);
        if t[j] != x {
          assert t[j] in multiset(s[1..]);
          var m :| 0 <= m < |s[1..]| && s[1..][m] == t[j];
          assert s[m + 1] == t[j];
        }
      }
      assert Sorted(r);
    }
  }

  /** `sorted()`: an insertion sort. */
  function Sort(s: seq<string>): seq<string> {
    if s == [] then [] else Insert(s[0], Sort(s[1..]))
  }

  /** The sort returns the same names, ascending. */
  lemma {:induction false} SortSpec(s: seq<string>)
    ensures Sorted(Sort(s))
    ensures multiset(Sort(s)) == multiset(s)
  {
    if s != [] {
      SortSpec(s[1..]);
      InsertSpec(s[0], Sort(s[1..]));
      assert s == [s[0]] + s[1..];
    }
  }

  /** `getAllSectionIds`: the directory entries of the sections directory,
      ascending; nothing when it cannot be listed. */
  method GetAllSectionIds(contents: Option<seq<DirEntry>>) returns (ids: seq<string>)
    ensures contents.None? ==> ids == []
    ensures contents.Some? ==> Sorted(ids) && multiset(ids) == multiset(DirectoryNames(contents.value))
  {
    if contents.None? {
      return [];
    }
    var entries := contents.value;
    var sectionIds: seq<string> := [];
    for i := 0 to |entries|
      invariant sectionIds == DirectoryNames(entries[..i])
    {
      assert entries[..i + 1][..i] == entries[..i];
      if entries[i].isDirectory {
        sectionIds := sectionIds + [entries[i].name];
      }
    }
    assert entries[..|entries|] == entries;
    ids := Sort(sectionIds);
    SortSpec(sectionIds);
  }
}

=== FILE: sections_view.dfy ===
/** The app's Sections screen: the section cards, the search that narrows
    them, and the button that clears the search. */
module SectionsView {
  import opened Text
  import opened Tasks

  datatype SectionStatus = Completed | InProgress | Planned | Blocked

  datatype SectionItem = SectionItem(id: string, name: string, description: string,
                                     status: SectionStatus, screens: seq<string>)

  /** The three sections the screen starts with. */
  function InitialSections(): (ss: seq<SectionItem>)
    ensures |ss| == 3
  {
    [ SectionItem("auth", "Authentication", "Login, signup, and password recovery flows", Completed,
                  ["Login", "Signup", "Forgot Password"]),
      SectionItem("dashboard", "Dashboard", "Main dashboard with overview and metrics", InProgress,
                  ["Overview", "Analytics", "Reports"]),
      SectionItem("profile", "Profile", "User profile and settings management", Planned,
                  ["Profile", "Settings", "Preferences"]) ]
  }

  /** The search text occurs in the name or the description, ignoring
      case. */
  predicate Matches(s: SectionItem, search: string) {
    ContainsIgnoringCase(s.name, search) || ContainsIgnoringCase(s.description, search)
  }

  /** `filteredSections`: every section when the search is empty,
      otherwise the matching ones, each as often as listed. */
  function FilteredSections(sections: seq<SectionItem>, search: string): (r: seq<SectionItem>)
    ensures search == [] ==> r == sections
    ensures search != [] ==> forall k :: 0 <= k < |r| ==> Matches(r[k], search)
    ensures forall s :: multiset(r)[s] == if search == [] || Matches(s, search) then multiset(sections)[s] else 0
    ensures |r| <= |sections|
  {
    FilterMultiset(sections, (s: SectionItem) => Matches(s, search));
    if search == [] then sections else Filter(sections, (s: SectionItem) => Matches(s, search))
  }

  /** A section is shown exactly when it is listed and the search is
      empty or matches it. */
  lemma ShownIff(sections: seq<SectionItem>, search: string, s: SectionItem)
    ensures s in FilteredSections(sections, search) <==> s in sections && (search == [] || Matches(s, search))
  {
    var r := FilteredSections(sections, search);
    assert s in r <==> multiset(r)[s] > 0;
    assert s in sections <==> multiset(sections)[s] > 0;
  }

  /** The search keeps the listed order: searching a concatenation gives
      the two results one after the other. */
  lemma SearchKeepsOrder(a: seq<SectionItem>, b: seq<SectionItem>, search: string)
    ensures FilteredSections(a + b, search) == FilteredSections(a, search) + FilteredSections(b, search)
  {
    if search != [] {
      FilterAppend(a, b, (s: SectionItem) => Matches(s, search));
    }
  }

  /** Searching for a section's own name, lower-cased, finds it. */
  lemma NameSearchFinds(s: SectionItem, sections: seq<SectionItem>)
    requires s in sections && s.name != []
    ensures s in FilteredSections(sections, Lower(s.name))
  {
    var l := Lower(s.name);
    LowerIdempotent(s.name);
    assert l[0..|l|] == l;
    ContainsAt(l, l, 0);
    ShownIff(sections, Lower(s.name), s);
  }

  /** The screen's state. */
  class SectionsScreen {
    var sections: seq<SectionItem>
    var searchText: string

    constructor ()
      ensures sections == InitialSections() && searchText == []
    {
      sections := InitialSections();
      searchText := [];
    }

    /** The clear button is shown only while there is search text. */
    predicate ShowsClearButton()
      reads this
    {
      searchText != []
    }

    /** The clear button's action: empties the search, which brings back
        every section. */
    method ClearSearch()
      requires ShowsClearButton()
      modifies this
      ensures searchText == [] && sections == old(sections)
      ensures FilteredSections(sections, searchText) == sections
    {
      searchText := [];
    }
  }
}

=== FILE: shell_loader.dfy ===
/** `ShellLoader`: reads the application shell's spec (overview, navigation
    items, layout pattern) from markdown and notes whether a components
    directory exists.  File presence and content are inputs. */
module ShellLoader {
  import opened Wrappers
  import opened Files
  import opened Text
  import opened Markdown

  datatype ShellSpec = ShellSpec(raw: string, overview: string, navigationItems: seq<string>, layoutPattern: string)

  datatype ShellInfo = ShellInfo(spec: Option<ShellSpec>, hasComponents: bool)

  /** `ShellLoaderError`.  `loadFile` throws `FileNotFound` only when the
      file vanishes between its two existence tests, which the model does
      not capture, and the other two cases are never thrown. */
  datatype ShellLoaderError = FileNotFound(path: string) | InvalidMarkdown(reason: string) | ParsingError(reason: string)

  /** What is found at a path. */
  datatype PathKind = Missing | File | Directory

  /** The loop tests `## ` and `- ` only: `# ` and `### ` lines are prose
      here. */
  const ShellDialect := Dialect(false, false, true)

  datatype ShellState = ShellState(
    section: Option<string>,
    overview: Option<string>,
    navigationItems: seq<string>,
    layoutPattern: Option<string>)

  const ShellStart := ShellState(None, None, [], None)

  /** One line of the loop, branch by branch. */
  function ShellStep(st: ShellState, line: string): ShellState {
    if IsHeading(line) then st.(section := Some(Lower(line[3..])))
    else if IsItem(line) then
      var content := TrimSpaces(line[2..]);
      if st.section == Some("navigation") then st.(navigationItems := st.navigationItems + [content])
      else if st.section == Some("overview") then st.(overview := Some(st.overview.GetOr("") + " " + content))
      else st
    else if TrimSpacesNewlines(line) != [] then
      var trimmed := TrimSpacesNewlines(line);
      if st.section == Some("overview") then st.(overview := Some(st.overview.GetOr("") + " " + trimmed))
      else if st.section == Some("layout") then st.(layoutPattern := Some(trimmed))
      else st
    else st
  }

  function ShellScan(lines: seq<string>, i: nat): ShellState
    requires i <= |lines|
  {
    if i == 0 then ShellStart else ShellStep(ShellScan(lines, i - 1), lines[i - 1])
  }

  function ShellSpecOf(content: string): ShellSpec {
    var st := ShellScan(SplitLines(content), |SplitLines(content)|);
    ShellSpec(
      content,
      if st.overview.Some? then TrimSpaces(st.overview.value) else "",
      st.navigationItems,
      st.layoutPattern.GetOr(""))
  }

  /** `loadShellSpec`, given the file's content. */
  method LoadShellSpec(content: string) returns (spec: ShellSpec)
    ensures spec == ShellSpecOf(content)
    ensures spec.raw == content
  {
    var raw := content;
    var lines := SplitLines(content);
    var currentSection: Option<string> := None;
    var overview: Option<string> := None;
    var navigationItems: seq<string> := [];
    var layoutPattern: Option<string> := None;

    for i := 0 to |lines|
      invariant ShellScan(lines, i) == ShellState(currentSection, overview, navigationItems, layoutPattern)
    {
      var line := lines[i];
      if IsHeading(line) {
        currentSection := Some(Lower(line[3..]));
      } else if IsItem(line) {
        var item := TrimSpaces(line[2..]);
        if currentSection == Some("navigation") {
          navigationItems := navigationItems + [item];
        } else if currentSection == Some("overview") {
          overview := Some(overview.GetOr("") + " " + item);
        }
      } else if TrimSpacesNewlines(line) != [] {
        var trimmed := TrimSpacesNewlines(line);
        if currentSection == Some("overview") {
          overview := Some(overview.GetOr("") + " " + trimmed);
        } else if currentSection == Some("layout") {
          layoutPattern := Some(trimmed);
        }
      }
    }

    spec := ShellSpec(
      raw,
      if overview.Some? then TrimSpaces(overview.value) else "",
      navigationItems,
      layoutPattern.GetOr(""));
  }

  /** `loadShellInfo`: the spec is read only when its file exists, a spec
      file that exists but cannot be read makes the load throw, and the
      components flag holds only for a directory.  `specFile` is the
      shell's markdown spec under `product/shell`, and `components` is what
      is found at `product/shell/components`. */
  method LoadShellInfo(specFile: FileRead<string>, components: PathKind)
    returns (r: Result<ShellInfo, Thrown<ShellLoaderError>>)
    ensures r.Failure? <==> specFile.Unreadable?
    ensures r.Failure? ==> r.error == ReadFailed
    ensures r.Success? ==> (r.value.spec.None? <==> specFile.Absent?)
    ensures r.Success? && specFile.Readable? ==> r.value.spec == Some(ShellSpecOf(specFile.content))
    ensures r.Success? ==> (r.value.hasComponents <==> components == Directory)
  {
    var spec: Option<ShellSpec>;
    match specFile {
      case Absent =>
        spec := None;
      case Unreadable =>
        return Failure(ReadFailed);
      case Readable(text) =>
        var s := LoadShellSpec(text);
        spec := Some(s);
    }
    var hasComponents := components == Directory;
    r := Success(ShellInfo(spec, hasComponents));
  }

  // ---------------------------------------------------------------------
  // The scan in declarative terms

  /** The trimmed `- ` items and prose lines of section `overview` among
      the first `i` lines, in order. */
  function OverviewParts(lines: seq<string>, i: nat): seq<string>
    requires i <= |lines|
  {
    if i == 0 then []
    else
      var l := lines[i - 1];
      var inOverview := SectionAt(lines, i - 1) == Some("overview");
      if IsItem(l) && inOverview then OverviewParts(lines, i - 1) + [ItemText(l)]
      else if IsProse(ShellDialect, l) && inOverview then OverviewParts(lines, i - 1) + [ProseText(l)]
      else OverviewParts(lines, i - 1)
  }

  lemma {:induction false} ShellSection(lines: seq<string>, i: nat)
    requires i <= |lines|
    ensures ShellScan(lines, i).section == SectionAt(lines, i)
  {
    if i > 0 {
      ShellSection(lines, i - 1);
    }
  }

  /** The navigation items are the items of section `navigation`, in
      order. */
  lemma {:induction false} ShellNavigation(lines: seq<string>, i: nat)
    requires i <= |lines|
    ensures ShellScan(lines, i).navigationItems == ItemsUnder(lines, i, "navigation")
  {
    if i > 0 {
      ShellNavigation(lines, i - 1);
      ShellSection(lines, i - 1);
    }
  }

  /** What one line does to the overview: an item or a prose line of
      section `overview` appends a space and its trimmed text. */
  lemma ShellStepOverview(st: ShellState, l: string)
    ensures ShellStep(st, l).overview ==
      if (IsItem(l) || IsProse(ShellDialect, l)) && st.section == Some("overview")
      then Some(st.overview.GetOr("") + " " + (if IsItem(l) then ItemText(l) else ProseText(l)))
      else st.overview
  {
    BlankIffTrimsEmpty(l);
  }

  /** What one line does to the layout pattern: a prose line of section
      `layout` replaces it. */
  lemma ShellStepLayout(st: ShellState, l: string)
    ensures ShellStep(st, l).layoutPattern ==
      if IsProse(ShellDialect, l) && st.section == Some("layout") then Some(ProseText(l)) else st.layoutPattern
  {
    BlankIffTrimsEmpty(l);
  }

  /** One more line adds its text exactly when it is an item or prose of
      section `overview`. */
  lemma OverviewPartsStep(lines: seq<string>, i: nat)
    requires 0 < i <= |lines|
    ensures var l := lines[i - 1];
      OverviewParts(lines, i)
      == if (IsItem(l) || IsProse(ShellDialect, l)) && SectionAt(lines, i - 1) == Some("overview")
         then OverviewParts(lines, i - 1) + [if IsItem(l) then ItemText(l) else ProseText(l)]
         else OverviewParts(lines, i - 1)
  {
  }

  /** The overview the loop holds after `i` lines. */
  function OverviewAfter(lines: seq<string>, i: nat): Option<string>
    requires i <= |lines|
  {
    var parts := OverviewParts(lines, i);
    if parts == [] then None else Some(SpaceAcc(parts))
  }

  /** The layout pattern the loop holds after `i` lines. */
  function LayoutAfter(lines: seq<string>, i: nat): Option<string>
    requires i <= |lines|
  {
    var prose := ProseUnder(lines, i, "layout", ShellDialect);
    if prose == [] then None else Some(prose[|prose| - 1])
  }

  lemma ShellOverviewStep(lines: seq<string>, j: nat, i: nat)
    requires i == j + 1 && i <= |lines|
    requires ShellScan(lines, j).overview == OverviewAfter(lines, j)
    requires ShellScan(lines, j).section == SectionAt(lines, j)
    ensures ShellScan(lines, i).overview == OverviewAfter(lines, i)
  {
    var l := lines[j];
    var st := ShellScan(lines, j);
    ShellStepOverview(st, l);
    OverviewPartsStep(lines, i);
    var p := (IsItem(l) || IsProse(ShellDialect, l)) && SectionAt(lines, j) == Some("overview");
    AccumulateStep(st.overview, ShellScan(lines, i).overview, OverviewParts(lines, j), OverviewParts(lines, i),
      p, if IsItem(l) then ItemText(l) else ProseText(l));
  }

  /** The overview accumulates `" " + part` for each item and prose line of
      section `overview`, and is absent when there is none. */
  lemma {:induction false} ShellOverview(lines: seq<string>, i: nat)
    requires i <= |lines|
    ensures ShellScan(lines, i).overview == OverviewAfter(lines, i)
  {
    if i > 0 {
      ShellOverview(lines, i - 1);
      ShellSection(lines, i - 1);
      ShellOverviewStep(lines, i - 1, i);
    }
  }

  lemma ShellLayoutStep(lines: seq<string>, j: nat, i: nat)
    requires i == j + 1 && i <= |lines|
    requires ShellScan(lines, j).layoutPattern == LayoutAfter(lines, j)
    requires ShellScan(lines, j).section == SectionAt(lines, j)
    ensures ShellScan(lines, i).layoutPattern == LayoutAfter(lines, i)
  {
    var l := lines[j];
    ShellStepLayout(ShellScan(lines, j), l);
    ProseUnderStep(lines, i, "layout", ShellDialect);
  }

  /** The layout pattern is the last prose line of section `layout`; items
      there are ignored. */
  lemma {:induction false} ShellLayout(lines: seq<string>, i: nat)
    requires i <= |lines|
    ensures ShellScan(lines, i).layoutPattern == LayoutAfter(lines, i)
  {
    if i > 0 {
      ShellLayout(lines, i - 1);
      ShellSection(lines, i - 1);
      ShellLayoutStep(lines, i - 1, i);
    }
  }

  /** The shell spec in declarative terms: the raw text is the file's
      content, the overview is the items and prose of `overview` joined by
      spaces and trimmed, the navigation items are the items of
      `navigation`, and the layout pattern is the last prose line of
      `layout` ("" when there is none). */
  lemma ShellSpecOfSpec(content: string)
    ensures var lines := SplitLines(content);
      var spec := ShellSpecOf(content);
      var prose := ProseUnder(lines, |lines|, "layout", ShellDialect);
      && spec.raw == content
      && spec.overview == TrimSpaces(Join(OverviewParts(lines, |lines|), " "))
      && spec.navigationItems == ItemsUnder(lines, |lines|, "navigation")
      && spec.layoutPattern == if prose == [] then "" else prose[|prose| - 1]
  {
    var lines := SplitLines(content);
    ShellOverview(lines, |lines|);
    ShellNavigation(lines, |lines|);
    ShellLayout(lines, |lines|);
    TrimSpaceAccJoin(OverviewParts(lines, |lines|));
  }

  /** Lines before any `## ` line, or in a section other than `navigation`,
      `overview` and `layout`, change nothing until the next `## ` line. */
  lemma {:induction false} UnrecognisedLinesIgnored(lines: seq<string>, j: nat, i: nat)
    requires j <= i <= |lines|
    requires SectionAt(lines, j) !in {Some("navigation"), Some("overview"), Some("layout")}
    requires forall m :: j <= m < i ==> !IsHeading(lines[m])
    ensures ShellScan(lines, i) == ShellScan(lines, j)
  {
    if j < i {
      UnrecognisedLinesIgnored(lines, j, i - 1);
      ShellSection(lines, i - 1);
      SectionUnchanged(lines, j, i - 1);
      ShellStepIgnored(ShellScan(lines, i - 1), lines[i - 1]);
    }
  }

  /** A line that is not a `## ` line changes nothing in a section the
      loop does not recognise. */
  lemma ShellStepIgnored(st: ShellState, l: string)
    requires !IsHeading(l)
    requires st.section !in {Some("navigation"), Some("overview"), Some("layout")}
    ensures ShellStep(st, l) == st
  {
  }

  lemma {:induction false} SectionUnchanged(lines: seq<string>, j: nat, i: nat)
    requires j <= i <= |lines|
    requires forall m :: j <= m < i ==> !IsHeading(lines[m])
    ensures SectionAt(lines, i) == SectionAt(lines, j)
  {
    if j < i {
      SectionUnchanged(lines, j, i - 1);
    }
  }
}

=== FILE: task_flow_example.dfy ===
/** The TaskFlow example's `TaskManager`: one task array, updated in
    place. */
module TaskFlowExample {
  import opened Tasks

  const Day := 86400

  /** The three sample tasks, due relative to `now`; each task gets its
      own fresh project id. */
  function SampleTasks(now: int, ids: seq<int>, projectIds: seq<int>): (ts: seq<TaskItem>)
    requires |ids| == 3 && |projectIds| == 3
    ensures |ts| == 3
    ensures forall k :: 0 <= k < 3 ==> ts[k].id == ids[k] && ts[k].projectId == projectIds[k]
  {
    [ TaskItem(ids[0], "Design TaskFlow app", "Create task management app with SwiftUI", false, High, now + Day, projectIds[0]),
      TaskItem(ids[1], "Review pull requests", "Check and approve pending PRs", true, Medium, now + 2 * Day, projectIds[1]),
      TaskItem(ids[2], "Update documentation", "Add README and setup instructions", false, Low, now + 3 * Day, projectIds[2]) ]
  }

  /** The initial state holds three tasks, exactly one of them completed. */
  lemma SampleHasOneCompleted(now: int, ids: seq<int>, projectIds: seq<int>)
    requires |ids| == 3 && |projectIds| == 3
    ensures var ts := SampleTasks(now, ids, projectIds);
      |ts| == 3 && Count(ts, (t: TaskItem) => t.isCompleted) == 1
  {
    var ts := SampleTasks(now, ids, projectIds);
    var done := (t: TaskItem) => t.isCompleted;
    assert ts == [ts[0]] + [ts[1]] + [ts[2]];
    FilterAppend([ts[0]] + [ts[1]], [ts[2]], done);
    FilterAppend([ts[0]], [ts[1]], done);
  }

  class TaskManager {
    var tasks: seq<TaskItem>

    /** `init()`: loads the sample data; `now` stands for `Date()`. */
    constructor (now: int, ids: seq<int>, projectIds: seq<int>)
      requires |ids| == 3 && |projectIds| == 3
      ensures tasks == SampleTasks(now, ids, projectIds)
    {
      tasks := SampleTasks(now, ids, projectIds);
    }

    /** `addTask`: appends, so the count grows by one. */
    method AddTask(task: TaskItem)
      modifies this
      ensures tasks == old(tasks) + [task]
      ensures |tasks| == |old(tasks)| + 1
    {
      tasks := tasks + [task];
    }

    /** `updateTask`: replaces the first task with the same id; tasks at
        other positions are untouched, and with no match nothing changes. */
    method UpdateTask(task: TaskItem)
      modifies this
      ensures tasks == ReplaceFirst(old(tasks), task)
      ensures forall k :: 0 <= k < |tasks| && old(tasks)[k].id != task.id ==> tasks[k] == old(tasks)[k]
    {
      var index := FirstIndex(tasks, task.id);
      if index.Some? {
        tasks := tasks[index.value := task];
      }
    }

    /** `deleteTask(id:)`: removes every task with that id; the others keep
        their order. */
    method DeleteTask(id: int)
      modifies this
      ensures tasks == RemoveTask(old(tasks), id)
      ensures forall k :: 0 <= k < |tasks| ==> tasks[k].id != id
    {
      tasks := RemoveTask(tasks, id);
    }

    /** `toggleTaskCompletion(id:)`: flips the first task with that id;
        tasks at other positions are untouched. */
    method ToggleTaskCompletion(id: int)
      modifies this
      ensures tasks == ToggleFirst(old(tasks), id)
      ensures forall k :: 0 <= k < |tasks| && old(tasks)[k].id != id ==> tasks[k] == old(tasks)[k]
    {
      var index := FirstIndex(tasks, id);
      if index.Some? {
        var i := index.value;
        tasks := tasks[i := tasks[i].(isCompleted := !tasks[i].isCompleted)];
      }
    }
  }
}

=== FILE: task_flow_ios.dfy ===
/** The iOS TaskFlow app's `TaskManager`: the task and project arrays the
    app's screens share, updated in place. */
module TaskFlowIOS {
  import opened Wrappers
  import opened Tasks

  const Day := 86400

  /** The three sample projects, given the ids `UUID()` produced. */
  function SampleProjects(personal: int, work: int, home: int): (ps: seq<Project>)
    ensures |ps| == 3 && ps[0].id == personal && ps[1].id == work && ps[2].id == home
  {
    [ Project(personal, "Personal", Blue, "person.fill"),
      Project(work, "Work", Purple, "briefcase.fill"),
      Project(home, "Home", Green, "house.fill") ]
  }

  /** The six sample tasks, due relative to `now`, given the ids `UUID()`
      produced. */
  function SampleTasks(now: int, ids: seq<int>, personal: int, work: int, home: int): (ts: seq<TaskItem>)
    requires |ids| == 6
    ensures |ts| == 6
    ensures forall k :: 0 <= k < |ts| ==> ts[k].id == ids[k]
  {
    [ TaskItem(ids[0], "Review project proposal", "Go through the Q1 project proposal and provide feedback", false, High, now + Day, work),
      TaskItem(ids[1], "Buy groceries", "Milk, eggs, bread, vegetables", false, Medium, now + 2 * Day, home),
      TaskItem(ids[2], "Schedule dentist appointment", "Annual checkup", true, Low, now - Day, personal),
      TaskItem(ids[3], "Complete design system", "Finish color palette and typography definitions", false, High, now + Day / 2, work),
      TaskItem(ids[4], "Call mom", "Weekly check-in call", false, Medium, now + 3600, personal),
      TaskItem(ids[5], "Water plants", "Living room and bedroom plants", false, Low, now + 3 * Day, home) ]
  }

  /** Every sample task belongs to one of the sample projects: looking its
      project up finds a project with that id. */
  lemma SampleTasksHaveProjects(now: int, ids: seq<int>, personal: int, work: int, home: int)
    requires |ids| == 6
    ensures var ps := SampleProjects(personal, work, home);
      forall t :: t in SampleTasks(now, ids, personal, work, home) ==>
        FirstProject(ps, t.projectId).Some? && FirstProject(ps, t.projectId).value.id == t.projectId
  {
    var ps := SampleProjects(personal, work, home);
    forall t | t in SampleTasks(now, ids, personal, work, home)
      ensures FirstProject(ps, t.projectId).Some?
    {
      assert t.projectId in {personal, work, home};
      assert exists k :: 0 <= k < |ps| && ps[k].id == t.projectId;
    }
  }

  class TaskManager {
    var tasks: seq<TaskItem>
    var projects: seq<Project>

    /** `init()`: loads the sample data; `now` stands for `Date()`. */
    constructor (now: int, taskIds: seq<int>, personal: int, work: int, home: int)
      requires |taskIds| == 6
      ensures projects == SampleProjects(personal, work, home)
      ensures tasks == SampleTasks(now, taskIds, personal, work, home)
    {
      projects := SampleProjects(personal, work, home);
      tasks := SampleTasks(now, taskIds, personal, work, home);
    }

    /** `addTask`: appends; earlier tasks are unchanged. */
    method AddTask(task: TaskItem)
      modifies this
      ensures tasks == old(tasks) + [task]
      ensures projects == old(projects)
    {
      tasks := tasks + [task];
    }

    /** `toggleTask`: flips the completion of the first task with the same
        id; an unknown id changes nothing. */
    method ToggleTask(task: TaskItem)
      modifies this
      ensures tasks == ToggleFirst(old(tasks), task.id)
      ensures projects == old(projects)
    {
      var index := FirstIndex(tasks, task.id);
      if index.Some? {
        var i := index.value;
        tasks := tasks[i := tasks[i].(isCompleted := !tasks[i].isCompleted)];
      }
    }

    /** `deleteTask`: removes every task with that id, keeping the order of
        the rest. */
    method DeleteTask(task: TaskItem)
      modifies this
      ensures tasks == RemoveTask(old(tasks), task.id)
      ensures forall k :: 0 <= k < |tasks| ==> tasks[k].id != task.id
      ensures projects == old(projects)
    {
      tasks := RemoveTask(tasks, task.id);
    }

    /** `addProject`: appends; earlier projects are unchanged. */
    method AddProject(project: Project)
      modifies this
      ensures projects == old(projects) + [project]
      ensures tasks == old(tasks)
    {
      projects := projects + [project];
    }

    /** `deleteProject`: removes the project and, in cascade, its tasks, so
        no remaining task refers to it. */
    method DeleteProject(project: Project)
      modifies this
      ensures projects == RemoveProject(old(projects), project.id)
      ensures tasks == RemoveProjectTasks(old(tasks), project.id)
      ensures forall k :: 0 <= k < |tasks| ==> tasks[k].projectId != project.id
    {
      projects := RemoveProject(projects, project.id);
      tasks := RemoveProjectTasks(tasks, project.id);
    }

    /** `getProject(id:)`: the first project with the id, or `None`. */
    function GetProject(id: int): (p: Option<Project>)
      reads this
      ensures p.None? <==> forall k :: 0 <= k < |projects| ==> projects[k].id != id
      ensures p.Some? ==> p.value.id == id && p.value in projects
      ensures p.Some? ==> exists k :: 0 <= k < |projects| && projects[k] == p.value
                                      && forall m :: 0 <= m < k ==> projects[m].id != id
    {
      FirstProject(projects, id)
    }
  }
}

=== FILE: task_flow_macos.dfy ===
/** The macOS TaskFlow app's `TaskManager`: the task and project arrays
    the app's screens share, updated in place. */
module TaskFlowMacOS {
  import opened Wrappers
  import opened Tasks

  const Day := 86400

  /** The three sample projects, given the ids `UUID()` produced. */
  function SampleProjects(personal: int, work: int, home: int): (ps: seq<Project>)
    ensures |ps| == 3 && ps[0].id == personal && ps[1].id == work && ps[2].id == home
  {
    [ Project(personal, "Personal", Blue, "person.circle.fill"),
      Project(work, "Work", Purple, "briefcase.fill"),
      Project(home, "Home", Green, "house.fill") ]
  }

  /** The ten sample tasks, due relative to `now`, given the ids `UUID()`
      produced. */
  function SampleTasks(now: int, ids: seq<int>, personal: int, work: int, home: int): (ts: seq<TaskItem>)
    requires |ids| == 10
    ensures |ts| == 10
    ensures forall k :: 0 <= k < |ts| ==> ts[k].id == ids[k] && ts[k].projectId in {personal, work, home}
  {
    [ TaskItem(ids[0], "Review project proposal", "Go through Q1 project proposal and provide feedback", false, High, now + Day, work),
      TaskItem(ids[1], "Buy groceries", "Milk, eggs, bread, vegetables", false, Medium, now + 2 * Day, home),
      TaskItem(ids[2], "Schedule dentist appointment", "Annual checkup", true, Low, now - Day, personal),
      TaskItem(ids[3], "Complete design system", "Finish color palette and typography definitions", false, High, now + Day / 2, work),
      TaskItem(ids[4], "Call mom", "Weekly check-in call", false, Medium, now + 3600, personal),
      TaskItem(ids[5], "Water plants", "Living room and bedroom plants", false, Low, now + 3 * Day, home),
      TaskItem(ids[6], "Prepare presentation", "Create slides for Monday meeting", false, High, now + 3 * Day / 2, work),
      TaskItem(ids[7], "Book flights", "Summer vacation planning", false, Medium, now + 7 * Day, personal),
      TaskItem(ids[8], "Organize garage", "Weekend project", false, Low, now + 4 * Day, home),
      TaskItem(ids[9], "Update documentation", "API docs need refresh", true, High, now - 2 * Day, work) ]
  }

  class TaskManager {
    var tasks: seq<TaskItem>
    var projects: seq<Project>

    /** `init()`: loads the sample data; `now` stands for `Date()`. */
    constructor (now: int, taskIds: seq<int>, personal: int, work: int, home: int)
      requires |taskIds| == 10
      ensures projects == SampleProjects(personal, work, home)
      ensures tasks == SampleTasks(now, taskIds, personal, work, home)
    {
      projects := SampleProjects(personal, work, home);
      tasks := SampleTasks(now, taskIds, personal, work, home);
    }

    /** `addTask`: appends; earlier tasks are unchanged. */
    method AddTask(task: TaskItem)
      modifies this
      ensures tasks == old(tasks) + [task]
      ensures projects == old(projects)
    {
      tasks := tasks + [task];
    }

    /** `updateTask`: replaces the first task with the same id, if any. */
    method UpdateTask(task: TaskItem)
      modifies this
      ensures tasks == ReplaceFirst(old(tasks), task)
      ensures projects == old(projects)
    {
      var index := FirstIndex(tasks, task.id);
      if index.Some? {
        tasks := tasks[index.value := task];
      }
    }

    /** `toggleTask`: flips the completion of the first task with the same
        id, if any. */
    method ToggleTask(task: TaskItem)
      modifies this
      ensures tasks == ToggleFirst(old(tasks), task.id)
      ensures projects == old(projects)
    {
      var index := FirstIndex(tasks, task.id);
      if index.Some? {
        var i := index.value;
        tasks := tasks[i := tasks[i].(isCompleted := !tasks[i].isCompleted)];
      }
    }

    /** `deleteTask`: removes every task with that id. */
    method DeleteTask(task: TaskItem)
      modifies this
      ensures tasks == RemoveTask(old(tasks), task.id)
      ensures forall k :: 0 <= k < |tasks| ==> tasks[k].id != task.id
      ensures projects == old(projects)
    {
      tasks := RemoveTask(tasks, task.id);
    }

    /** `addProject`: appends. */
    method AddProject(project: Project)
      modifies this
      ensures projects == old(projects) + [project]
      ensures tasks == old(tasks)
    {
      projects := projects + [project];
    }

    /** `deleteProject`: removes the project and, in cascade, its tasks. */
    method DeleteProject(project: Project)
      modifies this
      ensures projects == RemoveProject(old(projects), project.id)
      ensures tasks == RemoveProjectTasks(old(tasks), project.id)
      ensures TasksForProject(tasks, project.id) == []
    {
      projects := RemoveProject(projects, project.id);
      tasks := RemoveProjectTasks(tasks, project.id);
      CascadeLeavesNoOrphans(old(tasks), project.id);
    }

    /** `getProject(id:)`: the first project with the id, or `None`. */
    function GetProject(id: int): (p: Option<Project>)
      reads this
      ensures p.None? <==> forall k :: 0 <= k < |projects| ==> projects[k].id != id
      ensures p.Some? ==> p.value.id == id && p.value in projects
      ensures p.Some? ==> exists k :: 0 <= k < |projects| && projects[k] == p.value
                                      && forall m :: 0 <= m < k ==> projects[m].id != id
    {
      FirstProject(projects, id)
    }

    /** `tasksForProject`: the project's tasks, each as often as stored. */
    function ProjectTasks(projectId: int): (r: seq<TaskItem>)
      reads this
      ensures forall k :: 0 <= k < |r| ==> r[k].projectId == projectId
      ensures forall t: TaskItem :: t.projectId == projectId ==> multiset(r)[t] == multiset(tasks)[t]
    {
      FilterMultiset(tasks, (t: TaskItem) => t.projectId == projectId);
      TasksForProject(tasks, projectId)
    }
  }
}

=== FILE: task_flow_watchos.dfy ===
/** The watchOS TaskFlow app's `TaskManager`, its projects' watch colours
    and the upcoming-task list.  Day boundaries come from `dayOf`, which
    maps a timestamp to its calendar day. */
module TaskFlowWatchOS {
  import opened Wrappers
  import opened Tasks

  /** The colours a watch project can carry, with their raw names. */
  datatype WatchColor = Blue | Purple | Green | Orange | Red | Pink | Cyan | Indigo | Yellow | Black | Gray

  /** A project as the watch app stores it: the colour and the watch
      colour are both kept. */
  datatype WatchProject = WatchProject(id: int, name: string, color: SystemColor, icon: string, watchColor: WatchColor)

  /** `rawValue`. */
  function Name(w: WatchColor): string {
    match w
    case Blue => "blue" case Purple => "purple" case Green => "green" case Orange => "orange"
    case Red => "red" case Pink => "pink" case Cyan => "cyan" case Indigo => "indigo"
    case Yellow => "yellow" case Black => "black" case Gray => "gray"
  }

  /** `WatchColor(rawValue:)`. */
  function FromName(name: string): (w: Option<WatchColor>)
    ensures w.Some? ==> Name(w.value) == name
  {
    if name == "blue" then Some(WatchColor.Blue) else if name == "purple" then Some(WatchColor.Purple)
    else if name == "green" then Some(WatchColor.Green) else if name == "orange" then Some(WatchColor.Orange)
    else if name == "red" then Some(WatchColor.Red) else if name == "pink" then Some(WatchColor.Pink)
    else if name == "cyan" then Some(WatchColor.Cyan) else if name == "indigo" then Some(WatchColor.Indigo)
    else if name == "yellow" then Some(WatchColor.Yellow) else if name == "black" then Some(WatchColor.Black)
    else if name == "gray" then Some(WatchColor.Gray) else None
  }

  /** Every raw name reads back as its colour. */
  lemma NameReadsBack(w: WatchColor)
    ensures FromName(Name(w)) == Some(w)
  {
    match w
    case Blue => case Purple => case Green => case Orange =>
    case Red => case Pink => case Cyan => case Indigo =>
    case Yellow => case Black => case Gray =>
  }

  /** Every raw name reads back as its colour, and only raw names are
      recognised. */
  lemma NameRoundTrip(w: WatchColor, name: string)
    ensures FromName(Name(w)) == Some(w)
    ensures FromName(name).Some? <==> exists v: WatchColor :: Name(v) == name
  {
    NameReadsBack(w);
    if exists v: WatchColor :: Name(v) == name {
      var v: WatchColor :| Name(v) == name;
      NameReadsBack(v);
    }
  }

  /** `mapToSystemColor`: one system colour per watch colour. */
  function MapToSystemColor(w: WatchColor): SystemColor {
    match w
    case Blue => SystemColor.Blue case Purple => SystemColor.Purple case Green => SystemColor.Green
    case Orange => SystemColor.Orange case Red => SystemColor.Red case Pink => SystemColor.Pink
    case Cyan => SystemColor.Cyan case Indigo => SystemColor.Indigo case Yellow => SystemColor.Yellow
    case Black => SystemColor.Black case Gray => SystemColor.Gray
  }

  /** `mapToWatchColor`: the eight colours it tests map across; any other
      colour, yellow, black and gray included, becomes blue. */
  function MapToWatchColor(c: SystemColor): WatchColor {
    if c == SystemColor.Blue then WatchColor.Blue
    else if c == SystemColor.Purple then WatchColor.Purple
    else if c == SystemColor.Green then WatchColor.Green
    else if c == SystemColor.Orange then WatchColor.Orange
    else if c == SystemColor.Red then WatchColor.Red
    else if c == SystemColor.Pink then WatchColor.Pink
    else if c == SystemColor.Cyan then WatchColor.Cyan
    else if c == SystemColor.Indigo then WatchColor.Indigo
    else WatchColor.Blue
  }

  /** The colours `mapToWatchColor` tests for. */
  predicate Mapped(c: SystemColor) {
    c in {SystemColor.Blue, SystemColor.Purple, SystemColor.Green, SystemColor.Orange,
          SystemColor.Red, SystemColor.Pink, SystemColor.Cyan, SystemColor.Indigo}
  }

  /** The two maps are inverse on the eight tested colours; every other
      system colour maps to blue, and the watch colours yellow, black and
      gray do not survive the trip back. */
  lemma ColorMaps(c: SystemColor, w: WatchColor)
    ensures Mapped(c) ==> MapToSystemColor(MapToWatchColor(c)) == c
    ensures !Mapped(c) ==> MapToWatchColor(c) == WatchColor.Blue
    ensures Mapped(MapToSystemColor(w)) ==> MapToWatchColor(MapToSystemColor(w)) == w
    ensures !Mapped(MapToSystemColor(w)) ==> w in {WatchColor.Yellow, WatchColor.Black, WatchColor.Gray} && MapToWatchColor(MapToSystemColor(w)) == WatchColor.Blue
  {
  }

  /** `Project.init(id:name:color:icon:)`: the watch colour is derived. */
  function NewProject(id: int, name: string, color: SystemColor, icon: string): WatchProject {
    WatchProject(id, name, color, icon, MapToWatchColor(color))
  }

  /** `Project.init(from:)`: a missing or unknown watch-colour name gives
      blue; a known one sets the watch colour and derives the colour. */
  function DecodeProject(id: int, name: string, icon: string, watchColorName: Option<string>): (p: WatchProject)
    ensures p.color == MapToSystemColor(p.watchColor)
    ensures (watchColorName.None? || FromName(watchColorName.value).None?) ==> p.watchColor == WatchColor.Blue && p.color == SystemColor.Blue
    ensures watchColorName.Some? && FromName(watchColorName.value).Some? ==> Name(p.watchColor) == watchColorName.value
  {
    if watchColorName.Some? then
      var w := FromName(watchColorName.value).GetOr(WatchColor.Blue);
      WatchProject(id, name, icon := icon, color := MapToSystemColor(w), watchColor := w)
    else
      WatchProject(id, name, SystemColor.Blue, icon, WatchColor.Blue)
  }

  /** `encode(to:)`'s watch-colour entry. */
  function EncodedWatchColor(p: WatchProject): string {
    Name(p.watchColor)
  }

  /** Decoding what was encoded keeps the watch colour; the colour becomes
      the one the watch colour stands for. */
  lemma ProjectRoundTrip(p: WatchProject)
    ensures var q := DecodeProject(p.id, p.name, p.icon, Some(EncodedWatchColor(p)));
      && q.watchColor == p.watchColor && q.color == MapToSystemColor(p.watchColor)
      && q.id == p.id && q.name == p.name && q.icon == p.icon
  {
    NameRoundTrip(p.watchColor, "");
  }

  const Day := 86400

  /** The three sample projects, given the ids `UUID()` produced. */
  function SampleProjects(personal: int, work: int, home: int): (ps: seq<WatchProject>)
    ensures |ps| == 3
  {
    [ NewProject(personal, "Personal", SystemColor.Blue, "person.circle.fill"),
      NewProject(work, "Work", SystemColor.Purple, "briefcase.fill"),
      NewProject(home, "Home", SystemColor.Green, "house.fill") ]
  }

  /** The six sample tasks, due relative to `now`. */
  function SampleTasks(now: int, ids: seq<int>, personal: int, work: int, home: int): (ts: seq<TaskItem>)
    requires |ids| == 6
    ensures |ts| == 6
  {
    [ TaskItem(ids[0], "Meeting", "Team standup at 10am", false, High, now, work),
      TaskItem(ids[1], "Groceries", "Buy milk and bread", false, Medium, now, home),
      TaskItem(ids[2], "Call Mom", "Weekly check-in", true, Low, now - 7200, personal),
      TaskItem(ids[3], "Dentist", "3pm appointment", false, High, now + Day / 2, personal),
      TaskItem(ids[4], "Workout", "30 min cardio", false, Medium, now + Day, personal),
      TaskItem(ids[5], "Read book", "Chapter 5", false, Low, now + 2 * Day, personal) ]
  }

  /** Not completed and due after the start of today. */
  predicate IsUpcoming(t: TaskItem, startOfToday: int) {
    t.dueDate > startOfToday && !t.isCompleted
  }

  /** `prefix(limit)`. */
  function Prefix<T>(s: seq<T>, limit: nat): (r: seq<T>)
    ensures |r| == if limit < |s| then limit else |s|
    ensures r == s[..|r|]
  {
    if limit < |s| then s[..limit] else s
  }

  const DefaultLimit := 10

  class TaskManager {
    var tasks: seq<TaskItem>
    var projects: seq<WatchProject>

    /** `init()`: loads the sample data; `now` stands for `Date()`. */
    constructor (now: int, taskIds: seq<int>, personal: int, work: int, home: int)
      requires |taskIds| == 6
      ensures projects == SampleProjects(personal, work, home)
      ensures tasks == SampleTasks(now, taskIds, personal, work, home)
    {
      projects := SampleProjects(personal, work, home);
      tasks := SampleTasks(now, taskIds, personal, work, home);
    }

    /** `addTask`: appends. */
    method AddTask(task: TaskItem)
      modifies this
      ensures tasks == old(tasks) + [task]
      ensures projects == old(projects)
    {
      tasks := tasks + [task];
    }

    /** `toggleTask`: flips the completion of the first task with the same
        id, if any. */
    method ToggleTask(task: TaskItem)
      modifies this
      ensures tasks == ToggleFirst(old(tasks), task.id)
      ensures projects == old(projects)
    {
      var index := FirstIndex(tasks, task.id);
      if index.Some? {
        var i := index.value;
        tasks := tasks[i := tasks[i].(isCompleted := !tasks[i].isCompleted)];
      }
    }

    /** `deleteTask`: removes every task with that id. */
    method DeleteTask(task: TaskItem)
      modifies this
      ensures tasks == RemoveTask(old(tasks), task.id)
      ensures forall k :: 0 <= k < |tasks| ==> tasks[k].id != task.id
      ensures projects == old(projects)
    {
      tasks := RemoveTask(tasks, task.id);
    }

    /** `addProject`: appends. */
    method AddProject(project: WatchProject)
      modifies this
      ensures projects == old(projects) + [project]
      ensures tasks == old(tasks)
    {
      projects := projects + [project];
    }

    /** `getProject(id:)`: the first project with the id, or `None`. */
    function GetProject(id: int): (p: Option<WatchProject>)
      reads this
      ensures p.None? <==> forall k :: 0 <= k < |projects| ==> projects[k].id != id
      ensures p.Some? ==> p.value.id == id && p.value in projects
      ensures p.Some? ==> exists k :: 0 <= k < |projects| && projects[k] == p.value
                                      && forall m :: 0 <= m < k ==> projects[m].id != id
    {
      match FirstWhere(projects, (p: WatchProject) => p.id == id)
      case None => None
      case Some(k) => Some(projects[k])
    }

    /** `tasksForDate`: the tasks due on the same day as `date`, in
        order. */
    function TasksForDate(date: int, dayOf: int -> int): (r: seq<TaskItem>)
      reads this
      ensures forall k :: 0 <= k < |r| ==> dayOf(r[k].dueDate) == dayOf(date)
      ensures forall t: TaskItem :: dayOf(t.dueDate) == dayOf(date) ==> multiset(r)[t] == multiset(tasks)[t]
    {
      FilterMultiset(tasks, (t: TaskItem) => dayOf(t.dueDate) == dayOf(date));
      Filter(tasks, (t: TaskItem) => dayOf(t.dueDate) == dayOf(date))
    }

    /** `upcomingTasks(limit:)`: at most `limit` upcoming tasks, ascending
        by due date, taken from the front of the full sorted list, so any
        upcoming task left out is due no earlier than every one shown.
        A negative limit makes `prefix` trap, hence the precondition. */
    function UpcomingTasks(startOfToday: int, limit: int): (r: seq<TaskItem>)
      reads this
      requires limit >= 0
      ensures |r| <= limit
      ensures |r| == if limit < Count(tasks, (t: TaskItem) => IsUpcoming(t, startOfToday)) then limit
                     else Count(tasks, (t: TaskItem) => IsUpcoming(t, startOfToday))
      ensures forall k :: 0 <= k < |r| ==> IsUpcoming(r[k], startOfToday) && r[k] in tasks
      ensures SortedByDue(r)
      ensures multiset(r) <= multiset(tasks)
      ensures forall t :: t in tasks && IsUpcoming(t, startOfToday) && multiset(r)[t] < multiset(tasks)[t] ==>
        forall k :: 0 <= k < |r| ==> r[k].dueDate <= t.dueDate
    {
      var full := SortByDue(Filter(tasks, (t: TaskItem) => IsUpcoming(t, startOfToday)));
      var r := Prefix(full, limit);
      UpcomingCounts(tasks, full, startOfToday);
      UpcomingPrefix(tasks, full, r, startOfToday);
      r
    }
  }

  /** The facts about a prefix of the sorted upcoming tasks that
      `UpcomingTasks` promises. */
  lemma UpcomingPrefix(tasks: seq<TaskItem>, full: seq<TaskItem>, r: seq<TaskItem>, startOfToday: int)
    requires SortedByDue(full)
    requires forall t :: multiset(full)[t] == if IsUpcoming(t, startOfToday) then multiset(tasks)[t] else 0
    requires |r| <= |full| && r == full[..|r|]
    ensures forall k :: 0 <= k < |r| ==> IsUpcoming(r[k], startOfToday) && r[k] in tasks
    ensures SortedByDue(r)
    ensures multiset(r) <= multiset(tasks)
    ensures forall t :: t in tasks && IsUpcoming(t, startOfToday) && multiset(r)[t] < multiset(tasks)[t] ==>
      forall k :: 0 <= k < |r| ==> r[k].dueDate <= t.dueDate
  {
    SortedPrefix(full, |r|);
    forall k | 0 <= k < |r|
      ensures IsUpcoming(r[k], startOfToday) && r[k] in tasks
    {
      assert r[k] in multiset(r);
      assert multiset(tasks)[r[k]] > 0;
    }
  }

  lemma UpcomingCounts(tasks: seq<TaskItem>, full: seq<TaskItem>, startOfToday: int)
    requires full == SortByDue(Filter(tasks, (t: TaskItem) => IsUpcoming(t, startOfToday)))
    ensures forall t :: multiset(full)[t] == if IsUpcoming(t, startOfToday) then multiset(tasks)[t] else 0
  {
    FilterMultiset(tasks, (t: TaskItem) => IsUpcoming(t, startOfToday));
  }

  /** A prefix of a list sorted by due date is sorted, and whatever it
      leaves out is due no earlier than anything it keeps. */
  lemma SortedPrefix(full: seq<TaskItem>, n: nat)
    requires SortedByDue(full) && n <= |full|
    ensures SortedByDue(full[..n])
    ensures multiset(full[..n]) <= multiset(full)
    ensures forall t :: multiset(full[..n])[t] < multiset(full)[t] ==>
      forall k :: 0 <= k < n ==> full[k].dueDate <= t.dueDate
  {
    var r, rest := full[..n], full[n..];
    assert full == r + rest;
    assert multiset(full) == multiset(r) + multiset(rest);
    forall t | multiset(r)[t] < multiset(full)[t]
      ensures forall k :: 0 <= k < n ==> full[k].dueDate <= t.dueDate
    {
      assert t in rest;
      var m :| 0 <= m < |rest| && rest[m] == t;
      assert full[n + m] == t;
    }
  }
}

=== FILE: task_rows.dfy ===
/** Rows of a task list: the ids behind a set of row offsets, and facts
    about removing tasks and about due-date-sorted lists that the list
    screens' delete handlers rely on. */
module TaskRows {
  import opened Wrappers
  import opened Tasks

  /** Counting each element as the multiset does decides membership. */
  lemma MultisetMembership(r: seq<TaskItem>, tasks: seq<TaskItem>, p: TaskItem -> bool)
    requires forall t :: multiset(r)[t] == if p(t) then multiset(tasks)[t] else 0
    ensures forall t :: t in r <==> t in tasks && p(t)
  {
    forall t ensures t in r <==> t in tasks && p(t) {
      assert t in r <==> multiset(r)[t] > 0;
      assert t in tasks <==> multiset(tasks)[t] > 0;
    }
  }

  /** The ids of the rows at `offsets`. */
  function RowIds(rows: seq<TaskItem>, offsets: seq<nat>): (ids: set<int>)
    requires forall k :: 0 <= k < |offsets| ==> offsets[k] < |rows|
    ensures |ids| <= |offsets|
  {
    if offsets == [] then {}
    else RowIds(rows, offsets[..|offsets| - 1]) + {rows[offsets[|offsets| - 1]].id}
  }

  /** An id is collected exactly when some offset's row carries it. */
  lemma {:induction false} RowIdsMembership(rows: seq<TaskItem>, offsets: seq<nat>, id: int)
    requires forall k :: 0 <= k < |offsets| ==> offsets[k] < |rows|
    ensures id in RowIds(rows, offsets) <==> exists k :: 0 <= k < |offsets| && rows[offsets[k]].id == id
    decreases |offsets|
  {
    if offsets != [] {
      var n := |offsets| - 1;
      var front := offsets[..n];
      RowIdsMembership(rows, front, id);
      if exists k :: 0 <= k < |offsets| && rows[offsets[k]].id == id {
        var k :| 0 <= k < |offsets| && rows[offsets[k]].id == id;
        if k < n {
          assert front[k] == offsets[k];
        }
      }
      if exists k :: 0 <= k < |front| && rows[front[k]].id == id {
        var k :| 0 <= k < |front| && rows[front[k]].id == id;
        assert offsets[k] == front[k];
      }
    }
  }

  /** Taking one more offset adds its row's id. */
  lemma RowIdsSnoc(rows: seq<TaskItem>, offsets: seq<nat>, i: nat)
    requires forall k :: 0 <= k < |offsets| ==> offsets[k] < |rows|
    requires i < |offsets|
    ensures RowIds(rows, offsets[..i + 1]) == RowIds(rows, offsets[..i]) + {rows[offsets[i]].id}
  {
    assert offsets[..i + 1][..i] == offsets[..i];
  }

  /** Removing the ids of the chosen rows leaves no task of a chosen row
      and keeps every other task as often as before. */
  lemma RemoveRowsSpec(tasks: seq<TaskItem>, rows: seq<TaskItem>, offsets: seq<nat>)
    requires forall k :: 0 <= k < |offsets| ==> offsets[k] < |rows|
    ensures var r := RemoveIds(tasks, RowIds(rows, offsets));
      && (forall k, m :: 0 <= k < |offsets| && 0 <= m < |r| ==> r[m].id != rows[offsets[k]].id)
      && (forall t: TaskItem :: (forall k :: 0 <= k < |offsets| ==> t.id != rows[offsets[k]].id) ==>
            multiset(r)[t] == multiset(tasks)[t])
  {
    var ids := RowIds(rows, offsets);
    var r := RemoveIds(tasks, ids);
    RemoveIdsSpec(tasks, ids);
    forall k, m | 0 <= k < |offsets| && 0 <= m < |r|
      ensures r[m].id != rows[offsets[k]].id
    {
      RowIdsMembership(rows, offsets, rows[offsets[k]].id);
    }
    forall t: TaskItem | forall k :: 0 <= k < |offsets| ==> t.id != rows[offsets[k]].id
      ensures multiset(r)[t] == multiset(tasks)[t]
    {
      RowIdsMembership(rows, offsets, t.id);
    }
  }

  /** Due dates strictly increasing along the list. */
  predicate DueAscending(tasks: seq<TaskItem>) {
    forall i, j :: 0 <= i < j < |tasks| ==> tasks[i].dueDate < tasks[j].dueDate
  }

  /** Removing the ids of rows 0 and 1 of three tasks with distinct ids
      leaves only the third. */
  lemma RemoveFirstTwoRows(a: TaskItem, b: TaskItem, c: TaskItem)
    requires a.id != b.id && b.id != c.id && a.id != c.id
    ensures RemoveIds([a, b, c], RowIds([a, b, c], [0, 1])) == [c]
  {
    var ids := RowIds([a, b, c], [0, 1]);
    var rows := [a, b, c];
    assert RowIds(rows, [0]) == {a.id} by {
      assert [0][..0] == [];
      assert RowIds(rows, [0]) == RowIds(rows, []) + {rows[0].id};
    }
    assert ids == {a.id, b.id} by {
      assert [0, 1][..1] == [0];
      assert RowIds(rows, [0, 1]) == RowIds(rows, [0]) + {rows[1].id};
    }
    assert a.id in ids && b.id in ids && c.id !in ids;
    assert [a, b, c][1..] == [b, c] && [b, c][1..] == [c] && [c][1..] == [];
    RemoveIdsHead([c], ids);
    assert RemoveIds([], ids) == [];
    assert RemoveIds([c], ids) == [c];
    RemoveIdsHead([b, c], ids);
    assert RemoveIds([b, c], ids) == [c];
    RemoveIdsHead([a, b, c], ids);
  }

  /** Removing the first of three tasks with distinct ids. */
  lemma RemoveFromThree(a: TaskItem, b: TaskItem, c: TaskItem)
    requires a.id != b.id && b.id != c.id && a.id != c.id
    ensures RemoveTask([a, b, c], a.id) == [b, c]
  {
    assert [a, b, c][1..] == [b, c] && [b, c][1..] == [c] && [c][1..] == [];
    RemoveStep([a, b, c], a.id);
    RemoveStep([b, c], a.id);
    RemoveStep([c], a.id);
  }

  // ---------------------------------------------------------------------
  // The delete loop as the list screens write it

  /** Each offset is looked up in `view` of the tasks as they are after the
      deletions before it, and the task found there is deleted by id;
      `None` stands for the trap of an offset past the end of the list. */
  function DeleteAsWritten(tasks: seq<TaskItem>, offsets: seq<nat>, view: seq<TaskItem> -> seq<TaskItem>)
    : (r: Option<seq<TaskItem>>)
    ensures r.Some? ==> |r.value| <= |tasks|
    ensures offsets == [] ==> r == Some(tasks)
    decreases |offsets|
  {
    if offsets == [] then Some(tasks)
    else
      var shown := view(tasks);
      if offsets[0] < |shown| then
        DeleteAsWritten(RemoveTask(tasks, shown[offsets[0]].id), offsets[1..], view)
      else None
  }

  /** Rows 0 and 1 of three rows shown as stored: once the first task is
      gone the third one sits at offset 1, so the first and the third task
      are deleted and the second one stays. */
  lemma DeleteAsWrittenFirstAndThird(a: TaskItem, b: TaskItem, c: TaskItem, view: seq<TaskItem> -> seq<TaskItem>)
    requires a.id != b.id && b.id != c.id && a.id != c.id
    requires view([a, b, c]) == [a, b, c] && view([b, c]) == [b, c]
    ensures DeleteAsWritten([a, b, c], [0, 1], view) == Some([b])
  {
    RemoveFromThree(a, b, c);
    assert RemoveTask([b, c], c.id) == [b] by {
      assert [b, c][1..] == [c] && [c][1..] == [];
      RemoveStep([b, c], c.id);
      RemoveStep([c], c.id);
    }
    assert [0, 1][1..] == [1] && [1][1..] == [];
  }

  /** Rows 0 and 1 of two rows shown as stored: once the first task is
      gone only one row is left, and offset 1 is past its end. */
  lemma DeleteAsWrittenTrap(a: TaskItem, b: TaskItem, view: seq<TaskItem> -> seq<TaskItem>)
    requires a.id != b.id
    requires view([a, b]) == [a, b] && view([b]) == [b]
    ensures DeleteAsWritten([a, b], [0, 1], view) == None
  {
    assert RemoveTask([a, b], a.id) == [b] by {
      assert [a, b][1..] == [b] && [b][1..] == [];
      RemoveStep([a, b], a.id);
      RemoveStep([b], a.id);
    }
    assert [0, 1][1..] == [1];
  }

  /** Removing by id, one element at a time. */
  lemma RemoveStep(tasks: seq<TaskItem>, id: int)
    requires tasks != []
    ensures RemoveTask(tasks, id) == (if tasks[0].id != id then [tasks[0]] else []) + RemoveTask(tasks[1..], id)
  {
  }

  lemma RemoveIdsHead(tasks: seq<TaskItem>, ids: set<int>)
    requires tasks != []
    ensures RemoveIds(tasks, ids) == (if tasks[0].id !in ids then [tasks[0]] else []) + RemoveIds(tasks[1..], ids)
  {
  }

  /** Two due-date-sorted lists with the same elements, one with distinct
      due dates, are equal. */
  lemma {:induction false} SortedUnique(r: seq<TaskItem>, s: seq<TaskItem>)
    requires SortedByDue(r) && DueAscending(s) && multiset(r) == multiset(s)
    ensures r == s
    decreases |s|
  {
    assert |r| == |s| by { assert |multiset(r)| == |multiset(s)|; }
    if s != [] {
      SameHead(r, s);
      SortedTail(r);
      AscendingTail(s);
      assert multiset(r[1..]) == multiset(s[1..]) by {
        assert r == [r[0]] + r[1..];
        assert s == [s[0]] + s[1..];
        assert multiset(r) == multiset{r[0]} + multiset(r[1..]);
        assert multiset(s) == multiset{s[0]} + multiset(s[1..]);
        assert multiset(r[1..]) == multiset(r) - multiset{r[0]};
        assert multiset(s[1..]) == multiset(s) - multiset{s[0]};
      }
      SortedUnique(r[1..], s[1..]);
      assert r == [r[0]] + r[1..];
      assert s == [s[0]] + s[1..];
    }
  }

  /** The smallest element leads both lists. */
  lemma SameHead(r: seq<TaskItem>, s: seq<TaskItem>)
    requires SortedByDue(r) && DueAscending(s) && multiset(r) == multiset(s)
    requires r != [] && s != []
    ensures r[0] == s[0]
  {
    assert r[0] in multiset(s);
    assert s[0] in multiset(r);
    var i :| 0 <= i < |s| && s[i] == r[0];
    var j :| 0 <= j < |r| && r[j] == s[0];
    assert r[0].dueDate <= s[0].dueDate;
    assert forall k :: 0 < k < |s| ==> s[0].dueDate < s[k].dueDate;
  }

  lemma AscendingTail(s: seq<TaskItem>)
    requires DueAscending(s) && s != []
    ensures DueAscending(s[1..])
  {
    forall i, j | 0 <= i < j < |s| - 1
      ensures s[1..][i].dueDate < s[1..][j].dueDate
    {
      assert s[1..][i] == s[i + 1] && s[1..][j] == s[j + 1];
    }
  }
}

=== FILE: tasks.dfy ===
/** The task and project records of the TaskFlow example apps, and the
    sequence operations their task stores and list screens are built from.
    Ids (UUIDs in the apps) are integers; dates are integer timestamps in
    seconds. */
module Tasks {
  import opened Wrappers

  datatype Priority = High | Medium | Low

  datatype TaskItem = TaskItem(
    id: int,
    title: string,
    description: string,
    isCompleted: bool,
    priority: Priority,
    dueDate: int,
    projectId: int)

  /** The named system colours the apps give projects; `Other` stands for
      any colour not among them. */
  datatype SystemColor = Blue | Purple | Green | Orange | Red | Pink | Cyan | Indigo | Yellow | Black | Gray | Other

  datatype Project = Project(id: int, name: string, color: SystemColor, icon: string)

  // ---------------------------------------------------------------------
  // Filtering

  /** `s.filter(p)`: the elements satisfying `p`, in order (what it keeps,
      counted with multiplicity, is `FilterMultiset`). */
  function Filter<T(==,!new)>(s: seq<T>, p: T -> bool): (r: seq<T>)
    ensures |r| <= |s|
    ensures forall k :: 0 <= k < |r| ==> p(r[k])
  {
    if s == [] then []
    else
      var rest := Filter(s[1..], p);
      if p(s[0]) then [s[0]] + rest else rest
  }

  /** The filter keeps every element satisfying `p` as often as `s` holds
      it, and nothing else. */
  lemma {:induction false} FilterMultiset<T(!new)>(s: seq<T>, p: T -> bool)
    ensures forall x :: multiset(Filter(s, p))[x] == if p(x) then multiset(s)[x] else 0
  {
    if s != [] {
      FilterMultiset(s[1..], p);
      assert s == [s[0]] + s[1..];
      FilterCons(s, p);
    }
  }

  /** Filtering works piece by piece, so it keeps the original order. */
  lemma {:induction false} FilterAppend<T(!new)>(a: seq<T>, b: seq<T>, p: T -> bool)
    ensures Filter(a + b, p) == Filter(a, p) + Filter(b, p)
  {
    if a == [] {
      assert a + b == b;
    } else {
      var h := if p(a[0]) then [a[0]] else [];
      calc {
        Filter(a + b, p);
      == { FilterCons(a + b, p); assert (a + b)[0] == a[0]; assert (a + b)[1..] == a[1..] + b; }
        h + Filter(a[1..] + b, p);
      == { FilterAppend(a[1..], b, p); }
        h + (Filter(a[1..], p) + Filter(b, p));
      ==
        (h + Filter(a[1..], p)) + Filter(b, p);
      == { FilterCons(a, p); }
        Filter(a, p) + Filter(b, p);
      }
    }
  }

  /** One step of the filter: the head, if kept, then the filtered tail. */
  lemma FilterCons<T(!new)>(s: seq<T>, p: T -> bool)
    requires s != []
    ensures Filter(s, p) == (if p(s[0]) then [s[0]] else []) + Filter(s[1..], p)
  {
  }

  /** Filtering by `p` then by `q` keeps what satisfies both. */
  lemma {:induction false} FilterFilter<T(!new)>(s: seq<T>, p: T -> bool, q: T -> bool)
    ensures Filter(Filter(s, p), q) == Filter(s, x => p(x) && q(x))
  {
    if s != [] {
      FilterFilter(s[1..], p, q);
    }
  }

  /** An element is kept exactly when it is in `s` and satisfies `p`. */
  lemma FilterMembership<T(!new)>(s: seq<T>, p: T -> bool, x: T)
    ensures x in Filter(s, p) <==> x in s && p(x)
  {
    assert x in Filter(s, p) <==> multiset(Filter(s, p))[x] > 0;
    assert x in s <==> multiset(s)[x] > 0;
  }

  /** `s.filter(p).count`. */
  function Count<T(==,!new)>(s: seq<T>, p: T -> bool): (n: nat)
    ensures n <= |s|
  {
    |Filter(s, p)|
  }

  // ---------------------------------------------------------------------
  // Sorting by due date

  predicate SortedByDue(s: seq<TaskItem>) {
    forall i, j :: 0 <= i < j < |s| ==> s[i].dueDate <= s[j].dueDate
  }

  /** `t` inserted before the first task not due before it. */
  function InsertByDue(t: TaskItem, s: seq<TaskItem>): (r: seq<TaskItem>)
    requires SortedByDue(s)
    ensures SortedByDue(r)
    ensures multiset(r) == multiset(s) + multiset{t}
    ensures |r| == |s| + 1
    ensures r[0] == t || (s != [] && r[0] == s[0])
  {
    if s == [] || t.dueDate <= s[0].dueDate then
      SortedCons(t, s);
      [t] + s
    else
      assert s == [s[0]] + s[1..];
      SortedTail(s);
      var rest := InsertByDue(t, s[1..]);
      SortedCons(s[0], rest);
      assert multiset([s[0]] + rest) == multiset{s[0]} + multiset(rest);
      [s[0]] + rest
  }

  /** The tail of a sorted list is sorted. */
  lemma SortedTail(r: seq<TaskItem>)
    requires SortedByDue(r) && r != []
    ensures SortedByDue(r[1..])
  {
    forall i, j | 0 <= i < j < |r| - 1
      ensures r[1..][i].dueDate <= r[1..][j].dueDate
    {
      assert r[1..][i] == r[i + 1] && r[1..][j] == r[j + 1];
    }
  }

  /** A task due no later than the head of a sorted list can go in front. */
  lemma SortedCons(x: TaskItem, r: seq<TaskItem>)
    requires SortedByDue(r)
    requires r == [] || x.dueDate <= r[0].dueDate
    ensures SortedByDue([x] + r)
  {
    var s := [x] + r;
    forall i, j | 0 <= i < j < |s| ensures s[i].dueDate <= s[j].dueDate {
      if i == 0 {
        assert s[j] == r[j - 1];
      } else {
        assert s[i] == r[i - 1] && s[j] == r[j - 1];
      }
    }
  }

  /** `sorted { $0.dueDate < $1.dueDate }`, as an insertion sort: the model
      claims sortedness and permutation only, since the library sort does
      not promise how equal due dates are ordered. */
  function SortByDue(s: seq<TaskItem>): (r: seq<TaskItem>)
    ensures SortedByDue(r)
    ensures multiset(r) == multiset(s)
    ensures |r| == |s|
  {
    if s == [] then []
    else
      assert s == [s[0]] + s[1..];
      InsertByDue(s[0], SortByDue(s[1..]))
  }

  // ---------------------------------------------------------------------
  // First match by id

  /** `s.firstIndex(where: p)`. */
  function FirstWhere<T>(s: seq<T>, p: T -> bool): (r: Option<nat>)
    ensures r.Some? ==> r.value < |s| && p(s[r.value])
    ensures r.Some? ==> forall k :: 0 <= k < r.value ==> !p(s[k])
    ensures r.None? <==> forall k :: 0 <= k < |s| ==> !p(s[k])
  {
    if s == [] then None
    else if p(s[0]) then Some(0)
    else
      match FirstWhere(s[1..], p)
      case None => None
      case Some(k) => Some(k + 1)
  }

  /** `tasks.firstIndex(where: { $0.id == id })`. */
  function FirstIndex(tasks: seq<TaskItem>, id: int): (r: Option<nat>)
    ensures r.Some? ==> r.value < |tasks| && tasks[r.value].id == id
    ensures r.Some? ==> forall k :: 0 <= k < r.value ==> tasks[k].id != id
    ensures r.None? <==> forall k :: 0 <= k < |tasks| ==> tasks[k].id != id
  {
    FirstWhere(tasks, (t: TaskItem) => t.id == id)
  }

  /** `projects.first { $0.id == id }`. */
  function FirstProject(projects: seq<Project>, id: int): (r: Option<Project>)
    ensures r.None? <==> forall k :: 0 <= k < |projects| ==> projects[k].id != id
    ensures r.Some? ==> exists k :: && 0 <= k < |projects| && projects[k] == r.value && r.value.id == id
                                    && forall m :: 0 <= m < k ==> projects[m].id != id
  {
    match FirstWhere(projects, (p: Project) => p.id == id)
    case None => None
    case Some(k) => Some(projects[k])
  }

  /** `tasks[index] = task` at the first task with `task`'s id, if any. */
  function ReplaceFirst(tasks: seq<TaskItem>, task: TaskItem): (r: seq<TaskItem>)
    ensures |r| == |tasks|
  {
    match FirstIndex(tasks, task.id)
    case None => tasks
    case Some(i) => tasks[i := task]
  }

  /** `tasks[index].isCompleted.toggle()` at the first task with that id,
      if any. */
  function ToggleFirst(tasks: seq<TaskItem>, id: int): (r: seq<TaskItem>)
    ensures |r| == |tasks|
  {
    match FirstIndex(tasks, id)
    case None => tasks
    case Some(i) => tasks[i := tasks[i].(isCompleted := !tasks[i].isCompleted)]
  }

  /** Replacing touches only the first task with the id: with no match
      nothing changes; otherwise that task becomes the new one, which the
      id now finds, and every other position is as before. */
  lemma ReplaceFirstSpec(tasks: seq<TaskItem>, task: TaskItem)
    ensures var r := ReplaceFirst(tasks, task);
      && ((forall k :: 0 <= k < |tasks| ==> tasks[k].id != task.id) ==> r == tasks)
      && (FirstIndex(tasks, task.id).Some? ==>
            var i := FirstIndex(tasks, task.id).value;
            && r[i] == task
            && FirstIndex(r, task.id) == Some(i)
            && forall k :: 0 <= k < |tasks| && k != i ==> r[k] == tasks[k])
  {
    var r := ReplaceFirst(tasks, task);
    if FirstIndex(tasks, task.id).Some? {
      var i := FirstIndex(tasks, task.id).value;
      FirstIndexAt(r, task.id, i);
    }
  }

  /** Index `i` is the first one holding `id`. */
  lemma FirstIndexAt(tasks: seq<TaskItem>, id: int, i: nat)
    requires i < |tasks| && tasks[i].id == id
    requires forall k :: 0 <= k < i ==> tasks[k].id != id
    ensures FirstIndex(tasks, id) == Some(i)
  {
  }

  /** Toggling flips the completion of the first task with the id and
      nothing else; an unknown id changes nothing. */
  lemma ToggleFirstSpec(tasks: seq<TaskItem>, id: int)
    ensures var r := ToggleFirst(tasks, id);
      && ((forall k :: 0 <= k < |tasks| ==> tasks[k].id != id) ==> r == tasks)
      && (FirstIndex(tasks, id).Some? ==>
            var i := FirstIndex(tasks, id).value;
            && r[i] == tasks[i].(isCompleted := !tasks[i].isCompleted)
            && forall k :: 0 <= k < |tasks| && k != i ==> r[k] == tasks[k])
  {
  }

  /** Toggling the same id twice restores the tasks. */
  lemma ToggleTwice(tasks: seq<TaskItem>, id: int)
    ensures ToggleFirst(ToggleFirst(tasks, id), id) == tasks
  {
    var r := ToggleFirst(tasks, id);
    if FirstIndex(tasks, id).Some? {
      var i := FirstIndex(tasks, id).value;
      FirstIndexAt(r, id, i);
      assert r[i := r[i].(isCompleted := !r[i].isCompleted)] == tasks;
    }
  }

  // ---------------------------------------------------------------------
  // Removal

  /** `tasks.removeAll { $0.id == id }`. */
  function RemoveTask(tasks: seq<TaskItem>, id: int): seq<TaskItem> {
    Filter(tasks, (t: TaskItem) => t.id != id)
  }

  /** `tasks.removeAll { $0.projectId == projectId }`. */
  function RemoveProjectTasks(tasks: seq<TaskItem>, projectId: int): seq<TaskItem> {
    Filter(tasks, (t: TaskItem) => t.projectId != projectId)
  }

  /** `projects.removeAll { $0.id == id }`. */
  function RemoveProject(projects: seq<Project>, id: int): seq<Project> {
    Filter(projects, (p: Project) => p.id != id)
  }

  /** `tasks.filter { $0.projectId == projectId }`. */
  function TasksForProject(tasks: seq<TaskItem>, projectId: int): seq<TaskItem> {
    Filter(tasks, (t: TaskItem) => t.projectId == projectId)
  }

  /** The tasks whose id is not in `ids`, in order. */
  function RemoveIds(tasks: seq<TaskItem>, ids: set<int>): seq<TaskItem> {
    Filter(tasks, (t: TaskItem) => t.id !in ids)
  }

  /** Removing no id keeps everything. */
  lemma {:induction false} RemoveNoIds(tasks: seq<TaskItem>)
    ensures RemoveIds(tasks, {}) == tasks
  {
    if tasks != [] {
      RemoveNoIds(tasks[1..]);
    }
  }

  /** Removing one more id after a set of them removes the enlarged set. */
  lemma {:induction false} RemoveIdsStep(tasks: seq<TaskItem>, ids: set<int>, id: int)
    ensures RemoveTask(RemoveIds(tasks, ids), id) == RemoveIds(tasks, ids + {id})
  {
    if tasks != [] {
      RemoveIdsStep(tasks[1..], ids, id);
    }
  }

  /** Removing a set of ids removes exactly the tasks carrying them and
      keeps every other task as often as before. */
  lemma RemoveIdsSpec(tasks: seq<TaskItem>, ids: set<int>)
    ensures var r := RemoveIds(tasks, ids);
      && (forall k :: 0 <= k < |r| ==> r[k].id !in ids)
      && (forall t: TaskItem :: t.id !in ids ==> multiset(r)[t] == multiset(tasks)[t])
  {
    FilterMultiset(tasks, (t: TaskItem) => t.id !in ids);
  }

  /** Removing by id leaves no task with that id and keeps every other
      task, as often as before, in order. */
  lemma RemoveTaskSpec(tasks: seq<TaskItem>, id: int)
    ensures var r := RemoveTask(tasks, id);
      && (forall k :: 0 <= k < |r| ==> r[k].id != id)
      && (forall t: TaskItem :: t.id != id ==> multiset(r)[t] == multiset(tasks)[t])
      && |r| == |tasks| - Count(tasks, (t: TaskItem) => t.id == id)
  {
    FilterMultiset(tasks, (t: TaskItem) => t.id != id);
    RemovedCount(tasks, id);
  }

  lemma {:induction false} RemovedCount(tasks: seq<TaskItem>, id: int)
    ensures |RemoveTask(tasks, id)| + Count(tasks, (t: TaskItem) => t.id == id) == |tasks|
  {
    if tasks != [] {
      RemovedCount(tasks[1..], id);
    }
  }

  /** After the cascade no task refers to the project: its task list is
      empty, and the tasks of other projects are kept. */
  lemma CascadeLeavesNoOrphans(tasks: seq<TaskItem>, projectId: int)
    ensures TasksForProject(RemoveProjectTasks(tasks, projectId), projectId) == []
    ensures forall t: TaskItem :: t.projectId != projectId ==>
      multiset(RemoveProjectTasks(tasks, projectId))[t] == multiset(tasks)[t]
  {
    var kept := RemoveProjectTasks(tasks, projectId);
    FilterMultiset(tasks, (t: TaskItem) => t.projectId != projectId);
    var orphans := TasksForProject(kept, projectId);
    FilterMultiset(kept, (t: TaskItem) => t.projectId == projectId);
    assert multiset(orphans) == multiset{};
  }
}

=== FILE: text.dfy ===
/** Character classes and string operations of Foundation that the loaders
    and views rely on: trimming, lower-casing, prefix tests, splitting into
    lines, joining, substring search and replacement.  A Swift `Character`
    is modelled as one Dafny `char`. */
module Text {

  /** Foundation's `CharacterSet.whitespaces`: tab and the Unicode space
      separators (general category Zs). */
  predicate IsSpace(c: char) {
    c == ' ' || c == '\t' || c == '\U{00A0}' || c == '\U{1680}'
    || ('\U{2000}' <= c <= '\U{200A}') || c == '\U{202F}' || c == '\U{205F}' || c == '\U{3000}'
  }

  /** Foundation's `CharacterSet.newlines`: U+000A to U+000D, U+0085, U+2028
      and U+2029. */
  predicate IsNewline(c: char) {
    ('\n' <= c <= '\r') || c == '\U{0085}' || c == '\U{2028}' || c == '\U{2029}'
  }

  /** The characters a trim removes: `.whitespaces`, or
      `.whitespacesAndNewlines` when `newlines` holds. */
  predicate Trimmable(c: char, newlines: bool) {
    IsSpace(c) || (newlines && IsNewline(c))
  }

  /** Drops the leading trimmable characters of `s`. */
  function TrimStart(s: string, newlines: bool): string
    decreases |s|
  {
    if s != [] && Trimmable(s[0], newlines) then TrimStart(s[1..], newlines) else s
  }

  /** Drops the trailing trimmable characters of `s`. */
  function TrimEnd(s: string, newlines: bool): string
    decreases |s|
  {
    if s != [] && Trimmable(s[|s| - 1], newlines) then TrimEnd(s[..|s| - 1], newlines) else s
  }

  /** `TrimStart` keeps a suffix of `s` that is empty or starts with a kept
      character, and everything it drops is trimmable. */
  lemma {:induction false} TrimStartSpec(s: string, newlines: bool)
    ensures var r := TrimStart(s, newlines);
      && |r| <= |s| && r == s[|s| - |r|..]
      && (r == [] || !Trimmable(r[0], newlines))
      && (forall k :: 0 <= k < |s| - |r| ==> Trimmable(s[k], newlines))
    decreases |s|
  {
    if s != [] && Trimmable(s[0], newlines) {
      TrimStartSpec(s[1..], newlines);
      var r := TrimStart(s, newlines);
      assert r == TrimStart(s[1..], newlines);
      assert forall k :: 1 <= k < |s| - |r| ==> s[k] == s[1..][k - 1];
    }
  }

  /** `TrimEnd` keeps a prefix of `s` that is empty or ends with a kept
      character, and everything it drops is trimmable. */
  lemma {:induction false} TrimEndSpec(s: string, newlines: bool)
    ensures var r := TrimEnd(s, newlines);
      && |r| <= |s| && r == s[..|r|]
      && (r == [] || !Trimmable(r[|r| - 1], newlines))
      && (forall k :: |r| <= k < |s| ==> Trimmable(s[k], newlines))
    decreases |s|
  {
    if s != [] && Trimmable(s[|s| - 1], newlines) {
      TrimEndSpec(s[..|s| - 1], newlines);
    }
  }

  /** `trimmingCharacters(in:)` with `.whitespaces` (`newlines` false) or
      `.whitespacesAndNewlines` (`newlines` true). */
  function Trim(s: string, newlines: bool): string {
    TrimEnd(TrimStart(s, newlines), newlines)
  }

  /** A trim keeps a contiguous part of `s` whose ends are not trimmable,
      and drops only trimmable characters on either side. */
  lemma TrimSpec(s: string, newlines: bool)
    ensures var r := Trim(s, newlines);
      && |r| <= |s|
      && (r == [] || (!Trimmable(r[0], newlines) && !Trimmable(r[|r| - 1], newlines)))
      && (r == [] <==> forall k :: 0 <= k < |s| ==> Trimmable(s[k], newlines))
  {
    var t := TrimStart(s, newlines);
    TrimStartSpec(s, newlines);
    TrimEndSpec(t, newlines);
    var r := Trim(s, newlines);
    if r != [] {
      assert r[0] == t[0];
    } else {
      assert t == [];
    }
  }

  function TrimSpaces(s: string): string { Trim(s, false) }

  function TrimSpacesNewlines(s: string): string { Trim(s, true) }

  /** A non-empty string that neither starts nor ends with a space: what a
      trim leaves of a line that is not blank. */
  predicate Tight(s: string) {
    s != [] && !IsSpace(s[0]) && !IsSpace(s[|s| - 1])
  }

  lemma TrimmedIsTight(s: string, newlines: bool)
    requires Trim(s, newlines) != []
    ensures Tight(Trim(s, newlines))
  {
    TrimSpec(s, newlines);
  }

  /** Trimming a tight string changes nothing. */
  lemma TrimTight(s: string)
    requires Tight(s)
    ensures TrimSpaces(s) == s
  {
    assert TrimStart(s, false) == s;
  }

  /** A leading space never survives a trim. */
  lemma TrimLeadingSpace(s: string, newlines: bool)
    ensures Trim(" " + s, newlines) == Trim(s, newlines)
  {
    assert (" " + s)[1..] == s;
  }

  /** ASCII lower-casing of one character. */
  function LowerChar(c: char): char {
    if 'A' <= c <= 'Z' then (c as int + 32) as char else c
  }

  /** `lowercased()`, restricted to the ASCII letters. */
  function Lower(s: string): (r: string)
    ensures |r| == |s|
    ensures forall k :: 0 <= k < |s| ==> r[k] == LowerChar(s[k])
  {
    seq(|s|, k requires 0 <= k < |s| => LowerChar(s[k]))
  }

  predicate HasPrefix(s: string, p: string) {
    |p| <= |s| && s[..|p|] == p
  }

  predicate HasSuffix(s: string, p: string) {
    |p| <= |s| && s[|s| - |p|..] == p
  }

  /** `s` contains `p` as a contiguous substring. */
  predicate ContainsSub(s: string, p: string)
    decreases |s|
  {
    HasPrefix(s, p) || (s != [] && ContainsSub(s[1..], p))
  }

  /** A substring found at a given position is contained. */
  lemma {:induction false} ContainsAt(s: string, p: string, k: nat)
    requires k + |p| <= |s| && s[k..k + |p|] == p
    ensures ContainsSub(s, p)
    decreases k
  {
    if k > 0 {
      assert s[1..][k - 1..k - 1 + |p|] == s[k..k + |p|];
      ContainsAt(s[1..], p, k - 1);
    } else {
      assert s[..|p|] == p;
    }
  }

  /** `p` occurs in `s` at position `k`. */
  predicate OccursAt(s: string, p: string, k: nat) {
    k + |p| <= |s| && s[k..k + |p|] == p
  }

  /** `ContainsSub` finds `p` exactly when it occurs at some position. */
  lemma {:induction false} ContainsSubIff(s: string, p: string)
    ensures ContainsSub(s, p) <==> exists k: nat :: OccursAt(s, p, k)
    decreases |s|
  {
    if exists k: nat :: OccursAt(s, p, k) {
      var k: nat :| OccursAt(s, p, k);
      ContainsAt(s, p, k);
    }
    if ContainsSub(s, p) {
      if HasPrefix(s, p) {
        assert OccursAt(s, p, 0);
      } else {
        ContainsSubIff(s[1..], p);
        var k: nat :| OccursAt(s[1..], p, k);
        assert s[k + 1..k + 1 + |p|] == s[1..][k..k + |p|];
        assert OccursAt(s, p, k + 1);
      }
    }
  }

  /** `localizedCaseInsensitiveContains`, with ASCII case folding.  Like
      Foundation's, it finds nothing for an empty search text. */
  predicate ContainsIgnoringCase(s: string, p: string) {
    p != [] && ContainsSub(Lower(s), Lower(p))
  }

  /** A text without upper-case letters is its own lower-case form. */
  lemma LowerFixed(s: string)
    requires forall k :: 0 <= k < |s| ==> !('A' <= s[k] <= 'Z')
    ensures Lower(s) == s
  {
    assert forall k :: 0 <= k < |s| ==> Lower(s)[k] == s[k];
  }

  lemma LowerIdempotent(s: string)
    ensures Lower(Lower(s)) == Lower(s)
  {
    assert forall k :: 0 <= k < |s| ==> Lower(Lower(s))[k] == Lower(s)[k];
  }

  /** The case of the search text does not matter. */
  lemma NeedleCaseIgnored(s: string, p: string)
    ensures ContainsIgnoringCase(s, p) == ContainsIgnoringCase(s, Lower(p))
  {
    LowerIdempotent(p);
  }

  /** `replacingOccurrences(of: pat, with: rep)`: every non-overlapping
      occurrence of `pat`, found left to right, is replaced. */
  function ReplaceAll(s: string, pat: string, rep: string): string
    requires pat != []
    decreases |s|
  {
    if |s| < |pat| then s
    else if s[..|pat|] == pat then rep + ReplaceAll(s[|pat|..], pat, rep)
    else [s[0]] + ReplaceAll(s[1..], pat, rep)
  }

  /** A prefix that does not contain the pattern's first character passes
      through a replacement untouched. */
  lemma {:induction false} ReplaceAllSkipsPrefix(t: string, u: string, pat: string, rep: string)
    requires pat != [] && pat[0] !in t
    ensures ReplaceAll(t + u, pat, rep) == t + ReplaceAll(u, pat, rep)
    decreases |t|
  {
    if t != [] {
      var s := t + u;
      assert s[0] == t[0] && s[1..] == t[1..] + u;
      if |s| >= |pat| {
        assert s[..|pat|][0] == t[0] != pat[0];
      }
      ReplaceAllSkipsPrefix(t[1..], u, pat, rep);
      assert [t[0]] + t[1..] == t;
    } else {
      assert t + u == u;
    }
  }

  /** A string that is exactly the pattern is replaced whole. */
  lemma ReplaceAllWhole(pat: string, rep: string)
    requires pat != []
    ensures ReplaceAll(pat, pat, rep) == rep
  {
    assert pat[..|pat|] == pat;
    assert pat[|pat|..] == [];
  }

  /** Every occurrence of the character `a` becomes `b`. */
  function ReplaceChar(s: string, a: char, b: char): (r: string)
    ensures |r| == |s|
    ensures forall k :: 0 <= k < |s| ==> r[k] == (if s[k] == a then b else s[k])
  {
    if s == [] then [] else [if s[0] == a then b else s[0]] + ReplaceChar(s[1..], a, b)
  }

  /** `parts.joined(separator: sep)`. */
  function Join(parts: seq<string>, sep: string): string
    decreases |parts|
  {
    if |parts| == 0 then ""
    else if |parts| == 1 then parts[0]
    else Join(parts[..|parts| - 1], sep) + sep + parts[|parts| - 1]
  }

  /** What the loaders build when they append `" " + part` for every part to
      an initially empty text. */
  function SpaceAcc(parts: seq<string>): string
    decreases |parts|
  {
    if parts == [] then "" else SpaceAcc(parts[..|parts| - 1]) + " " + parts[|parts| - 1]
  }

  /** Appending one part appends a space and that part. */
  lemma SpaceAccSnoc(parts: seq<string>, t: string)
    ensures SpaceAcc(parts + [t]) == SpaceAcc(parts) + " " + t
  {
    assert (parts + [t])[..|parts|] == parts;
  }

  lemma {:induction false} SpaceAccIsJoin(parts: seq<string>)
    requires parts != []
    ensures SpaceAcc(parts) == " " + Join(parts, " ")
    decreases |parts|
  {
    if |parts| > 1 {
      SpaceAccIsJoin(parts[..|parts| - 1]);
    }
  }

  /** Joining tight parts with single spaces yields a tight text. */
  lemma {:induction false} JoinTight(parts: seq<string>)
    requires parts != []
    requires forall k :: 0 <= k < |parts| ==> Tight(parts[k])
    ensures Tight(Join(parts, " "))
    decreases |parts|
  {
    if |parts| > 1 {
      var init := parts[..|parts| - 1];
      JoinTight(init);
      var j := Join(init, " ");
      assert Join(parts, " ") == j + " " + parts[|parts| - 1];
      assert (j + " " + parts[|parts| - 1])[0] == j[0];
    }
  }

  /** The space-accumulated text of tight parts, trimmed, is exactly the
      parts joined by single spaces: the loaders' `(acc ?? "") + " " + part`
      followed by a final trim produces `parts.joined(separator: " ")`. */
  lemma TrimSpaceAcc(parts: seq<string>)
    requires forall k :: 0 <= k < |parts| ==> Tight(parts[k])
    ensures TrimSpaces(SpaceAcc(parts)) == Join(parts, " ")
  {
    if parts != [] {
      SpaceAccIsJoin(parts);
      JoinTight(parts);
      TrimLeadingSpace(Join(parts, " "), false);
      TrimTight(Join(parts, " "));
    }
  }

  /** Whatever the parts, trimming their space-accumulated text gives the
      trimmed join: the leading space the accumulation adds never
      survives. */
  lemma TrimSpaceAccJoin(parts: seq<string>)
    ensures TrimSpaces(SpaceAcc(parts)) == TrimSpaces(Join(parts, " "))
  {
    if parts != [] {
      SpaceAccIsJoin(parts);
      TrimLeadingSpace(Join(parts, " "), false);
    }
  }

  /** A text without newline characters. */
  predicate NoNewline(s: string) {
    forall k :: 0 <= k < |s| ==> !IsNewline(s[k])
  }

  function CountNewlines(s: string): nat {
    if s == [] then 0 else (if IsNewline(s[0]) then 1 else 0) + CountNewlines(s[1..])
  }

  /** `components(separatedBy: .newlines)`: every newline character ends a
      line, so a text with n newline characters has n + 1 lines and no line
      holds a newline. */
  function SplitLines(s: string): (r: seq<string>)
    ensures |r| == 1 + CountNewlines(s)
    ensures forall k :: 0 <= k < |r| ==> NoNewline(r[k])
    decreases |s|
  {
    if s == [] then [""]
    else
      var rest := SplitLines(s[1..]);
      if IsNewline(s[0]) then [""] + rest
      else [[s[0]] + rest[0]] + rest[1..]
  }

  lemma {:induction false} JoinCons(a: string, ps: seq<string>, sep: string)
    requires ps != []
    ensures Join([a] + ps, sep) == a + sep + Join(ps, sep)
    decreases |ps|
  {
    if |ps| > 1 {
      var init := ps[..|ps| - 1];
      JoinCons(a, init, sep);
      assert ([a] + ps)[..|ps|] == [a] + init;
    } else {
      assert ps == [ps[0]];
    }
  }

  /** Splitting into lines loses nothing: for a text whose only newline
      character is '\n', joining the lines with "\n" gives the text back. */
  lemma {:induction false} SplitLinesJoin(s: string)
    requires forall k :: 0 <= k < |s| ==> IsNewline(s[k]) ==> s[k] == '\n'
    ensures Join(SplitLines(s), "\n") == s
    decreases |s|
  {
    if s != [] {
      var rest := SplitLines(s[1..]);
      SplitLinesJoin(s[1..]);
      assert s == [s[0]] + s[1..];
      if IsNewline(s[0]) {
        JoinCons("", rest, "\n");
      } else {
        SplitLinesCons(s);
      }
    }
  }

  lemma SplitLinesCons(s: string)
    requires s != [] && !IsNewline(s[0])
    ensures Join(SplitLines(s), "\n") == [s[0]] + Join(SplitLines(s[1..]), "\n")
  {
    var rest := SplitLines(s[1..]);
    var head := [s[0]] + rest[0];
    assert SplitLines(s) == [head] + rest[1..];
    if |rest| > 1 {
      JoinConsHead(s[0], rest);
    } else {
      assert [head] + rest[1..] == [head];
    }
  }

  /** Prepending a character to the first part prepends it to the join. */
  lemma JoinConsHead(c: char, ps: seq<string>)
    requires |ps| > 1
    ensures Join([[c] + ps[0]] + ps[1..], "\n") == [c] + Join(ps, "\n")
  {
    var tail := ps[1..];
    var jt := Join(tail, "\n");
    assert [ps[0]] + tail == ps;
    calc {
      Join([[c] + ps[0]] + tail, "\n");
      { JoinCons([c] + ps[0], tail, "\n"); }
      ([c] + ps[0]) + "\n" + jt;
      [c] + (ps[0] + "\n" + jt);
      { JoinCons(ps[0], tail, "\n"); }
      [c] + Join(ps, "\n");
    }
  }

  predicate IsDigit(c: char) { '0' <= c <= '9' }

  predicate IsHexDigit(c: char) {
    IsDigit(c) || ('a' <= c <= 'f') || ('A' <= c <= 'F')
  }

  function HexValue(c: char): (v: nat)
    requires IsHexDigit(c)
    ensures v < 16
  {
    if IsDigit(c) then c as int - '0' as int
    else if 'a' <= c <= 'f' then c as int - 'a' as int + 10
    else c as int - 'A' as int + 10
  }

  /** ASCII letters and digits: the part of `CharacterSet.alphanumerics`
      the model keeps. */
  predicate IsAlnum(c: char) {
    IsDigit(c) || ('a' <= c <= 'z') || ('A' <= c <= 'Z')
  }

  /** Lexicographic order on strings by character code, the order Swift's
      `sorted()` puts plain ASCII names in. */
  predicate LexLe(a: string, b: string)
    decreases |a|
  {
    a == [] || (b != [] && (a[0] < b[0] || (a[0] == b[0] && LexLe(a[1..], b[1..]))))
  }

  lemma {:induction false} LexLeTotal(a: string, b: string)
    ensures LexLe(a, b) || LexLe(b, a)
    decreases |a|
  {
    if a != [] && b != [] && a[0] == b[0] {
      LexLeTotal(a[1..], b[1..]);
    }
  }

  lemma {:induction false} LexLeTrans(a: string, b: string, c: string)
    requires LexLe(a, b) && LexLe(b, c)
    ensures LexLe(a, c)
    decreases |a|
  {
    if a != [] && b != [] && c != [] && a[0] == b[0] && b[0] == c[0] {
      LexLeTrans(a[1..], b[1..], c[1..]);
    }
  }
}

=== FILE: watch_today.dfy ===
/** The watch Today screen: today's tasks with the high-priority ones
    first, the completed count in the header, and the empty state. */
module WatchToday {
  import opened Tasks
  import TaskFlowWatchOS

  predicate IsHigh(t: TaskItem) {
    t.priority == High
  }

  /** Every high-priority task comes before every other one. */
  predicate HighFirst(s: seq<TaskItem>) {
    forall i, j :: 0 <= i < j < |s| && IsHigh(s[j]) ==> IsHigh(s[i])
  }

  /** `sorted { $0.priority == .high && $1.priority != .high }`: the
      library sort under that ordering puts the high-priority tasks before
      the rest; the model takes them in stored order, one order the sort
      may produce, and claims only the partition and the permutation. */
  function HighPriorityFirst(s: seq<TaskItem>): (r: seq<TaskItem>)
    ensures HighFirst(r)
    ensures multiset(r) == multiset(s)
  {
    var highs := Filter(s, IsHigh);
    var rest := Filter(s, (t: TaskItem) => !IsHigh(t));
    FilterSplit(s);
    highs + rest
  }

  /** What a filter keeps and what its negation keeps make up the whole. */
  lemma {:induction false} FilterSplit(s: seq<TaskItem>)
    ensures multiset(Filter(s, IsHigh)) + multiset(Filter(s, (t: TaskItem) => !IsHigh(t))) == multiset(s)
  {
    if s != [] {
      FilterSplit(s[1..]);
      assert s == [s[0]] + s[1..];
    }
  }

  /** `todayTasks`: the store's tasks due today, high priority first. */
  function TodayTasks(manager: TaskFlowWatchOS.TaskManager, now: int, dayOf: int -> int): (r: seq<TaskItem>)
    reads manager
    ensures HighFirst(r)
    ensures multiset(r) == multiset(manager.TasksForDate(now, dayOf))
  {
    HighPriorityFirst(manager.TasksForDate(now, dayOf))
  }

  /** `completedCount`: the completed tasks among today's. */
  function CompletedCount(manager: TaskFlowWatchOS.TaskManager, now: int, dayOf: int -> int): (n: nat)
    reads manager
    ensures n <= |TodayTasks(manager, now, dayOf)|
  {
    Count(TodayTasks(manager, now, dayOf), (t: TaskItem) => t.isCompleted)
  }

  /** Reordering does not change the count: it is the number of completed
      tasks due today, however the list is ordered. */
  lemma CompletedCountIgnoresOrder(manager: TaskFlowWatchOS.TaskManager, now: int, dayOf: int -> int)
    ensures CompletedCount(manager, now, dayOf)
         == Count(manager.TasksForDate(now, dayOf), (t: TaskItem) => t.isCompleted)
  {
    var done := (t: TaskItem) => t.isCompleted;
    var r := TodayTasks(manager, now, dayOf);
    var s := manager.TasksForDate(now, dayOf);
    FilterMultiset(r, done);
    FilterMultiset(s, done);
    assert multiset(Filter(r, done)) == multiset(Filter(s, done));
    assert |multiset(Filter(r, done))| == |multiset(Filter(s, done))|;
  }

  /** The "All done!" empty state shows exactly when no stored task is due
      today. */
  lemma EmptyStateWhenNothingDue(manager: TaskFlowWatchOS.TaskManager, now: int, dayOf: int -> int)
    ensures TodayTasks(manager, now, dayOf) == [] <==>
      forall k :: 0 <= k < |manager.tasks| ==> dayOf(manager.tasks[k].dueDate) != dayOf(now)
  {
    var r := TodayTasks(manager, now, dayOf);
    var s := manager.TasksForDate(now, dayOf);
    if r == [] {
      forall k | 0 <= k < |manager.tasks| ensures dayOf(manager.tasks[k].dueDate) != dayOf(now) {
        assert multiset(manager.tasks)[manager.tasks[k]] > 0;
      }
    } else {
      assert multiset(s)[r[0]] > 0;
      assert r[0] in s;
      var k :| 0 <= k < |s| && s[k] == r[0];
      assert multiset(manager.tasks)[r[0]] > 0;
      assert r[0] in manager.tasks;
    }
  }
}

=== FILE: wrappers.dfy ===
/** Option and Result, the two failure-carrying shapes the model uses for
    Swift optionals and thrown errors. */
module Wrappers {

  datatype Option<+T> = None | Some(value: T) {
    /** The wrapped value, or `default` when there is none (Swift's `??`). */
    function GetOr(default: T): T {
      match this
      case Some(v) => v
      case None => default
    }
  }

  datatype Result<+R, +E> = Success(value: R) | Failure(error: E)
}
